=== FILE: README.md ===
# BakeTrack dashboard — a Dafny model of its logic

BakeTrack is a small bakery dashboard. A Next.js front end keeps its sales
("transaksi"), its product catalogue and the owner's profile in a Google
Sheet, reached through an Apps Script web app. Every request goes through a
same-origin proxy route. This project models the logic that sits between the
screens and that spreadsheet, as immutable datatypes and pure functions:

- the generic table hook (filter, stable sort, paging) and its pager;
- the API client: profile and transaction normalisation, and the exact form
  each write posts;
- the proxy route's classification of upstream answers;
- the dashboard cache (refresh and local patch);
- sale entry: form, quantity parsing, totals, the stock write-back, edit and
  delete;
- the product catalogue page: search, the product modal, save and delete,
  picture choice;
- the product dropdown: selection, hidden select, menu state;
- the report page: takings, average, top three products, weekday buckets,
  CSV export, history table;
- sign-in and the route guard;
- the first-run setup wizard: URL validation, the connection test, steps,
  the footer, and the help texts' bold markers.

JavaScript values are modelled by `Js.Value`: undefined, null, booleans,
integers, strings, arrays, and objects as ordered key/value lists. Numbers
are `Numerals.JsNumber`, an integer or `NaN`. The network, `JSON.parse`,
the clock, local storage and `Date` parsing are parameters. Their effects
are returned as values (`Effect` datatypes). Each event handler is one
atomic transition from state to state plus effects.

Modules, one per file: `Optional`, `Text`, `Numerals`, `Js`, `Order`,
`Table`, `Pagination`, `Helpers`, `Api`, `Proxy`, `Dashboard`, `Entry`,
`Catalog`, `Dropdown`, `Report`, `Auth`, `Layout`, `Setup`.

## Model

| member | source | states |
|---|---|---|
| Js.Or | src/services/helpers.ts:11-13 | a logical or is one of its operands and is truthy exactly when either operand is; it is the left operand when that is truthy |
| Js.PropSetField | src/services/api.ts:64-69 | after `{...t, key: v}` the key reads back as `v`, and every other key reads as it did before |
| Js.SetField | src/services/api.ts:64-69 | `{...t, key: v}` keeps every other field in place, overwrites an existing key where it stands, appends a new one, and the key then reads back as `v` |
| Text.Lower | src/app/product/page.tsx:33 | lower-casing keeps the length and maps each character on its own |
| Text.LowerIdempotent | src/app/product/page.tsx:33 | lower-casing twice is lower-casing once |
| Text.ContainsIff | src/app/product/page.tsx:33 | `includes` holds exactly when the needle occurs at some position |
| Text.ContainsEmpty | src/app/product/page.tsx:33 | the empty query occurs in every name |
| Text.Trim | src/hooks/useTransactionHandlers.ts:97 | the trimmed text neither starts nor ends with whitespace |
| Text.TrimShape | src/hooks/useTransactionHandlers.ts:97 | trimming removes whitespace on both sides and nothing else |
| Text.TrimNoSpace | src/app/setup/page.tsx:62 | text without surrounding whitespace is left alone by trim |
| Text.ReplaceAllAbsent | src/app/setup/components/Step3Connect.tsx:37 | a global replace whose pattern does not occur changes nothing |
| Text.SplitJoin | src/app/report/page.tsx:107 | splitting a newline join gives the parts back when no part holds a newline |
| Numerals.IntToString | src/services/api.ts:97-99 | `toString` of an integer is a minus sign for negatives followed by decimal digits |
| Numerals.NatToStringValue | src/services/api.ts:97-99 | the digits written denote the number |
| Numerals.ParseIntToString | src/components/input/TransactionForm.tsx:110 | `parseInt` reads back exactly what `toString` wrote |
| Numerals.SignedDigitsOf | src/components/input/TransactionForm.tsx:110 | `parseInt` reads a run of digits whole, with or without a minus sign |
| Numerals.StringToNumberToString | src/app/product/page.tsx:65-66 | `Number` reads back exactly what `toString` wrote |
| Numerals.NumberRoundTrip | src/services/api.ts:145-146 | `Number(String(x))` is `x` for every number, `NaN` included |
| Numerals.Mul | src/hooks/useTransactionHandlers.ts:47 | a product is a number exactly when both factors are, and then it is their product |
| Numerals.Add | src/app/report/page.tsx:22 | a sum is a number exactly when both terms are, and then it is their sum |
| Order.Compare | src/hooks/useTable.ts:30-39 | the sort callback is negative, positive or zero exactly as `<` and `>` order the keys, with signs swapped for descending |
| Order.CompareAntisym | src/hooks/useTable.ts:35-38 | swapping the arguments negates the comparator |
| Order.LeTotal | src/hooks/useTable.ts:35-38 | any two keys are ordered one way or the other |
| Order.LeTrans | src/hooks/useTable.ts:35-38 | on keys of one kind (all strings or all numbers) the comparator is transitive |
| Order.LeNum | src/app/report/page.tsx:55 | on numbers the comparator is the numeric order, reversed for descending |
| Table.Keep | src/hooks/useTable.ts:27 | a filter result is no longer than its input and every element passes |
| Table.KeepMember | src/hooks/useTable.ts:27 | an element survives the filter exactly when it was in the input and passes |
| Table.KeepAll | src/hooks/useTable.ts:27 | the filter keeps everything exactly when everything passes |
| Table.KeepAppend | src/hooks/useTable.ts:27 | filtering a concatenation filters each part in order, so the result is a subsequence |
| Table.KeepSplit | src/hooks/useTable.ts:27 | what a filter drops, its complement keeps: the two results together are the input as a multiset |
| Table.KeepIdempotent | src/hooks/useTable.ts:27 | filtering twice is filtering once |
| Table.KeepCongruent | src/app/product/page.tsx:32-34 | filters that agree on the elements give the same list |
| Table.FilteredMember | src/hooks/useTable.ts:23-28 | a record is listed exactly when it is in the data and, with a non-empty query and a filter function, the filter accepts it |
| Table.Insert | src/hooks/useTable.ts:31 | inserting adds exactly one element |
| Table.SortBy | src/hooks/useTable.ts:30-39 | the sorted list is a permutation of its input |
| Table.SortBySorted | src/hooks/useTable.ts:30-39 | on keys of one kind the result is ordered by the comparator |
| Table.SortByStable | src/hooks/useTable.ts:30-39 | records with equal keys keep their relative order |
| Table.InsertStable | src/hooks/useTable.ts:30-39 | an insertion appends the element behind its equals |
| Table.InsertSorted | src/hooks/useTable.ts:30-39 | inserting into a sorted list keeps it sorted |
| Table.TotalPages | src/hooks/useTable.ts:45 | `ceil(n / perPage)`: enough pages for all rows, not one too many, and zero exactly for no rows |
| Table.Slice | src/hooks/useTable.ts:49 | `slice(start, end)` for non-negative bounds is the clamped sub-range |
| Table.PageRows | src/hooks/useTable.ts:47-50 | a page holds at most `perPage` rows, those starting at `(page-1)*perPage` |
| Table.PageBeyondEmpty | src/hooks/useTable.ts:47-50 | a page past the last one is empty |
| Table.PagesUpToPrefix | src/hooks/useTable.ts:47-50 | pages 1..k laid end to end are the first k*perPage rows |
| Table.PagesCoverAll | src/hooks/useTable.ts:45-50 | pages 1..totalPages laid end to end give back the whole list |
| Table.InitialView | src/hooks/useTable.ts:16-50 | the first render counts every record, loses none, and shows the first page of the data in the initial sort order (the data as given without one) |
| Table.Processed | src/hooks/useTable.ts:23-41 | the processed list is a permutation of the filtered list, and equals it when nothing is sorted |
| Table.Render | src/hooks/useTable.ts:45-77 | the view's counts and page come from the processed list; it shows at most `itemsPerPage` rows |
| Table.HandleSort | src/hooks/useTable.ts:52-58 | clicking a column sorts by it, descending exactly when it was already sorted ascending by it |
| Table.HandleSortCycles | src/hooks/useTable.ts:52-58 | repeated clicks on one column alternate the direction |
| Table.ClampPage | src/hooks/useTable.ts:61 | the clamped page is at least 1, at most the page count when there are pages, and in-range pages are kept |
| Table.GoToPage | src/hooks/useTable.ts:60-63 | only the page changes, to the clamped request |
| Table.NextPage | src/hooks/useTable.ts:75 | next moves one page on, and stays on the last page |
| Table.PrevPage | src/hooks/useTable.ts:76 | previous moves one page back, and stays on page 1 |
| Table.SetQuery | src/hooks/useTable.ts:71 | a new query leaves the page number and the sort alone |
| Table.TransitionsKeepValid | src/hooks/useTable.ts:52-76 | every transition keeps the page number at least 1, even with zero pages |
| Table.NarrowedQueryCanEmptyPage | src/hooks/useTable.ts:47-71 | narrowing the search while on a later page can leave an empty page |
| Pagination.Render | src/components/ui/Pagination.tsx:11-29 | hidden for at most one page; previous and next ask for the neighbouring pages and are disabled exactly on the first and last page |
| Pagination.PressStaysInRange | src/components/ui/Pagination.tsx:20-29 | wired to `goToPage`, an enabled button moves exactly one page and every press lands in 1..totalPages |
| Pagination.DisabledIsNoOp | src/components/ui/Pagination.tsx:20-29 | a disabled button, pressed anyway, would not move |
| Helpers.FindKey | src/services/helpers.ts:6 | the found key is the first, in key order, equal to the request ignoring case; -1 means there is none |
| Helpers.FoundKeyIsFirstExact | src/services/helpers.ts:6-7 | reading `obj[foundKey]` gets the value of the key that was found |
| Helpers.GetVal | src/services/helpers.ts:4-7 | undefined for a falsy object or no match, otherwise the value under the first case-insensitive match |
| Helpers.GetValIgnoresRequestCase | src/services/helpers.ts:6 | the casing of the requested key does not matter |
| Helpers.FindKeySameLower | src/services/helpers.ts:6 | requests equal ignoring case find the same key |
| Helpers.FindKeyRecased | src/services/helpers.ts:6 | re-casing the object's keys does not change which position is found |
| Helpers.GetValRecased | src/services/helpers.ts:4-7 | re-casing the object's keys does not change what is read |
| Helpers.MapProfile | src/services/helpers.ts:10-15 | name, email and photo are always truthy, each the looked-up value or its default; the password is passed through |
| Helpers.MapProfileDefaults | src/services/helpers.ts:11-13 | each default is used exactly when the lookup is falsy; the photo tries `photourl`, then `photo`, then the cook emoji |
| Helpers.MapProfileOfNothing | src/services/helpers.ts:5-15 | a missing profile gets every default and no password |
| Helpers.MapProfileRecased | src/services/helpers.ts:6-15 | re-casing the raw keys does not change the profile |
| Api.NormalizeProfile | src/services/api.ts:48-60 | the fetched profile has the same lookups and defaults as `mapProfile`, but no password |
| Api.TxId | src/services/api.ts:68 | a row's id is its truthy timestamp as text, else its id as text, else undefined |
| Api.NormalizeTransaction | src/services/api.ts:64-69 | every field is kept in place and `id` is set to the derived id |
| Api.NormalizeTransactions | src/services/api.ts:64-69 | each row is normalised in order; a null or undefined row makes the whole fetch fail |
| Api.FetchFullData | src/services/api.ts:40-80 | null on a throw, a non-2xx reply or a body without data; otherwise normalised transactions, products as given, and the normalised profile |
| Api.FetchFullDataSucceeds | src/services/api.ts:40-75 | a 2xx JSON object with a usable transaction list always yields data |
| Api.FetchFullDataDefaults | src/services/api.ts:48-73 | an empty payload gives empty lists and the default profile |
| Proxy.WriteThroughProxy | src/app/api/proxy/route.ts:30-67 | through the proxy, a write reports success exactly when a target and a form were given and the script answered 2xx |
| Api.SubmitTransactionForm | src/services/api.ts:85-99 | exactly eight fields in a fixed order; `subAction` is update exactly for an update |
| Api.SubmitTransactionRoundTrip | src/services/api.ts:92-99 | reading the form back gives the record's id (or the clock's), date, product and numbers as sent |
| Api.DeleteTransactionForm | src/services/api.ts:116-121 | a delete posts action, `subAction` delete and the id, nothing else |
| Api.OptNumberText | src/services/api.ts:145-146 | a missing number is sent as the empty string, and only then |
| Api.ManageProductForm | src/services/api.ts:138-147 | seven fields in a fixed order, empty text for missing values, never a `sold` field |
| Api.ManageProductIgnoresSold | src/services/api.ts:141-147 | two products differing only in `sold` post identical forms |
| Api.UpdateProfileForm | src/services/api.ts:164-170 | the photo travels under `photoUrl`, and no password is sent |
| Proxy.RawExcerpt | src/app/api/proxy/route.ts:22 | the echoed excerpt is the longest prefix of the body that fits in 200 UTF-16 code units; a body that fits is echoed whole |
| Proxy.RawExcerptBmp | src/app/api/proxy/route.ts:22 | for text inside the Basic Multilingual Plane the excerpt is exactly the first 200 characters |
| Proxy.ExcerptCountAstral | src/app/api/proxy/route.ts:22 | characters outside the Basic Multilingual Plane take two units each, so at most 100 of them are echoed |
| Proxy.ParseFailed | src/app/api/proxy/route.ts:20-22 | an unparseable body is answered 500 with the excerpt under `raw` |
| Proxy.HandleGet | src/app/api/proxy/route.ts:3-28 | 400 without a target; 500 on a network failure or an unparseable body; otherwise the parsed body with status 200 |
| Proxy.GetMissingUrlFetchesNothing | src/app/api/proxy/route.ts:7-9 | without a target the answer does not depend on the network at all |
| Proxy.GetHidesUpstreamStatus | src/app/api/proxy/route.ts:13-19 | a parseable body is relayed with status 200 whatever status the script answered with |
| Proxy.GetStatuses | src/app/api/proxy/route.ts:3-28 | the GET route only answers 200, 400 or 500, and 200 exactly when a body was parsed |
| Proxy.OutgoingParams | src/app/api/proxy/route.ts:43-46 | the forwarded form has the same pairs in the same order, values as text |
| Proxy.OutgoingParamsOfText | src/app/api/proxy/route.ts:43-46 | a text-only form is forwarded verbatim |
| Proxy.HandlePost | src/app/api/proxy/route.ts:30-67 | 400 without a target; success exactly when the body is a form and the script answered 2xx; otherwise failure |
| Proxy.PostIgnoresUpstreamBody | src/app/api/proxy/route.ts:58-62 | the script's answer body never matters to a POST |
| Proxy.FullDataThroughProxy | src/app/api/proxy/route.ts:13-23 | through the proxy, an unparseable script answer makes the data fetch fail, and a parsed one is judged on its contents alone |
| Dashboard.Refresh | src/context/DashboardContext.tsx:19-26 | a refresh ends loading; a result replaces the data and a failure keeps the old data |
| Dashboard.Mounted | src/context/DashboardContext.tsx:16-34 | after the mount refresh the data is exactly its result |
| Dashboard.UpdateLocalCompose | src/context/DashboardContext.tsx:28-30 | two local patches in a row equal one combined patch in which the later patch wins field by field |
| Dashboard.UpdateLocal | src/context/DashboardContext.tsx:28-30 | a patch merges into present data, and absent data stays absent |
| Dashboard.UpdateLocalIdempotent | src/context/DashboardContext.tsx:29 | applying a patch twice is applying it once |
| Dashboard.UpdateLocalEmpty | src/context/DashboardContext.tsx:29 | an empty patch changes nothing |
| Dashboard.RefreshOverwritesPatch | src/context/DashboardContext.tsx:19-30 | a successful refresh discards earlier local patches; a failed one keeps them |
| Dashboard.RefreshAll | src/context/DashboardContext.tsx:19-26 | after a run of refreshes the data is the last result that arrived |
| Dashboard.LastArrivedKeeps | src/context/DashboardContext.tsx:22-24 | once data has arrived, no later refresh blanks it |
| Entry.EmptyForm | src/hooks/useTransactionHandlers.ts:23-28 | the blank form has today's date, no product, an empty quantity and price 0 |
| Entry.Initial | src/hooks/useTransactionHandlers.ts:18-28 | the page starts with a blank form, not editing, not loading, no delete pending |
| Entry.QtyInput | src/components/input/TransactionForm.tsx:105-111 | empty text stays empty; other text becomes its `parseInt`, or 0 when that is NaN |
| Entry.QtyInputRoundTrip | src/components/input/TransactionForm.tsx:110 | typing the decimal form of a number sets the quantity to it |
| Entry.FinalQty | src/hooks/useTransactionHandlers.ts:46 | an empty quantity is submitted as 1 |
| Entry.DisplayedTotal | src/hooks/useTransactionHandlers.ts:147 | the shown total counts an empty quantity as 0 |
| Entry.DisplayedTotalMatchesSubmission | src/hooks/useTransactionHandlers.ts:46-47 | the shown total is the submitted total, except that an empty quantity shows 0 and submits one unit's price |
| Entry.SubmitLabel | src/components/input/TransactionForm.tsx:171 | the button reads UPDATING.../MENYIMPAN... while saving and UPDATE/SIMPAN otherwise, by editing mode |
| Entry.OptionIndex | src/components/input/TransactionForm.tsx:71 | the first option with the given value, or -1 |
| Entry.ProductCellOf | src/components/input/TransactionForm.tsx:68-88 | the dropdown is shown exactly when not editing; while editing the product is read-only with its icon or a box |
| Entry.ResetForm | src/hooks/useTransactionHandlers.ts:30-38 | a reset blanks the form and leaves edit mode, nothing else |
| Entry.AddedBy | src/hooks/useTransactionHandlers.ts:54 | the attribution is the user's name, else email, else "Unknown" |
| Entry.SaleRecord | src/hooks/useTransactionHandlers.ts:46-55 | the record carries the final quantity, quantity times price as total, and the editing id exactly when editing |
| Entry.StockIndex | src/hooks/useTransactionHandlers.ts:62 | the first product option with the sale's product, or -1 |
| Entry.StockUpdate | src/hooks/useTransactionHandlers.ts:61-75 | an update only when the option has id, stock and sold; stock goes down to no less than 0, sold goes up by the quantity |
| Entry.StockUpdateNonNegative | src/hooks/useTransactionHandlers.ts:66 | the stock written back is never negative |
| Entry.StockUpdateSoldNotSent | src/hooks/useTransactionHandlers.ts:67-74 | the new sold count is computed but the product form never carries it |
| Entry.HandleSubmit | src/hooks/useTransactionHandlers.ts:40-84 | nothing without a product; else one submit (an update exactly when editing), then refresh and reset on success or an alert on failure; a stock write only for a saved new sale with full option data |
| Entry.SubmitReplyDecides | src/hooks/useTransactionHandlers.ts:57-82 | given the write's reply, a submission refreshes exactly on a 2xx answer; a throw or any other status ends in the failure alert with the form kept |
| Entry.HandleEdit | src/hooks/useTransactionHandlers.ts:86-103 | editing fills the form with the trimmed product, quantity and price, and enters edit mode exactly for a non-empty id |
| Entry.EditThenSubmitUpdates | src/hooks/useTransactionHandlers.ts:53-101 | editing a sale and saving it unchanged submits an update under its own id |
| Entry.ConfirmDelete | src/hooks/useTransactionHandlers.ts:105-108 | confirming remembers the sale and opens the dialog |
| Entry.HandleDelete | src/hooks/useTransactionHandlers.ts:110-122 | nothing without a target id; else one delete, then refresh and close, or an alert |
| Entry.ConfirmThenDelete | src/hooks/useTransactionHandlers.ts:105-113 | confirming and deleting a sale deletes exactly its id |
| Entry.HandleProductChange | src/hooks/useTransactionHandlers.ts:124-131 | picking a product takes the price of its first option, or keeps the old price |
| Entry.ProductOptions | src/app/input/page.tsx:21-29 | one option per catalogue product: its name as value and caption, its price and image |
| Entry.FormSubmitNeverUpdatesStock | src/components/input/TransactionForm.tsx:41 | as the form submits, no sale ever updates stock or sold, not even with the page's options |
| Entry.CatalogStockOptions | src/hooks/useTransactionHandlers.ts:40 | options built from the catalogue carry each product's id, stock and sold |
| Entry.CatalogSubmit | src/hooks/useTransactionHandlers.ts:59-76 | with the catalogue's options, a stock write happens only for a saved new sale of a chosen product |
| Entry.CatalogSubmitUpdatesStock | src/hooks/useTransactionHandlers.ts:61-74 | with the catalogue's options, a saved new sale of a catalogued product writes its reduced stock |
| Entry.InputTableShape | src/app/input/page.tsx:62-67 | the history table shows five rows a page, newest date first, and a search keeps only sales whose product contains the query |
| Catalog.ProductsOf | src/app/product/page.tsx:28 | the catalogue is the product array, or empty |
| Catalog.Filtered | src/app/product/page.tsx:31-35 | every listed product's name contains the query, ignoring case |
| Catalog.FilteredMember | src/app/product/page.tsx:31-35 | a product is listed exactly when it is in the catalogue and its name matches |
| Catalog.FilteredEmptyQuery | src/app/product/page.tsx:31-35 | an empty search lists the whole catalogue in order |
| Catalog.FilteredIgnoresQueryCase | src/app/product/page.tsx:33 | the search does not depend on the case of the query |
| Catalog.OpenModal | src/app/product/page.tsx:38-52 | editing pre-fills name, image, and price and stock as text; a new product gets empty fields and the cupcake |
| Catalog.FieldText | src/services/api.ts:144-147 | a falsy field is sent as missing, any other as its text |
| Catalog.Payload | src/app/product/page.tsx:59-68 | the id is the edited product's id or the clock's reading, through `Number`; price and stock go through `Number`; no sold count |
| Catalog.HandleSubmit | src/app/product/page.tsx:55-77 | one save, an update exactly when editing; then refresh and close, or an alert with the modal still open |
| Catalog.SaveReplyDecides | src/app/product/page.tsx:55-76 | given the save's reply, the data is refreshed and the modal closed exactly on a 2xx answer |
| Catalog.EditThenSaveKeepsNumbers | src/app/product/page.tsx:38-68 | editing a product and saving it unchanged sends back its own id, price and stock |
| Catalog.NewProductUsesClock | src/app/product/page.tsx:60 | a new product is created under the clock's reading |
| Catalog.ConfirmDelete | src/app/product/page.tsx:80-83 | confirming remembers the product and opens the dialog |
| Catalog.HandleDelete | src/app/product/page.tsx:85-99 | nothing without a target; else one delete of its id, then refresh and close, or an alert |
| Catalog.IdText | src/services/api.ts:143 | a missing id is sent as empty text; a number as its decimal text |
| Catalog.Request | src/services/api.ts:138-147 | a delete posts its id and empty text for every other product field |
| Catalog.ConfirmThenDeleteSendsId | src/app/product/page.tsx:80-88 | confirming and deleting a product posts a delete of exactly its id |
| Catalog.SaveRequestRoundTrip | src/app/product/page.tsx:62-68 | the price and stock posted read back as the numbers typed |
| Catalog.PictureOf | src/app/product/page.tsx:149-153 | a string image starting with `http` is loaded as a URL and any other string is shown as it is, each carrying the image text; an image that is not a string makes the card throw |
| Catalog.GridRenders | src/app/product/page.tsx:146-153 | the product grid renders exactly when every product's image is a string, and then shows one picture per product, in order |
| Catalog.EmojiIsGlyph | src/app/product/page.tsx:149-153 | examples on fixed inputs: the cupcake default is shown as text and a web address as an image |
| Dropdown.SelectedIndex | src/components/ui/ClayDropdown.tsx:37 | the selected option is the first whose value is the current value |
| Dropdown.HiddenEntries | src/components/ui/ClayDropdown.tsx:54-61 | the placeholder with value "" first, every option in order, and one fallback for a value no option has |
| Dropdown.HiddenListsValue | src/components/ui/ClayDropdown.tsx:47-61 | the hidden select always has an entry for the current value |
| Dropdown.HiddenEntriesDistinctValue | src/components/ui/ClayDropdown.tsx:59-61 | the fallback entry is the only entry with that value |
| Dropdown.Button | src/components/ui/ClayDropdown.tsx:71-76 | the button shows the selected option's caption and icon, else the placeholder |
| Dropdown.MenuChecks | src/components/ui/ClayDropdown.tsx:104-125 | the placeholder has a check exactly for an empty value, an option exactly when it is the value |
| Dropdown.ChecksAgreeWithButton | src/components/ui/ClayDropdown.tsx:71-125 | with distinct values at most one item is checked, and it is the one the button shows |
| Dropdown.Handle | src/components/ui/ClayDropdown.tsx:27-67 | a toggle flips the menu, a pick closes it and reports the value, a native change reports it, an outside mousedown closes it |
| Dropdown.MenuItems | src/components/ui/ClayDropdown.tsx:100-112 | the menu offers the placeholder, picking "", then every option in order |
| Dropdown.PickClosesAndSelects | src/components/ui/ClayDropdown.tsx:39-61 | clicking any menu item closes the menu and reports a value the hidden select lists |
| Dropdown.ToggleTwice | src/components/ui/ClayDropdown.tsx:27-67 | two toggles restore the menu; a second outside mousedown changes nothing |
| Auth.AccountsOf | src/services/api.ts:71-75 | the fetched data offers one profile and no profile list |
| Auth.Candidates | src/context/AuthContext.tsx:67 | the profile list when present, else the single profile, else nothing |
| Auth.FindUser | src/context/AuthContext.tsx:74-80 | the first candidate whose e-mail and password match; a non-text e-mail met first makes the search throw |
| Auth.FindUserFound | src/context/AuthContext.tsx:74-80 | a user is found exactly when some candidate matches and every earlier one has a text e-mail and does not match |
| Auth.Login | src/context/AuthContext.tsx:57-96 | success exactly when data arrived and a candidate was found; then the user is set and the flag stored; otherwise nothing changes |
| Auth.LoginAsWrittenNeedsEmptyPassword | src/context/AuthContext.tsx:78 | with fetched data, only an empty password can sign in |
| Auth.FetchedProfileHasNoPassword | src/services/api.ts:56-60 | every fetched profile lacks a password |
| Auth.AdminPasswordRejected | src/context/AuthContext.tsx:75-78 | as written, admin/admin never signs in, whatever the sheet holds |
| Auth.AccountsKeepingPassword | src/services/helpers.ts:10-15 | the profile read with `mapProfile` keeps the sheet's password |
| Auth.LoginWithPasswordKept | src/context/AuthContext.tsx:74-88 | with the password kept, the `admin` shortcut and the sheet's password sign in |
| Auth.AdminMatches | src/context/AuthContext.tsx:75-78 | the `admin` shortcut and the right password match any profile with a text e-mail |
| Auth.SingleProfileLogin | src/context/AuthContext.tsx:67-88 | a matching single profile signs in |
| Auth.CheckAuth | src/context/AuthContext.tsx:24-55 | loading ends; no stored URL outside setup sends to setup; otherwise a stored flag signs in and a fetched profile becomes the user |
| Auth.Logout | src/context/AuthContext.tsx:98-103 | sign-out clears the user and the flag and goes to the login page |
| Auth.SessionSurvivesReload | src/context/AuthContext.tsx:36-99 | after a sign-in the reload check signs in again; after a sign-out it does not |
| Layout.Guard | src/components/layout/ClientLayout.tsx:16-29 | wait while loading; signed out off the public pages goes to login; signed in on login goes home; otherwise ready |
| Layout.RedirectSettles | src/components/layout/ClientLayout.tsx:19-27 | following a redirect lands on a page the guard accepts |
| Layout.SetupAlwaysReachable | src/components/layout/ClientLayout.tsx:19-26 | the setup page is reachable signed in or out |
| Layout.Render | src/components/layout/ClientLayout.tsx:31-42 | a spinner until loaded and ready; login and setup without the sidebar |
| Layout.Ready | src/components/layout/ClientLayout.tsx:26 | readiness only ever turns on, when the guard accepts |
| Layout.SignedOutSeesNoDashboard | src/components/layout/ClientLayout.tsx:16-42 | a signed-out visitor never sees a page with the sidebar on first load |
| Layout.LogoutThenGuard | src/components/layout/ClientLayout.tsx:19-20 | after sign-out every private page redirects to login |
| Setup.IdRun | src/app/setup/page.tsx:55 | the length of the leading run of word characters and hyphens |
| Setup.UrlValidIff | src/app/setup/page.tsx:53-56 | the scanner accepts a URL exactly when it splits as prefix, non-empty id, `/exec`, and an optional one-line query |
| Setup.ValidSplits | src/app/setup/page.tsx:53-56 | an accepted URL splits as the pattern says, with the id ending where the run of id characters ends |
| Setup.SplitsValid | src/app/setup/page.tsx:53-56 | a URL that splits as the pattern says is accepted |
| Setup.UrlAccepted | src/app/setup/page.tsx:55 | every deployment URL of that shape is accepted |
| Setup.UrlRefused | src/app/setup/page.tsx:55 | an empty id, or anything after `/exec` other than a one-line query, is refused |
| Setup.UrlExamples | src/app/setup/page.tsx:55 | examples on fixed inputs: a query is allowed; a trailing slash or a line break in the query is not |
| Setup.Init | src/app/setup/page.tsx:39-50 | a stored URL pre-fills the field and `step=3` jumps to step 3 |
| Setup.StartTest | src/app/setup/page.tsx:58-78 | nothing for an empty field; the URL is trimmed and kept; a malformed one fails with no request; a valid one starts a GET of `?action=getData` |
| Setup.FinishTest | src/app/setup/page.tsx:80-99 | success exactly for a 2xx JSON reply without `error` and with products or transactions; every other reply is an error |
| Setup.TestThroughProxy | src/app/setup/page.tsx:76-99 | through the proxy, an unparseable script answer fails the test and a parsed one is judged on its fields alone |
| Setup.HandleNext | src/app/setup/page.tsx:102-110 | next is blocked with an alert only on step 3 with no successful test and a malformed URL; otherwise one step on |
| Setup.HandlePrev | src/app/setup/page.tsx:112-114 | back moves one step, nothing else |
| Setup.SaveAndFinish | src/app/setup/page.tsx:116-119 | saving stores the trimmed URL and shows loading |
| Setup.SaveTimerFires | src/app/setup/page.tsx:120-123 | the timer ends loading and runs next |
| Setup.Footer | src/app/setup/components/SetupFooter.tsx:25-47 | no footer from step 4; on step 3 finish, disabled without a URL, while saving or before a successful test; otherwise an enabled next |
| Setup.EnabledFooterAdvances | src/app/setup/page.tsx:102-124 | an enabled footer button always moves exactly one step on, storing the URL on step 3 |
| Setup.StepsNeverSkipTest | src/app/setup/page.tsx:188 | the wizard cannot be finished before a test has succeeded |
| Setup.EditUrl | src/app/setup/components/Step3Connect.tsx:78-81 | typing replaces the URL and resets the status to idle |
| Setup.EditRequiresRetest | src/app/setup/components/SetupFooter.tsx:32 | any edit disables finishing until a new test succeeds |
| Setup.EnabledTestChangesStatus | src/app/setup/components/Step3Connect.tsx:101 | an enabled test button always leaves the idle state |
| Setup.NoticeOf | src/app/setup/components/Step3Connect.tsx:94-95 | the message is red exactly on error, green exactly on success |
| Setup.FinishedTestNotice | src/app/setup/page.tsx:90-98 | after a test the notice says success in green or failure in red |
| Setup.FirstPassNoMarkers | src/app/setup/components/Step3Connect.tsx:37 | the first replace leaves no `**` behind |
| Setup.SecondPassIsNoOp | src/app/setup/components/Step3Connect.tsx:37-63 | as written the second replace never fires, so no closing tag is produced |
| Setup.BoldAsWrittenPair | src/app/setup/components/Step3Connect.tsx:37 | as written a marked phrase opens two bold runs and closes none |
| Setup.BoldAsWrittenExample | src/app/setup/components/Step3Connect.tsx:37 | examples on fixed inputs: `**Chrome**` becomes `<b>Chrome<b>` |
| Setup.BoldPair | src/app/setup/components/Step3Connect.tsx:37 | with alternating markers a marked phrase becomes exactly one bold run |
| Setup.BoldExample | src/app/setup/components/Step3Connect.tsx:37 | examples on fixed inputs: `**Chrome**` becomes `<b>Chrome</b>` |
| Report.Omzet | src/app/report/page.tsx:22 | takings are a number exactly when every total is |
| Report.OmzetAppend | src/app/report/page.tsx:22 | takings of two lists add up |
| Report.Average | src/app/report/page.tsx:25 | 0 without sales; otherwise the value that times the count gives the takings |
| Report.Profit | src/app/report/page.tsx:23 | estimated profit is 45% of takings |
| Report.ComputeStats | src/app/report/page.tsx:21-34 | the takings are a number exactly when every total is; with no sales they and the average are 0; otherwise the average times the sale count is the takings, and the profit is 0.45 of them; a `NaN` total makes the average and profit `NaN` |
| Report.Sales | src/app/report/page.tsx:41-51 | each sale is read as its trimmed product name and `Number(qty)` |
| Report.DefaultIcon | src/app/report/page.tsx:39-48 | the icon of the first default whose key occurs in the name, or none |
| Report.IconFor | src/app/report/page.tsx:44-48 | a group's icon is the catalogue image, else a default icon, else a bagel, and never empty |
| Report.GroupIndex | src/app/report/page.tsx:43 | the group with that name, or -1 |
| Report.CountSale | src/app/report/page.tsx:43-51 | a sale opens at most one group, named after it, and never renames one |
| Report.GroupsDistinct | src/app/report/page.tsx:43-50 | group names are distinct |
| Report.GroupsCover | src/app/report/page.tsx:41-50 | there is a group for a name exactly when some sale has it |
| Report.GroupsSold | src/app/report/page.tsx:51 | each group counts the summed quantity of its product's sales |
| Report.GroupsCorrect | src/app/report/page.tsx:41-52 | one group per name sold, names distinct, each with its summed quantity |
| Report.ValuesOrder | src/app/report/page.tsx:54 | listing the groups is a permutation of them |
| Report.FirstThree | src/app/report/page.tsx:56 | `slice(0, 3)` is the first three, or all when fewer |
| Report.TopOf | src/app/report/page.tsx:54-56 | exactly three groups, or all of them when there are fewer, drawn from the groups |
| Report.TopOfMaximal | src/app/report/page.tsx:54-56 | with numeric counts every listed group has sold at least as much as every group left out |
| Report.SortByCount | src/app/report/page.tsx:55 | sorting by count puts larger counts first |
| Report.SortedCounts | src/app/report/page.tsx:55 | a descending sort by count gives non-increasing counts |
| Report.FirstThreeOrdered | src/app/report/page.tsx:56 | taking three keeps the order by count |
| Report.TopOfOrdered | src/app/report/page.tsx:54-56 | the best sellers come in non-increasing order of units sold |
| Report.GroupsFinite | src/app/report/page.tsx:51 | every count is a number when every quantity is |
| Report.TopProductsBest | src/app/report/page.tsx:37-56 | with numeric quantities no product left off the top list outsold one on it |
| Report.TopProductsOrdered | src/app/report/page.tsx:37-57 | the top list is in non-increasing order of units sold when every quantity is a number |
| Report.ConstructorSaleRead | src/app/report/page.tsx:42-51 | examples on fixed inputs: a sale of "constructor" is read as that name and its quantity |
| Report.InheritedNameDropped | src/app/report/page.tsx:43 | as written a product named "constructor" never reaches the top list; grouped properly it does |
| Report.DaySales | src/app/report/page.tsx:64-72 | each sale is read as its date's weekday and `Number(total)` |
| Report.Buckets | src/app/report/page.tsx:62-72 | there are seven buckets |
| Report.Weekly | src/app/report/page.tsx:60-77 | seven bars running Monday to Saturday and then Sunday, each its weekday's bucket |
| Report.WeeklyLabels | src/app/report/page.tsx:61-76 | the labels are Mo, Tu, We, Th, Fr, Sa, Su |
| Report.BucketsByDay | src/app/report/page.tsx:66-70 | each bucket holds exactly the takings of its weekday; unparseable dates add nothing |
| Report.BucketsAddUp | src/app/report/page.tsx:62-72 | when every date parses, the buckets add up to the takings |
| Report.TakingsAreOmzet | src/app/report/page.tsx:22 | the weekly amounts are the same totals the takings sum |
| Report.WeeklyAddsUp | src/app/report/page.tsx:60-77 | when every date parses, the seven bars add up to the takings figure |
| Report.ReportTableShape | src/app/report/page.tsx:89-94 | twenty rows a page, newest date first, every sale shown without a search |
| Report.Quote | src/app/report/page.tsx:101 | a quoted cell starts and ends with a quote |
| Report.QuoteRoundTrip | src/app/report/page.tsx:101 | with quotes doubled, every product name reads back from its CSV cell |
| Report.ReadBodyEscape | src/app/report/page.tsx:101 | a reader stops at the first lone quote after an escaped name and returns the name unescaped |
| Report.QuoteAsWrittenBreaks | src/app/report/page.tsx:101 | as written, the name `a"b` reads back as `a` |
| Report.CsvLines | src/app/report/page.tsx:98-107 | the export is the header then one line per sale in order, joined by newlines with none trailing |

## Left out

- Network, storage, navigation and timers. `fetch`, `JSON.parse`, `Date.now`, `localStorage`, router pushes, `alert` and `setTimeout` are parameters or returned effects. The proxy's logging is not modelled.
- Form serialisation. `FormData`, `URLSearchParams` and `encodeURIComponent` are not modelled; forms are ordered key/value lists.
- Dates. Parsing `new Date(...)`, `getDay` and `toISOString` are inputs: a weekday function for the report, an optional ISO date for editing, and "today" for the blank form.
- Floating point. Numbers are integers or `NaN`. Fractions, exponents, infinities and rounding are not modelled.
- Report.Average and Report.Profit: computed over `real`, with no rounding.
- Numerals.StringToNumber: integer numerals only. Text such as `1.5` or `1e3` reads as `NaN`, and `Infinity` or hex literals are not recognised.
- The profit per weekday (`laba` in the weekly buckets) is not modelled. It is 0.45 times each bucket and is not shown by the chart.
- Proxy.RawExcerpt and Proxy.ParseFailed: the excerpt is measured in UTF-16 code units, as `substring` measures it, but keeps whole characters only. When unit 200 is the first half of a surrogate pair, the source keeps that lone half; a Dafny string cannot hold one, so the model stops one unit earlier.
- Order.StrLess: compares code points, not UTF-16 code units. The two differ only for characters outside the Basic Multilingual Plane.
- Text.Lower: ASCII case folding only.
- Table.SortBy: the browser's sort is only required to be consistent. For keys of mixed kinds (strings and numbers in one column) `<` is no total order, and the result is implementation-defined. The model is a stable insertion sort. Its ordering lemma assumes keys of one kind; its permutation and stability lemmas hold for all keys.
- Table.TotalPages, Table.PageRows and Table.Render: require a positive `itemsPerPage`. Every caller passes 5 or 20, or the default 20.
- "Sorting works on a copy" holds trivially, because every value in the model is immutable.
- Report.ProductName and Catalog.NameOf: a product that is not a string reads as the empty name. The source would throw on `trim` or `toLowerCase`.
- Entry.HandleEdit: takes the sale as a typed record: the product a string, the quantity an integer and the price a number. The source copies the fetched row's fields as they are, so a quantity stored as text or missing (which makes the submitted total `NaN`) is not modelled.
- Catalog.OpenModal: `price.toString()` on a missing price throws in the source. The model renders such a value with `String`.
- Catalog.Grid: only the picture slot of a card is modelled. `product.sold.toLocaleString()` (src/app/product/page.tsx:160) also throws when the sold count is missing, and that is not modelled.
- Entry.ProductOptions: a truthy `products` value that is not an array gives no options. The source would throw on `map` (src/app/input/page.tsx:22-23).
- Entry.InputTableShape and Entry.ProductMatches: a sale whose product is not a string never matches a non-empty search. The source would throw on `toLowerCase` (src/app/input/page.tsx:66, src/app/report/page.tsx:93).
- Report.IconFor and Report.CatalogImage: a catalogue that is not an array has no image for any name. The source would throw on `find` (src/app/report/page.tsx:44).
- Catalog.ProductsOf: a truthy `products` value that is not an array is treated as an empty catalogue. The source would throw on `filter`.
- Api.NormalizeTransactions: a row that is an object is spread field by field. Spreading a string or an array into an object is not modelled; such rows keep no fields.
- Browser form validation (`required`, `min="1"`) is not modelled. Handlers are modelled as if any state could reach them.
- Async interleaving. Every handler is one atomic step. Overlapping requests are modelled only as a sequence of completed refreshes (`Dashboard.RefreshAll`).
- The setup page's captions, translations and toasts are not modelled; messages are kinds (`ErrUrl`, `SuccessConn`, `ErrConn`). The same holds for the input border colours at src/app/setup/components/Step3Connect.tsx:83-87, which follow the same status mapping as `Setup.NoticeOf`. The copy buttons for the demo credentials (src/app/setup/page.tsx:126-134) are not modelled.
- Setup.BackVisible is a plain predicate (back shown exactly on steps 2 and 3, src/app/setup/page.tsx:150). Entry.SubmitDisabled is also a plain predicate (src/components/input/TransactionForm.tsx:161). Neither carries a contract.
- The proxy target is `/api/proxy?url=` plus the encoded script URL. The model keeps the script URL itself (`Setup.TestTarget`, `Api.FullDataTarget`). The script URL of `api.ts` comes from the build environment (src/services/api.ts:1), while the wizard stores one in local storage; the model takes both as given.
- A request timeout, detection of the login page served by the script host, and special handling of 502 answers are not modelled, because the code has none.

## Findings

| source | as written | input that shows it | evidently intended | confidence | as-written member | corrected member |
|---|---|---|---|---|---|---|
| src/app/setup/components/Step3Connect.tsx:37 | every `**` becomes `<b>`, then a second global replace looks for `**` again | `**Chrome**` becomes `<b>Chrome<b>` | markers alternate between `<b>` and `</b>` | high; not executed | Setup.SecondPassIsNoOp | Setup.BoldPair |
| src/app/report/page.tsx:101 | the product is wrapped in quotes without doubling embedded quotes | the product `a"b` reads back as `a` | quotes doubled, as section 2 of RFC 4180 requires | high; not executed | Report.QuoteAsWrittenBreaks | Report.QuoteRoundTrip |
| src/components/input/TransactionForm.tsx:41 | the form calls `handleSubmit(e)` without product options, so the stock branch at src/hooks/useTransactionHandlers.ts:61 never runs; the page's options carry no id, stock or sold either | any new sale of a catalogued product | a sale lowers the product's stock and raises its sold count | high; not executed | Entry.FormSubmitNeverUpdatesStock | Entry.CatalogSubmitUpdatesStock |
| src/services/api.ts:56-60 | the fetched profile drops the password column, while sign-in compares the stored password, or the empty text, with the input (src/context/AuthContext.tsx:78) | e-mail `admin@admin.com` and password `admin` (the credentials the setup page hands out at src/app/setup/page.tsx:126-134) are rejected, as is any non-empty password for any e-mail | the sheet's password is kept, as `mapProfile` does | medium; not executed | Auth.AdminPasswordRejected | Auth.LoginWithPasswordKept |
| src/app/report/page.tsx:43 | groups live in a plain object, so `!counts[pName]` is false for names inherited from `Object.prototype` | a sale of a product named `constructor` never reaches the top list | every product name gets its own group | medium; not executed | Report.InheritedNameDropped | Report.GroupsCorrect |

=== FILE: api.dfy ===
/** The API client (src/services/api.ts): normalisation of the full-data
    payload and the exact form fields each write operation posts to the proxy.
    The network is a parameter: every call receives the reply it got. */
module Api {
  import opened Optional
  import opened Js
  import Numerals
  import Helpers

  /** What a `fetch` to the same-origin proxy produced: it threw, or a reply
      whose body parsed as JSON (`Some`) or did not (`None`). */
  datatype HttpReply = Thrown | Reply(status: int, body: Option<Value>)

  /** `res.ok`: a 2xx status. */
  predicate Ok(status: int)
  {
    200 <= status <= 299
  }

  /** The cached dashboard data. Products are passed through untouched, so they
      stay raw values; transactions are raw objects with a normalised `id`. */
  datatype Snapshot = Snapshot(transactions: seq<Value>, products: Value, profile: Helpers.Profile)

  /** URL the client asks the proxy to GET: the configured script URL plus the action. */
  function FullDataTarget(scriptUrl: string): string
  {
    scriptUrl + "?action=getData"
  }

  /** The profile as `fetchFullData` builds it: the same lookups and defaults as
      `mapProfile`, but no `password` key is copied. */
  function NormalizeProfile(raw: Value): (p: Helpers.Profile)
    ensures p == Helpers.MapProfile(raw).(password := Undef)
  {
    Helpers.Profile(
      Or(Helpers.GetVal(raw, "name"), Helpers.DefaultName),
      Or(Helpers.GetVal(raw, "email"), Helpers.DefaultEmail),
      Or(Or(Or(Helpers.GetVal(raw, "photourl"), Helpers.GetVal(raw, "photourl")),
            Helpers.GetVal(raw, "photo")), Helpers.DefaultPhoto),
      Undef)
  }

  /** The id a transaction row receives: its `timestamp` as text when truthy,
      else its `id` as text, else `undefined`. */
  function TxId(t: Value): (r: Value)
    ensures Truthy(Prop(t, "timestamp")) ==> r == Str(ToString(Prop(t, "timestamp")))
    ensures !Truthy(Prop(t, "timestamp")) && !Nullish(Prop(t, "id")) ==> r == Str(ToString(Prop(t, "id")))
    ensures !Truthy(Prop(t, "timestamp")) && Nullish(Prop(t, "id")) ==> r == Undef
  {
    var ts := Prop(t, "timestamp");
    if Truthy(ts) then Str(ToString(ts))
    else
      var id := Prop(t, "id");
      if Nullish(id) then Undef else Str(ToString(id))
  }

  /** The own fields `{...t}` copies: an object's fields; other values have
      none that are modelled. */
  function SpreadFields(t: Value): seq<(string, Value)>
  {
    if t.Obj? then t.fields else []
  }

  /** `{...t, id: TxId(t)}`: every field kept in place, `id` overwritten or appended. */
  function NormalizeTransaction(t: Value): (r: Value)
    ensures r.Obj? && Prop(r, "id") == TxId(t)
    ensures t.Obj? ==> |t.fields| <= |r.fields|
    ensures t.Obj? ==> forall j :: 0 <= j < |t.fields| && t.fields[j].0 != "id" ==> r.fields[j] == t.fields[j]
    ensures t.Obj? ==> |r.fields| == |t.fields| + (if FieldIndex(t.fields, "id") >= 0 then 0 else 1)
  {
    Obj(SetField(SpreadFields(t), "id", TxId(t)))
  }

  /** `(raw || []).map(normalise)`; `None` when the list is a truthy non-array
      (no `map`) or an element is null/undefined (reading `.timestamp` throws). */
  function NormalizeTransactions(items: seq<Value>): (r: Option<seq<Value>>)
    ensures r.Some? <==> forall i :: 0 <= i < |items| ==> !Nullish(items[i])
    ensures r.Some? ==> (|r.value| == |items| &&
      forall i :: 0 <= i < |items| ==> r.value[i] == NormalizeTransaction(items[i]))
  {
    if items == [] then Some([])
    else if Nullish(items[0]) then None
    else
      match NormalizeTransactions(items[1..])
      case None => None
      case Some(rest) => Some([NormalizeTransaction(items[0])] + rest)
  }

  /** The transaction list of a raw payload: missing or falsy means empty. */
  function RawTransactions(raw: Value): Option<seq<Value>>
  {
    var v := Or(Prop(raw, "transactions"), Arr([]));
    if v.Arr? then Some(v.items) else None
  }

  /** `fetchFullData()` given the proxy's reply: `None` (the function's `null`)
      on a throw, a non-2xx status, a non-JSON body, a null payload or a
      malformed transaction list; otherwise the normalised snapshot. */
  function FetchFullData(reply: HttpReply): (r: Option<Snapshot>)
    ensures reply.Thrown? || (reply.Reply? && !Ok(reply.status)) ==> r == None
    ensures reply.Reply? && reply.body == None ==> r == None
    ensures r.Some? ==> reply.Reply? && Ok(reply.status) && reply.body.Some? && !Nullish(reply.body.value)
    ensures r.Some? ==>
      var raw := reply.body.value;
      && RawTransactions(raw).Some?
      && |r.value.transactions| == |RawTransactions(raw).value|
      && (forall i :: 0 <= i < |r.value.transactions| ==>
            r.value.transactions[i] == NormalizeTransaction(RawTransactions(raw).value[i]))
      && r.value.products == Or(Prop(raw, "products"), Arr([]))
      && r.value.profile == Helpers.MapProfile(Or(Prop(raw, "profile"), Obj([]))).(password := Undef)
  {
    match reply
    case Thrown => None
    case Reply(status, body) =>
      if !Ok(status) || body.None? || Nullish(body.value) then None
      else
        var raw := body.value;
        match RawTransactions(raw)
        case None => None
        case Some(items) =>
          match NormalizeTransactions(items)
          case None => None
          case Some(txs) =>
            Some(Snapshot(txs, Or(Prop(raw, "products"), Arr([])),
                          NormalizeProfile(Or(Prop(raw, "profile"), Obj([])))))
  }

  /** A well-formed payload always yields a snapshot: JSON object, transactions an
      array of non-null rows or absent. */
  lemma FetchFullDataSucceeds(status: int, raw: Value)
    requires Ok(status) && raw.Obj?
    requires RawTransactions(raw).Some?
    requires forall i :: 0 <= i < |RawTransactions(raw).value| ==> !Nullish(RawTransactions(raw).value[i])
    ensures FetchFullData(Reply(status, Some(raw))).Some?
  {
  }

  /** A payload without a profile gets the default profile; without lists, empty lists. */
  lemma FetchFullDataDefaults(status: int)
    requires Ok(status)
    ensures FetchFullData(Reply(status, Some(Obj([])))) ==
      Some(Snapshot([], Arr([]), Helpers.Profile(Helpers.DefaultName, Helpers.DefaultEmail, Helpers.DefaultPhoto, Undef)))
  {
    var raw := Obj([]);
    assert Prop(raw, "transactions") == Undef && Prop(raw, "products") == Undef && Prop(raw, "profile") == Undef;
    assert RawTransactions(raw) == Some([]);
    assert NormalizeTransactions([]) == Some([]);
    assert Helpers.GetVal(raw, "name") == Undef && Helpers.GetVal(raw, "email") == Undef;
    assert Helpers.GetVal(raw, "photourl") == Undef && Helpers.GetVal(raw, "photo") == Undef;
  }

  // ---------------------------------------------------------------------------
  // Write operations: each posts a form and returns `res.ok`, or false on a throw.

  /** Ordered multipart form fields. */
  type Form = seq<(string, string)>

  /** `res.ok`, or false when the request threw. */
  function WriteSucceeded(reply: HttpReply): (ok: bool)
    ensures ok <==> reply.Reply? && Ok(reply.status)
  {
    reply.Reply? && Ok(reply.status)
  }

  /** The transaction object the client submits (the `Transaction` interface plus
      the attribution the handler attaches). */
  datatype TxRecord = TxRecord(id: Option<string>, date: string, product: string,
                               qty: int, price: Numerals.JsNumber, total: Numerals.JsNumber,
                               addedBy: Value)

  /** `data.id || Date.now().toString()`. */
  function SubmittedId(id: Option<string>, now: int): string
  {
    match id
    case Some(s) => if s != "" then s else Numerals.IntToString(now)
    case None => Numerals.IntToString(now)
  }

  /** `submitTransaction(data, isUpdate)`: exactly eight fields in this order; the
      total is the caller's, not recomputed; the attribution is not sent. */
  function SubmitTransactionForm(data: TxRecord, isUpdate: bool, now: int): (f: Form)
    ensures |f| == 8
    ensures FormKeys(f) == ["action", "subAction", "id", "date", "product", "qty", "price", "total"]
    ensures f[0].1 == "manageTransaction"
    ensures f[1].1 == "update" <==> isUpdate
    ensures f[1].1 == "create" <==> !isUpdate
  {
    [("action", "manageTransaction"),
     ("subAction", if isUpdate then "update" else "create"),
     ("id", SubmittedId(data.id, now)),
     ("date", data.date),
     ("product", data.product),
     ("qty", Numerals.IntToString(data.qty)),
     ("price", Numerals.NumberToString(data.price)),
     ("total", Numerals.NumberToString(data.total))]
  }

  function FormKeys(f: Form): (ks: seq<string>)
    ensures |ks| == |f| && forall i :: 0 <= i < |f| ==> ks[i] == f[i].0
  {
    if f == [] then [] else [f[0].0] + FormKeys(f[1..])
  }

  /** How the receiving script reads a form field: the first value under the key. */
  function FormGet(f: Form, key: string): Option<string>
  {
    if f == [] then None else if f[0].0 == key then Some(f[0].1) else FormGet(f[1..], key)
  }

  lemma {:induction false} FormGetFirst(f: Form, key: string, i: int)
    requires 0 <= i < |f| && f[i].0 == key
    requires forall j :: 0 <= j < i ==> f[j].0 != key
    ensures FormGet(f, key) == Some(f[i].1)
  {
    if i > 0 {
      FormGetFirst(f[1..], key, i - 1);
    }
  }

  lemma {:induction false} FormGetAbsent(f: Form, key: string)
    requires forall j :: 0 <= j < |f| ==> f[j].0 != key
    ensures FormGet(f, key) == None
  {
    if f != [] {
      FormGetAbsent(f[1..], key);
    }
  }

  /** Reading the numbers back out of a submitted form gives exactly the record's
      quantity, price and total, and its id when it had a non-empty one. */
  lemma SubmitTransactionRoundTrip(data: TxRecord, isUpdate: bool, now: int)
    ensures var f := SubmitTransactionForm(data, isUpdate, now);
      && FormGet(f, "date") == Some(data.date)
      && FormGet(f, "product") == Some(data.product)
      && FormGet(f, "qty").Some? && Numerals.ParseInt(FormGet(f, "qty").value) == Some(data.qty)
      && FormGet(f, "price").Some? && Numerals.StringToNumber(FormGet(f, "price").value) == data.price
      && FormGet(f, "total").Some? && Numerals.StringToNumber(FormGet(f, "total").value) == data.total
      && FormGet(f, "id").Some?
      && (data.id.Some? && data.id.value != "" ==> FormGet(f, "id") == Some(data.id.value))
      && (data.id.None? ==> Numerals.ParseInt(FormGet(f, "id").value) == Some(now))
  {
    var f := SubmitTransactionForm(data, isUpdate, now);
    FormGetFirst(f, "id", 2);
    FormGetFirst(f, "date", 3);
    FormGetFirst(f, "product", 4);
    FormGetFirst(f, "qty", 5);
    FormGetFirst(f, "price", 6);
    FormGetFirst(f, "total", 7);
    Numerals.ParseIntToString(data.qty);
    Numerals.NumberRoundTrip(data.price);
    Numerals.NumberRoundTrip(data.total);
    Numerals.ParseIntToString(now);
  }

  /** `deleteTransaction(id)`. */
  function DeleteTransactionForm(id: string): (f: Form)
    ensures FormKeys(f) == ["action", "subAction", "id"]
    ensures FormGet(f, "id") == Some(id) && FormGet(f, "subAction") == Some("delete")
  {
    var f := [("action", "manageTransaction"), ("subAction", "delete"), ("id", id)];
    FormGetFirst(f, "id", 2);
    FormGetFirst(f, "subAction", 1);
    f
  }

  datatype ProductAction = Create | Update | Delete

  function ActionName(a: ProductAction): string
  {
    match a
    case Create => "create"
    case Update => "update"
    case Delete => "delete"
  }

  /** `Partial<Product>` as the callers fill it in; numbers are the result of
      `Number(...)`, so they may be `NaN`. */
  datatype PartialProduct = PartialProduct(
    id: Option<Numerals.JsNumber>, name: Option<string>, price: Option<Numerals.JsNumber>,
    stock: Option<Numerals.JsNumber>, image: Option<string>, sold: Option<Numerals.JsNumber>)

  /** `x?.toString() || ''` for an optional number. */
  function OptNumberText(x: Option<Numerals.JsNumber>): (s: string)
    ensures x.None? <==> s == ""
  {
    match x
    case None => ""
    case Some(n) => Numerals.NumberToString(n)
  }

  /** `manageProduct(action, product)`: seven fields in order, `''` for each
      missing value; `sold` is never sent. */
  function ManageProductForm(action: ProductAction, p: PartialProduct): (f: Form)
    ensures FormKeys(f) == ["action", "subAction", "id", "name", "price", "stock", "image"]
    ensures forall i :: 0 <= i < |f| ==> f[i].0 != "sold"
    ensures f[3].1 == p.name.GetOr("") && f[6].1 == p.image.GetOr("")
    ensures f[4].1 == "" <==> p.price.None?
    ensures f[5].1 == "" <==> p.stock.None?
  {
    [("action", "manageProduct"),
     ("subAction", ActionName(action)),
     ("id", OptNumberText(p.id)),
     ("name", p.name.GetOr("")),
     ("price", OptNumberText(p.price)),
     ("stock", OptNumberText(p.stock)),
     ("image", p.image.GetOr(""))]
  }

  /** The receiving script reads each field of a product form from its own slot. */
  lemma ProductFormFields(f: Form)
    requires FormKeys(f) == ["action", "subAction", "id", "name", "price", "stock", "image"]
    ensures FormGet(f, "subAction") == Some(f[1].1) && FormGet(f, "id") == Some(f[2].1)
    ensures FormGet(f, "name") == Some(f[3].1) && FormGet(f, "price") == Some(f[4].1)
    ensures FormGet(f, "stock") == Some(f[5].1) && FormGet(f, "image") == Some(f[6].1)
  {
    var ks := FormKeys(f);
    assert forall i :: 0 <= i < |f| ==> f[i].0 == ks[i];
    FormGetFirst(f, "subAction", 1);
    FormGetFirst(f, "id", 2);
    FormGetFirst(f, "name", 3);
    FormGetFirst(f, "price", 4);
    FormGetFirst(f, "stock", 5);
    FormGetFirst(f, "image", 6);
  }

  /** Two partial products that differ only in `sold` post identical forms. */
  lemma ManageProductIgnoresSold(action: ProductAction, p: PartialProduct, sold: Option<Numerals.JsNumber>)
    ensures ManageProductForm(action, p.(sold := sold)) == ManageProductForm(action, p)
  {
  }

  /** `updateProfile(profile)`: the photo travels under the key `photoUrl`. */
  function UpdateProfileForm(p: Helpers.Profile): (f: Form)
    ensures FormKeys(f) == ["action", "name", "email", "photoUrl"]
    ensures FormGet(f, "photoUrl") == Some(ToString(p.photourl))
    ensures FormGet(f, "password") == None
  {
    var f := [("action", "updateProfile"),
              ("name", ToString(p.name)),
              ("email", ToString(p.email)),
              ("photoUrl", ToString(p.photourl))];
    FormGetFirst(f, "photoUrl", 3);
    FormGetAbsent(f, "password");
    f
  }
}

=== FILE: auth.dfy ===
/** Sign-in (src/context/AuthContext.tsx): credential matching against the
    profiles in the loaded data, the start-up session check and sign-out.
    Storage and navigation are returned as effects; the data fetch is an input. */
module Auth {
  import opened Optional
  import opened Js
  import Text
  import Helpers
  import Api

  datatype AuthState = AuthState(user: Option<Helpers.Profile>, loading: bool, loggedIn: bool)

  const Initial: AuthState := AuthState(None, true, false)

  /** What the provider asks of the browser. */
  datatype Effect = Navigate(path: string) | StoreAuthFlag(value: string) | RemoveAuthFlag

  /** The fields of the loaded data the sign-in reads: an optional list of
      profiles and an optional single profile. */
  datatype Accounts = Accounts(profiles: Option<seq<Helpers.Profile>>, profile: Option<Helpers.Profile>)

  /** The data as `fetchFullData` delivers it: one profile and no `profiles` list. */
  function AccountsOf(s: Api.Snapshot): (a: Accounts)
    ensures a.profiles.None? && a.profile == Some(s.profile)
  {
    Accounts(None, Some(s.profile))
  }

  /** `data.profiles || (data.profile ? [data.profile] : [])`. */
  function Candidates(a: Accounts): (r: seq<Helpers.Profile>)
    ensures a.profiles.Some? ==> r == a.profiles.value
    ensures a.profiles.None? && a.profile.Some? ==> r == [a.profile.value]
    ensures a.profiles.None? && a.profile.None? ==> r == []
  {
    if a.profiles.Some? then a.profiles.value
    else if a.profile.Some? then [a.profile.value]
    else []
  }

  /** `p.email || ''` is text that `toLowerCase` accepts. */
  predicate EmailIsText(p: Helpers.Profile)
  {
    Or(p.email, Str("")).Str?
  }

  /** The e-mail test: equal ignoring case, or the input is `admin` in any case. */
  predicate EmailMatches(p: Helpers.Profile, inputEmail: string)
    requires EmailIsText(p)
  {
    Text.Lower(Or(p.email, Str("")).s) == Text.Lower(inputEmail) || Text.Lower(inputEmail) == "admin"
  }

  /** The password test: `String(p.password || '')` equals the input; a
      missing password counts as empty. */
  predicate PasswordMatches(p: Helpers.Profile, inputPass: string)
  {
    ToString(Or(p.password, Str(""))) == inputPass
  }

  predicate Matches(p: Helpers.Profile, inputEmail: string, inputPass: string)
  {
    EmailIsText(p) && EmailMatches(p, inputEmail) && PasswordMatches(p, inputPass)
  }

  /** The search: the first candidate that matches, or none; a candidate
      whose e-mail is not text makes `toLowerCase` throw before that. */
  datatype Search = Found(index: nat) | NotFound | Threw

  function FindUser(cs: seq<Helpers.Profile>, inputEmail: string, inputPass: string): (r: Search)
    ensures r.Found? ==> r.index < |cs| && Matches(cs[r.index], inputEmail, inputPass)
    ensures r.Found? || r.NotFound? ==>
      forall j :: 0 <= j < (if r.Found? then r.index else |cs|) ==> EmailIsText(cs[j]) && !Matches(cs[j], inputEmail, inputPass)
    ensures r.Threw? ==> exists k :: (0 <= k < |cs| && !EmailIsText(cs[k]) &&
                                      forall j :: 0 <= j < k ==> EmailIsText(cs[j]) && !Matches(cs[j], inputEmail, inputPass))
  {
    if cs == [] then NotFound
    else if !EmailIsText(cs[0]) then Threw
    else if Matches(cs[0], inputEmail, inputPass) then Found(0)
    else
      match FindUser(cs[1..], inputEmail, inputPass)
      case Found(i) => Found(i + 1)
      case NotFound => NotFound
      case Threw =>
        ghost var k :| 0 <= k < |cs[1..]| && !EmailIsText(cs[1..][k]) &&
          forall j :: 0 <= j < k ==> EmailIsText(cs[1..][j]) && !Matches(cs[1..][j], inputEmail, inputPass);
        assert !EmailIsText(cs[k + 1]);
        assert forall j :: 1 <= j < k + 1 ==> cs[j] == cs[1..][j - 1];
        Threw
  }

  datatype LoginResult = LoginResult(state: AuthState, ok: bool, effects: seq<Effect>)

  /** `login(email, pass)`; `data` is what `fetchFullData` resolved to. A
      match signs the user in and stores the flag; anything else returns
      false and changes nothing. */
  function Login(st: AuthState, data: Option<Accounts>, inputEmail: string, inputPass: string): (r: LoginResult)
    ensures r.ok <==> data.Some? && FindUser(Candidates(data.value), inputEmail, inputPass).Found?
    ensures r.ok ==> var cs := Candidates(data.value);
      && r.state == st.(user := Some(cs[FindUser(cs, inputEmail, inputPass).index]), loggedIn := true)
      && r.effects == [StoreAuthFlag("true")]
    ensures !r.ok ==> r.state == st && r.effects == []
  {
    if data.None? then LoginResult(st, false, [])
    else
      var cs := Candidates(data.value);
      match FindUser(cs, inputEmail, inputPass)
      case Found(i) => LoginResult(st.(user := Some(cs[i]), loggedIn := true), true, [StoreAuthFlag("true")])
      case NotFound => LoginResult(st, false, [])
      case Threw => LoginResult(st, false, [])
  }

  /** Signing in is exactly "some candidate matches and no earlier candidate
      has a non-text e-mail". */
  lemma {:induction false} FindUserFound(cs: seq<Helpers.Profile>, inputEmail: string, inputPass: string)
    ensures FindUser(cs, inputEmail, inputPass).Found? <==>
      exists i :: 0 <= i < |cs| && Matches(cs[i], inputEmail, inputPass) &&
        forall j :: 0 <= j < i ==> EmailIsText(cs[j])
  {
    if cs != [] && EmailIsText(cs[0]) && !Matches(cs[0], inputEmail, inputPass) {
      FindUserFound(cs[1..], inputEmail, inputPass);
      assert forall j :: 1 <= j < |cs| ==> cs[j] == cs[1..][j - 1];
      if exists i :: 0 <= i < |cs| && Matches(cs[i], inputEmail, inputPass) && forall j :: 0 <= j < i ==> EmailIsText(cs[j]) {
        var i :| 0 <= i < |cs| && Matches(cs[i], inputEmail, inputPass) && forall j :: 0 <= j < i ==> EmailIsText(cs[j]);
        assert i > 0;
        assert Matches(cs[1..][i - 1], inputEmail, inputPass);
        assert forall j :: 0 <= j < i - 1 ==> EmailIsText(cs[1..][j]);
      }
    }
  }

  /** With the data `fetchFullData` delivers, the profile carries no
      password, so the only password that signs in is the empty one. */
  lemma LoginAsWrittenNeedsEmptyPassword(st: AuthState, s: Api.Snapshot, inputEmail: string, inputPass: string)
    requires s.profile.password == Undef
    ensures Login(st, Some(AccountsOf(s)), inputEmail, inputPass).ok ==> inputPass == ""
  {
  }

  /** Every snapshot `fetchFullData` produces has a profile without a password. */
  lemma FetchedProfileHasNoPassword(reply: Api.HttpReply)
    requires Api.FetchFullData(reply).Some?
    ensures Api.FetchFullData(reply).value.profile.password == Undef
  {
  }

  /** Hence a sheet password such as `admin` never works as written. */
  lemma AdminPasswordRejected(st: AuthState, reply: Api.HttpReply)
    requires Api.FetchFullData(reply).Some?
    ensures !Login(st, Some(AccountsOf(Api.FetchFullData(reply).value)), "admin", "admin").ok
  {
    FetchedProfileHasNoPassword(reply);
    LoginAsWrittenNeedsEmptyPassword(st, Api.FetchFullData(reply).value, "admin", "admin");
  }

  lemma LowerAdmin()
    ensures Text.Lower("admin") == "admin"
  {
  }

  /** The profile read with `mapProfile`, which keeps the password. */
  function AccountsKeepingPassword(rawProfile: Value): (a: Accounts)
    ensures a.profiles.None? && a.profile == Some(Helpers.MapProfile(rawProfile))
    ensures a.profile.value.password == Helpers.GetVal(rawProfile, "password")
  {
    Accounts(None, Some(Helpers.MapProfile(rawProfile)))
  }

  /** With the password kept, the `admin` shortcut and the sheet's password
      sign in, whatever the sheet's e-mail text. */
  lemma LoginWithPasswordKept(st: AuthState, rawProfile: Value, pw: string)
    requires Helpers.GetVal(rawProfile, "password") == Str(pw)
    requires Or(Helpers.GetVal(rawProfile, "email"), Helpers.DefaultEmail).Str?
    ensures Login(st, Some(AccountsKeepingPassword(rawProfile)), "admin", pw).ok
  {
    var a := AccountsKeepingPassword(rawProfile);
    var p := a.profile.value;
    assert p.email == Or(Helpers.GetVal(rawProfile, "email"), Helpers.DefaultEmail);
    AdminMatches(p, pw);
    SingleProfileLogin(st, p, "admin", pw);
  }

  lemma AdminMatches(p: Helpers.Profile, pw: string)
    requires p.password == Str(pw) && Truthy(p.email) && p.email.Str?
    ensures Matches(p, "admin", pw)
  {
    LowerAdmin();
  }

  lemma SingleProfileLogin(st: AuthState, p: Helpers.Profile, inputEmail: string, inputPass: string)
    requires Matches(p, inputEmail, inputPass)
    ensures Login(st, Some(Accounts(None, Some(p))), inputEmail, inputPass).ok
  {
    assert Candidates(Accounts(None, Some(p))) == [p];
    assert FindUser([p], inputEmail, inputPass) == Found(0);
  }

  /** `checkAuth` at start-up. `configUrl` and `storedAuth` are the stored
      values, `path` the current path, `data` what `fetchFullData` resolved
      to (it is only fetched for a stored flag). */
  function CheckAuth(st: AuthState, configUrl: Option<string>, path: string,
                     storedAuth: Option<string>, data: Option<Api.Snapshot>): (r: (AuthState, seq<Effect>))
    ensures !r.0.loading
    ensures (configUrl.None? || configUrl.value == "") && path != "/setup" ==>
      r == (st.(loading := false), [Navigate("/setup")])
    ensures !((configUrl.None? || configUrl.value == "") && path != "/setup") ==>
      && r.1 == []
      && (r.0.loggedIn <==> st.loggedIn || storedAuth == Some("true"))
      && (storedAuth == Some("true") && data.Some? ==> r.0.user == Some(data.value.profile))
      && (storedAuth != Some("true") || data.None? ==> r.0.user == st.user)
  {
    if (configUrl.None? || configUrl.value == "") && path != "/setup" then
      (st.(loading := false), [Navigate("/setup")])
    else if storedAuth == Some("true") then
      var user := if data.Some? then Some(data.value.profile) else st.user;
      (st.(loggedIn := true, user := user, loading := false), [])
    else (st.(loading := false), [])
  }

  /** `logout()`. */
  function Logout(st: AuthState): (r: (AuthState, seq<Effect>))
    ensures !r.0.loggedIn && r.0.user.None? && r.0.loading == st.loading
    ensures r.1 == [RemoveAuthFlag, Navigate("/login")]
  {
    (st.(user := None, loggedIn := false), [RemoveAuthFlag, Navigate("/login")])
  }

  /** The stored flag after a sequence of effects, starting from `flag`. */
  function StoredFlag(flag: Option<string>, effects: seq<Effect>): Option<string>
    decreases |effects|
  {
    if effects == [] then flag
    else
      var f := StoredFlag(flag, effects[..|effects| - 1]);
      match effects[|effects| - 1]
      case StoreAuthFlag(v) => Some(v)
      case RemoveAuthFlag => None
      case Navigate(_) => f
  }

  /** A session survives a reload exactly as long as the user has not signed
      out: after signing in the stored flag marks the next start-up as
      signed in, and after signing out it does not. */
  lemma SessionSurvivesReload(st: AuthState, data: Option<Accounts>, inputEmail: string, inputPass: string,
                              flag: Option<string>, url: string, path: string, next: Option<Api.Snapshot>)
    requires url != ""
    ensures var r := Login(st, data, inputEmail, inputPass);
      r.ok ==> CheckAuth(Initial, Some(url), path, StoredFlag(flag, r.effects), next).0.loggedIn
    ensures var r := Logout(st);
      !CheckAuth(Initial, Some(url), path, StoredFlag(flag, r.1), next).0.loggedIn
  {
    var r := Logout(st);
    assert r.1[..1] == [RemoveAuthFlag];
    assert r.1[..1][..0] == [];
  }
}

=== FILE: catalog.dfy ===
/** The product catalogue page (src/app/product/page.tsx): the searchable
    product list, the create/edit modal and the delete confirmation. Each
    handler is one atomic transition returning the new state and the
    requests it makes; `Date.now()` and request outcomes are inputs. */
module Catalog {
  import opened Optional
  import opened Js
  import Numerals
  import Text
  import Api
  import Order
  import Table

  /** `data?.products || []`; a truthy catalogue that is not an array reads as empty. */
  function ProductsOf(products: Option<Value>): (r: seq<Value>)
    ensures products.Some? && products.value.Arr? ==> r == products.value.items
    ensures products.None? || !products.value.Arr? ==> r == []
  {
    if products.Some? && products.value.Arr? then products.value.items else []
  }

  /** `p.name`, read as text; a name that is not a string reads as empty. */
  function NameOf(p: Value): string
  {
    var n := Prop(p, "name");
    if n.Str? then n.s else ""
  }

  predicate NameMatches(query: string, p: Value)
  {
    Text.ContainsIgnoreCase(NameOf(p), query)
  }

  /** `filteredProducts`: the products whose name contains the query, ignoring case. */
  function Filtered(products: seq<Value>, query: string): (r: seq<Value>)
    ensures |r| <= |products|
    ensures forall i :: 0 <= i < |r| ==> Text.ContainsIgnoreCase(NameOf(r[i]), query)
  {
    Table.Keep(products, p => NameMatches(query, p))
  }

  /** A product is listed exactly when it is in the catalogue and its name matches. */
  lemma FilteredMember(products: seq<Value>, query: string, p: Value)
    ensures p in Filtered(products, query) <==> p in products && Text.ContainsIgnoreCase(NameOf(p), query)
  {
    Table.KeepMember(products, p => NameMatches(query, p), p);
  }

  /** An empty search lists the whole catalogue, in order. */
  lemma FilteredEmptyQuery(products: seq<Value>)
    ensures Filtered(products, "") == products
  {
    forall i | 0 <= i < |products| ensures NameMatches("", products[i])
    {
      Text.ContainsEmpty(Text.Lower(NameOf(products[i])));
    }
    Table.KeepAll(products, p => NameMatches("", p));
  }

  /** The search does not depend on the case of the query. */
  lemma FilteredIgnoresQueryCase(products: seq<Value>, query: string)
    ensures Filtered(products, Text.Lower(query)) == Filtered(products, query)
  {
    Text.LowerIdempotent(query);
    Table.KeepCongruent(products, p => NameMatches(Text.Lower(query), p), p => NameMatches(query, p));
  }

  // ---------------------------------------------------------------- modal

  /** The modal's fields: name and image as given, price and stock as text. */
  datatype ProductForm = ProductForm(name: Value, price: string, stock: string, image: Value)

  const CupcakeIcon: string := "\U{1F9C1}"

  /** The form for a new product. */
  const BlankForm: ProductForm := ProductForm(Str(""), "", "", Str(CupcakeIcon))

  datatype CatalogState = CatalogState(
    query: string,
    modalOpen: bool,
    deleteOpen: bool,
    editing: Value,
    toDelete: Value,
    submitting: bool,
    form: ProductForm)

  const Initial: CatalogState := CatalogState("", false, false, Null, Null, false, BlankForm)

  /** `openModal(product)`: an edit pre-fills the fields from the product,
      price and stock through `toString`; a new product starts blank. */
  function OpenModal(st: CatalogState, product: Value): (r: CatalogState)
    ensures r.modalOpen && r.editing == (if Truthy(product) then product else Null)
    ensures Truthy(product) ==> r.form.name == Prop(product, "name") && r.form.image == Prop(product, "image")
    ensures Truthy(product) ==> r.form.price == ToString(Prop(product, "price")) && r.form.stock == ToString(Prop(product, "stock"))
    ensures !Truthy(product) ==> r.form == ProductForm(Str(""), "", "", Str(CupcakeIcon))
    ensures r.query == st.query && r.deleteOpen == st.deleteOpen && r.toDelete == st.toDelete
  {
    if Truthy(product) then
      st.(editing := product, modalOpen := true,
          form := ProductForm(Prop(product, "name"), ToString(Prop(product, "price")),
                              ToString(Prop(product, "stock")), Prop(product, "image")))
    else st.(editing := Null, modalOpen := true, form := BlankForm)
  }

  /** What a handler asks of the outside world. */
  datatype Effect =
    | Save(action: Api.ProductAction, product: Api.PartialProduct)
    | Remove(id: Value)
    | RefreshData
    | Alert(message: string)

  datatype Step = Step(state: CatalogState, effects: seq<Effect>)

  const SaveFailed: string := "Gagal menyimpan produk ke Google Sheets."
  const DeleteFailed: string := "Gagal menghapus produk."

  /** `x || ''` passed on as text: a falsy field is sent as missing. */
  function FieldText(v: Value): (r: Option<string>)
    ensures r.None? <==> !Truthy(v)
    ensures r.Some? ==> r.value == ToString(v)
  {
    if Truthy(v) then Some(ToString(v)) else None
  }

  /** The product `handleSubmit` sends: the edited product's id or `now`
      through `Number`, the name and image as typed, price and stock through
      `Number`, no `sold`. */
  function Payload(st: CatalogState, now: int): (p: Api.PartialProduct)
    ensures p.id == Some(if Truthy(st.editing) then Order.NumberOf(Prop(st.editing, "id")) else Numerals.Finite(now))
    ensures p.price == Some(Numerals.StringToNumber(st.form.price))
    ensures p.stock == Some(Numerals.StringToNumber(st.form.stock))
    ensures p.name == FieldText(st.form.name) && p.image == FieldText(st.form.image)
    ensures p.sold.None?
  {
    var id := if Truthy(st.editing) then Prop(st.editing, "id") else Num(now);
    Api.PartialProduct(Some(Order.NumberOf(id)), FieldText(st.form.name),
                       Some(Numerals.StringToNumber(st.form.price)),
                       Some(Numerals.StringToNumber(st.form.stock)),
                       FieldText(st.form.image), None)
  }

  /** `handleSubmit`: one save request, an update exactly when a product is
      being edited; on success the data is refreshed and the modal closes,
      on failure an alert is shown and the modal stays open. */
  function HandleSubmit(st: CatalogState, now: int, saved: bool): (r: Step)
    ensures |r.effects| == 2
    ensures r.effects[0].Save?
    ensures r.effects[0].action == (if Truthy(st.editing) then Api.Update else Api.Create)
    ensures r.effects[0].product == Payload(st, now)
    ensures saved ==> r.effects[1] == RefreshData && !r.state.modalOpen
    ensures !saved ==> r.effects[1] == Alert(SaveFailed) && r.state.modalOpen == st.modalOpen
    ensures !r.state.submitting
    ensures r.state.form == st.form && r.state.editing == st.editing && r.state.query == st.query
  {
    var action := if Truthy(st.editing) then Api.Update else Api.Create;
    var save := Save(action, Payload(st, now));
    if saved then Step(st.(submitting := false, modalOpen := false), [save, RefreshData])
    else Step(st.(submitting := false), [save, Alert(SaveFailed)])
  }

  /** Fed the reply of `manageProduct`, a save refreshes and closes the modal
      exactly when the request got a 2xx answer. */
  lemma SaveReplyDecides(st: CatalogState, now: int, reply: Api.HttpReply)
    ensures var r := HandleSubmit(st, now, Api.WriteSucceeded(reply));
      && (r.effects[1] == RefreshData <==> reply.Reply? && Api.Ok(reply.status))
      && (reply.Reply? && Api.Ok(reply.status) ==> !r.state.modalOpen)
  {
  }

  /** Editing a product whose price, stock and id are numbers and saving it
      unchanged sends back exactly those numbers, under its own id. */
  lemma EditThenSaveKeepsNumbers(st: CatalogState, product: Value, now: int, saved: bool,
                                 id: int, price: int, stock: int)
    requires Truthy(product)
    requires Prop(product, "id") == Num(id)
    requires Prop(product, "price") == Num(price)
    requires Prop(product, "stock") == Num(stock)
    ensures var e := HandleSubmit(OpenModal(st, product), now, saved).effects[0];
      && e.action == Api.Update
      && e.product.id == Some(Numerals.Finite(id))
      && e.product.price == Some(Numerals.Finite(price))
      && e.product.stock == Some(Numerals.Finite(stock))
  {
    var edit := OpenModal(st, product);
    var pl := Payload(edit, now);
    assert pl.price == Some(Numerals.Finite(price)) by {
      assert edit.form.price == Numerals.IntToString(price);
      Numerals.StringToNumberToString(price);
    }
    assert pl.stock == Some(Numerals.Finite(stock)) by {
      assert edit.form.stock == Numerals.IntToString(stock);
      Numerals.StringToNumberToString(stock);
    }
    assert pl.id == Some(Numerals.Finite(id));
    assert HandleSubmit(edit, now, saved).effects[0] == Save(Api.Update, pl);
  }

  /** A new product is created under the clock's reading. */
  lemma NewProductUsesClock(st: CatalogState, now: int, saved: bool)
    ensures var e := HandleSubmit(OpenModal(st, Null), now, saved).effects[0];
      e.action == Api.Create && e.product.id == Some(Numerals.Finite(now))
  {
  }

  /** `confirmDelete(product)`. */
  function ConfirmDelete(st: CatalogState, product: Value): (r: CatalogState)
    ensures r.toDelete == product && r.deleteOpen
    ensures r.form == st.form && r.modalOpen == st.modalOpen && r.editing == st.editing
  {
    st.(toDelete := product, deleteOpen := true)
  }

  /** `handleDelete()`: nothing without a target; otherwise one delete
      request carrying only the id, then a refresh and a closed dialog, or
      an alert and the dialog left open. */
  function HandleDelete(st: CatalogState, deleted: bool): (r: Step)
    ensures !Truthy(st.toDelete) ==> r == Step(st, [])
    ensures Truthy(st.toDelete) ==> |r.effects| == 2 && r.effects[0] == Remove(Prop(st.toDelete, "id"))
    ensures Truthy(st.toDelete) && deleted ==>
      r.effects[1] == RefreshData && !r.state.deleteOpen && r.state.toDelete == Null
    ensures Truthy(st.toDelete) && !deleted ==>
      r.effects[1] == Alert(DeleteFailed) && r.state.deleteOpen == st.deleteOpen && r.state.toDelete == st.toDelete
    ensures !r.state.submitting || r == Step(st, [])
    ensures r.state.form == st.form && r.state.modalOpen == st.modalOpen
  {
    if !Truthy(st.toDelete) then Step(st, [])
    else
      var remove := Remove(Prop(st.toDelete, "id"));
      if deleted then Step(st.(submitting := false, deleteOpen := false, toDelete := Null), [remove, RefreshData])
      else Step(st.(submitting := false), [remove, Alert(DeleteFailed)])
  }

  /** `product.id?.toString() || ''`. */
  function IdText(id: Value): (s: string)
    ensures Nullish(id) ==> s == ""
    ensures id.Str? ==> s == id.s
    ensures id.Num? ==> s == Numerals.IntToString(id.n)
  {
    if Nullish(id) then "" else ToString(id)
  }

  /** The form a request posts through `manageProduct`. */
  function Request(e: Effect): (f: Api.Form)
    requires e.Save? || e.Remove?
    ensures Api.FormKeys(f) == ["action", "subAction", "id", "name", "price", "stock", "image"]
    ensures e.Remove? ==> f[1].1 == "delete" && f[2].1 == IdText(e.id)
    ensures e.Remove? ==> f[3].1 == "" && f[4].1 == "" && f[5].1 == "" && f[6].1 == ""
  {
    if e.Save? then Api.ManageProductForm(e.action, e.product)
    else
      var f := Api.ManageProductForm(Api.Delete, Api.PartialProduct(None, None, None, None, None, None));
      f[2 := ("id", IdText(e.id))]
  }

  /** Confirming and deleting a product posts a delete carrying its id and
      nothing else. */
  lemma ConfirmThenDeleteSendsId(st: CatalogState, product: Value, deleted: bool)
    requires Truthy(product)
    ensures var e := HandleDelete(ConfirmDelete(st, product), deleted).effects[0];
      var f := Request(e);
      && Api.FormGet(f, "subAction") == Some("delete")
      && Api.FormGet(f, "id") == Some(IdText(Prop(product, "id")))
      && Api.FormGet(f, "name") == Some("") && Api.FormGet(f, "price") == Some("")
      && Api.FormGet(f, "stock") == Some("") && Api.FormGet(f, "image") == Some("")
  {
    var e := HandleDelete(ConfirmDelete(st, product), deleted).effects[0];
    assert e == Remove(Prop(product, "id"));
    Api.ProductFormFields(Request(e));
  }

  /** A saved product's price and stock text read back as the numbers typed. */
  lemma SaveRequestRoundTrip(st: CatalogState, now: int, saved: bool)
    ensures var f := Request(HandleSubmit(st, now, saved).effects[0]);
      && Api.FormGet(f, "subAction") == Some(if Truthy(st.editing) then "update" else "create")
      && Numerals.StringToNumber(f[4].1) == Numerals.StringToNumber(st.form.price)
      && Numerals.StringToNumber(f[5].1) == Numerals.StringToNumber(st.form.stock)
  {
    var f := Request(HandleSubmit(st, now, saved).effects[0]);
    Api.FormGetFirst(f, "subAction", 1);
    Numerals.NumberRoundTrip(Numerals.StringToNumber(st.form.price));
    Numerals.NumberRoundTrip(Numerals.StringToNumber(st.form.stock));
  }

  // ---------------------------------------------------------------- cards

  /** What a card shows in its picture slot. */
  datatype Picture = ImageUrl(src: string) | Glyph(text: string)

  /** The text a picture carries: the address it loads or the glyph it shows. */
  function PictureText(p: Picture): string
  {
    match p
    case ImageUrl(src) => src
    case Glyph(text) => text
  }

  /** A card's picture: an image text starting with `http` is a URL to load,
      any other text is shown as it is. An image that is not a string makes
      `startsWith` throw, so the card cannot render: `None`. */
  function PictureOf(image: Value): (r: Option<Picture>)
    ensures r.None? <==> !image.Str?
    ensures r.Some? ==> PictureText(r.value) == image.s
    ensures r.Some? ==> (r.value.ImageUrl? <==> Text.StartsWith(image.s, "http"))
  {
    if !image.Str? then None
    else if Text.StartsWith(image.s, "http") then Some(ImageUrl(image.s))
    else Some(Glyph(image.s))
  }

  /** The product grid: one picture per listed product, in order, or `None`
      when some product's image is not a string and rendering throws. */
  function Grid(products: seq<Value>): (r: Option<seq<Picture>>)
    decreases |products|
  {
    if products == [] then Some([])
    else
      match (PictureOf(Prop(products[0], "image")), Grid(products[1..]))
      case (Some(p), Some(rest)) => Some([p] + rest)
      case _ => None
  }

  /** The grid renders exactly when every product's image is a string, and
      then each card carries its product's image text. */
  lemma {:induction false} GridRenders(products: seq<Value>)
    ensures Grid(products).Some? <==> forall i :: 0 <= i < |products| ==> Prop(products[i], "image").Str?
    ensures Grid(products).Some? ==>
      |Grid(products).value| == |products|
      && forall i :: 0 <= i < |products| ==> Some(Grid(products).value[i]) == PictureOf(Prop(products[i], "image"))
    decreases |products|
  {
    if products != [] {
      GridRenders(products[1..]);
      assert forall i :: 1 <= i < |products| ==> products[i] == products[1..][i - 1];
    }
  }

  /** The default cupcake and any emoji are shown as text, never loaded. */
  lemma EmojiIsGlyph()
    ensures PictureOf(Str(CupcakeIcon)) == Some(Glyph(CupcakeIcon))
    ensures PictureOf(Str("https://example.com/a.png")) == Some(ImageUrl("https://example.com/a.png"))
  {
    assert !Text.StartsWith(CupcakeIcon, "http");
    assert "https://example.com/a.png"[..4] == "http";
  }
}

=== FILE: dashboard.dfy ===
/** The process-wide dashboard cache (src/context/DashboardContext.tsx): the last
    snapshot fetched and a loading flag. Each handler is one atomic transition;
    the fetch result is its input. */
module Dashboard {
  import opened Optional
  import opened Js
  import Api
  import Helpers

  datatype State = State(data: Option<Api.Snapshot>, loading: bool)

  /** A `Partial<FullDashboardData>`: the fields supplied. */
  datatype Patch = Patch(transactions: Option<seq<Value>>, products: Option<Value>, profile: Option<Helpers.Profile>)

  /** The provider's initial state, before the mount refresh completes. */
  const Initial: State := State(None, true)

  /** `refreshData()` completing with `result` (the value `fetchFullData` resolved to). */
  function Refresh(s: State, result: Option<Api.Snapshot>): (r: State)
    ensures !r.loading
    ensures result.Some? ==> r.data == result
    ensures result.None? ==> r.data == s.data
  {
    State(if result.Some? then result else s.data, false)
  }

  /** The state after the provider mounts and its single refresh completes. */
  function Mounted(result: Option<Api.Snapshot>): (r: State)
    ensures r.data == result && !r.loading
  {
    Refresh(Initial, result)
  }

  /** `{ ...prev, ...patch }` on a snapshot: an empty patch, or one restating
      the snapshot, leaves it as it was; a patch of every field ignores it. */
  function Merge(prev: Api.Snapshot, p: Patch): (r: Api.Snapshot)
    ensures p == Patch(None, None, None) ==> r == prev
    ensures p == Patch(Some(prev.transactions), Some(prev.products), Some(prev.profile)) ==> r == prev
    ensures p.transactions.Some? && p.products.Some? && p.profile.Some? ==>
              r == Api.Snapshot(p.transactions.value, p.products.value, p.profile.value)
  {
    Api.Snapshot(
      p.transactions.GetOr(prev.transactions),
      p.products.GetOr(prev.products),
      p.profile.GetOr(prev.profile))
  }

  /** `updateLocalData(patch)`: shallow merge into present data; null stays null;
      the loading flag is not touched. */
  function UpdateLocal(s: State, p: Patch): (r: State)
    ensures r.loading == s.loading
    ensures s.data.None? <==> r.data.None?
    ensures s.data.Some? ==> r.data == Some(Merge(s.data.value, p))
  {
    State(if s.data.Some? then Some(Merge(s.data.value, p)) else None, s.loading)
  }

  /** Applying the same patch twice is applying it once. */
  lemma UpdateLocalIdempotent(s: State, p: Patch)
    ensures UpdateLocal(UpdateLocal(s, p), p) == UpdateLocal(s, p)
  {
  }

  /** Two patches in a row: each field from the later patch when it has one,
      else from the earlier. */
  function Then(p: Patch, q: Patch): Patch
  {
    Patch(if q.transactions.Some? then q.transactions else p.transactions,
          if q.products.Some? then q.products else p.products,
          if q.profile.Some? then q.profile else p.profile)
  }

  /** Two local updates amount to one with the patches combined, the later
      patch winning field by field. */
  lemma UpdateLocalCompose(s: State, p: Patch, q: Patch)
    ensures UpdateLocal(UpdateLocal(s, p), q) == UpdateLocal(s, Then(p, q))
  {
  }

  /** An empty patch changes nothing. */
  lemma UpdateLocalEmpty(s: State)
    ensures UpdateLocal(s, Patch(None, None, None)) == s
  {
  }

  /** A successful refresh discards every local patch made before it; a failed
      one keeps them. */
  lemma RefreshOverwritesPatch(s: State, p: Patch, result: Option<Api.Snapshot>)
    ensures result.Some? ==> Refresh(UpdateLocal(s, p), result) == Refresh(s, result)
    ensures result.None? ==> Refresh(UpdateLocal(s, p), result).data == UpdateLocal(s, p).data
  {
  }

  /** The data shown after a run of refreshes: the last result that arrived,
      or the data from before the run when none did. */
  function LastArrived(before: Option<Api.Snapshot>, results: seq<Option<Api.Snapshot>>): Option<Api.Snapshot>
    decreases |results|
  {
    if results == [] then before
    else if results[|results| - 1].Some? then results[|results| - 1]
    else LastArrived(before, results[..|results| - 1])
  }

  /** A run of refreshes, applied in order: the data is the last snapshot that
      arrived (so data, once present, is never blanked) and loading ends false. */
  function RefreshAll(s: State, results: seq<Option<Api.Snapshot>>): (r: State)
    ensures r.data == LastArrived(s.data, results)
    ensures |results| > 0 ==> !r.loading
    decreases |results|
  {
    if results == [] then s
    else
      var r := Refresh(RefreshAll(s, results[..|results| - 1]), results[|results| - 1]);
      r
  }

  /** Once data has arrived, no later run of refreshes blanks it. */
  lemma {:induction false} LastArrivedKeeps(before: Option<Api.Snapshot>, results: seq<Option<Api.Snapshot>>)
    requires before.Some?
    ensures LastArrived(before, results).Some?
    decreases |results|
  {
    if results != [] && results[|results| - 1].None? {
      LastArrivedKeeps(before, results[..|results| - 1]);
    }
  }
}

=== FILE: dropdown.dfy ===
/** The product picker (src/components/ui/ClayDropdown.tsx): a button that
    opens a menu of options, backed by a hidden native select that carries the
    value for form validation. */
module Dropdown {
  import opened Optional

  /** One option; an `icon` of "" stands for a missing icon. */
  datatype Choice = Choice(value: string, caption: string, icon: string)

  /** `options.find(opt => opt.value === value)`, as an index, or -1. */
  function SelectedIndex(options: seq<Choice>, value: string): (r: int)
    ensures -1 <= r < |options|
    ensures r >= 0 ==> options[r].value == value && forall j :: 0 <= j < r ==> options[j].value != value
    ensures r == -1 ==> forall j :: 0 <= j < |options| ==> options[j].value != value
  {
    if options == [] then -1
    else if options[0].value == value then 0
    else
      var k := SelectedIndex(options[1..], value);
      if k == -1 then -1 else k + 1
  }

  /** The entries of the hidden select, as (value, text): the placeholder
      with value "", every option in order, and a fallback entry for a
      non-empty value that no option carries. */
  function HiddenEntries(options: seq<Choice>, value: string, placeholder: string): (r: seq<(string, string)>)
    ensures |r| == 1 + |options| + (if value != "" && SelectedIndex(options, value) == -1 then 1 else 0)
    ensures r[0] == ("", placeholder)
    ensures forall i :: 0 <= i < |options| ==> r[i + 1] == (options[i].value, options[i].caption)
    ensures |r| == |options| + 2 ==> r[|options| + 1] == (value, value)
  {
    var listed := seq(|options|, i requires 0 <= i < |options| => (options[i].value, options[i].caption));
    var fallback := if value != "" && SelectedIndex(options, value) == -1 then [(value, value)] else [];
    [("", placeholder)] + listed + fallback
  }

  /** The hidden select always has an entry for the current value, so the
      native control never drops it. */
  lemma HiddenListsValue(options: seq<Choice>, value: string, placeholder: string)
    ensures exists i :: (0 <= i < |HiddenEntries(options, value, placeholder)| &&
                         HiddenEntries(options, value, placeholder)[i].0 == value)
  {
    var r := HiddenEntries(options, value, placeholder);
    var k := SelectedIndex(options, value);
    if value == "" {
      assert r[0].0 == value;
    } else if k >= 0 {
      assert r[k + 1].0 == value;
    } else {
      assert r[|options| + 1].0 == value;
    }
  }

  /** The fallback entry appears only for a value no option carries, and
      then it is the only entry with that value. */
  lemma HiddenEntriesDistinctValue(options: seq<Choice>, value: string, placeholder: string)
    requires value != "" && SelectedIndex(options, value) == -1
    ensures var r := HiddenEntries(options, value, placeholder);
      forall i :: 0 <= i < |r| && r[i].0 == value ==> i == |options| + 1
  {
  }

  /** What the button shows. */
  datatype ButtonText = Selected(caption: string, icon: Option<string>) | Placeholder(text: string)

  function Button(options: seq<Choice>, value: string, placeholder: string): (b: ButtonText)
    ensures b.Selected? <==> SelectedIndex(options, value) >= 0
    ensures b.Selected? ==> var o := options[SelectedIndex(options, value)];
      b.caption == o.caption && (b.icon.Some? <==> o.icon != "") && (b.icon.Some? ==> b.icon.value == o.icon)
    ensures b.Placeholder? ==> b.text == placeholder
  {
    var k := SelectedIndex(options, value);
    if k >= 0 then
      var o := options[k];
      Selected(o.caption, if o.icon != "" then Some(o.icon) else None)
    else Placeholder(placeholder)
  }

  /** The menu's check marks: one on the placeholder item, one per option. */
  datatype Checks = Checks(placeholder: bool, options: seq<bool>)

  function MenuChecks(options: seq<Choice>, value: string): (c: Checks)
    ensures c.placeholder <==> value == ""
    ensures |c.options| == |options|
    ensures forall i :: 0 <= i < |options| ==> (c.options[i] <==> options[i].value == value)
  {
    Checks(value == "", seq(|options|, i requires 0 <= i < |options| => options[i].value == value))
  }

  /** With distinct option values at most one option carries a check, and
      the button shows a label exactly when some option is checked. */
  lemma ChecksAgreeWithButton(options: seq<Choice>, value: string, placeholder: string)
    requires forall i, j :: 0 <= i < j < |options| ==> options[i].value != options[j].value
    ensures var c := MenuChecks(options, value);
      forall i, j :: 0 <= i < |options| && 0 <= j < |options| && c.options[i] && c.options[j] ==> i == j
    ensures var c := MenuChecks(options, value);
      Button(options, value, placeholder).Selected? <==> exists i :: 0 <= i < |options| && c.options[i]
  {
    var c := MenuChecks(options, value);
    var k := SelectedIndex(options, value);
    if k >= 0 {
      assert c.options[k];
    }
  }

  /** What can happen to the open/closed menu. */
  datatype Event =
    | Toggle                  // the button is clicked
    | Pick(choice: string)    // a menu item (placeholder or option) is clicked
    | NativeChange(v: string) // the hidden select changes
    | MouseDown(inside: bool) // a mousedown anywhere in the document

  /** One event: the new `isOpen` and the value passed to `onChange`, if any. */
  function Handle(isOpen: bool, e: Event): (r: (bool, Option<string>))
    ensures e.Toggle? ==> r == (!isOpen, None)
    ensures e.Pick? ==> r == (false, Some(e.choice))
    ensures e.NativeChange? ==> r == (isOpen, Some(e.v))
    ensures e.MouseDown? ==> r.1.None? && (r.0 <==> isOpen && e.inside)
  {
    match e
    case Toggle => (!isOpen, None)
    case Pick(v) => (false, Some(v))
    case NativeChange(v) => (isOpen, Some(v))
    case MouseDown(inside) => (if inside then isOpen else false, None)
  }

  /** The menu's items and what clicking each one passes on: "" for the
      placeholder, then each option's value. */
  function MenuItems(options: seq<Choice>): (r: seq<Event>)
    ensures |r| == |options| + 1 && r[0] == Pick("")
    ensures forall i :: 0 <= i < |options| ==> r[i + 1] == Pick(options[i].value)
  {
    [Pick("")] + seq(|options|, i requires 0 <= i < |options| => Pick(options[i].value))
  }

  /** Clicking any menu item closes the menu and selects a value the hidden
      select lists, so the button then shows that item. */
  lemma PickClosesAndSelects(options: seq<Choice>, isOpen: bool, k: int, placeholder: string)
    requires 0 <= k < |options| + 1
    requires forall i, j :: 0 <= i < j < |options| ==> options[i].value != options[j].value
    ensures var r := Handle(isOpen, MenuItems(options)[k]);
      !r.0 && r.1.Some?
    ensures var v := Handle(isOpen, MenuItems(options)[k]).1.value;
      k > 0 ==> SelectedIndex(options, v) == k - 1 && Button(options, v, placeholder).Selected?
  {
  }

  /** Two toggles restore the menu; a second outside mousedown changes nothing. */
  lemma ToggleTwice(isOpen: bool)
    ensures Handle(Handle(isOpen, Toggle).0, Toggle).0 == isOpen
    ensures Handle(Handle(isOpen, MouseDown(false)).0, MouseDown(false)) == Handle(isOpen, MouseDown(false))
  {
  }
}

=== FILE: entry.dfy ===
/** Sale entry: the handlers of src/hooks/useTransactionHandlers.ts, the form of
    src/components/input/TransactionForm.tsx and the wiring on the input page
    (src/app/input/page.tsx). Each handler is one atomic transition returning
    the new state and the requests it makes, in order; the outcome of each
    request is an input. */
module Entry {
  import opened Optional
  import opened Js
  import Numerals
  import Text
  import Api
  import Helpers
  import Order
  import Table

  /** The quantity field: empty, or a number. */
  datatype Qty = Blank | Count(n: int)

  datatype FormData = FormData(date: string, product: string, qty: Qty, price: Numerals.JsNumber)

  datatype EntryState = EntryState(
    form: FormData,
    editingId: Option<string>,
    loading: bool,
    deleteOpen: bool,
    toDelete: Option<Api.TxRecord>)

  /** What a handler asks of the outside world. */
  datatype Effect =
    | SubmitTx(record: Api.TxRecord, isUpdate: bool)
    | UpdateProduct(product: Api.PartialProduct)
    | DeleteTx(id: string)
    | RefreshData
    | Alert(message: string)

  const SaveFailed: string := "Gagal menyimpan ke Google Sheets. Silakan coba lagi."
  const DeleteFailed: string := "Gagal menghapus transaksi."

  /** The blank form; `today` is the current date as `YYYY-MM-DD`. */
  function EmptyForm(today: string): (f: FormData)
    ensures f.product == "" && f.qty == Blank && f.price == Numerals.Finite(0) && f.date == today
  {
    FormData(today, "", Blank, Numerals.Finite(0))
  }

  function Initial(today: string): (st: EntryState)
    ensures st.form == EmptyForm(today) && st.editingId.None? && !st.loading
    ensures !st.deleteOpen && st.toDelete.None?
  {
    EntryState(EmptyForm(today), None, false, false, None)
  }

  /** `editingId` is truthy. */
  predicate Editing(st: EntryState)
  {
    st.editingId.Some? && st.editingId.value != ""
  }

  // ---------------------------------------------------------------- form

  /** The quantity input's change handler: empty text stays empty, anything
      else is `parseInt(text) || 0`. */
  function QtyInput(text: string): (q: Qty)
    ensures q.Blank? <==> text == ""
    ensures text != "" && Numerals.ParseInt(text).Some? ==> q == Count(Numerals.ParseInt(text).value)
    ensures text != "" && Numerals.ParseInt(text).None? ==> q == Count(0)
  {
    if text == "" then Blank else Count(Numerals.ParseInt(text).GetOr(0))
  }

  /** Typing the decimal form of a number sets the quantity to that number. */
  lemma QtyInputRoundTrip(n: int)
    ensures QtyInput(Numerals.IntToString(n)) == Count(n)
  {
    Numerals.ParseIntToString(n);
  }

  /** The quantity submitted: an empty field counts as one. */
  function FinalQty(q: Qty): (n: int)
    ensures q.Blank? ==> n == 1
    ensures q.Count? ==> n == q.n
  {
    if q.Blank? then 1 else q.n
  }

  /** The total shown under the form: an empty field counts as zero. */
  function DisplayedTotal(f: FormData): (t: Numerals.JsNumber)
    ensures f.qty.Blank? && f.price.Finite? ==> t == Numerals.Finite(0)
    ensures f.qty.Count? && f.price.Finite? ==> t == Numerals.Finite(f.qty.n * f.price.n)
    ensures f.price.NaN? ==> t.NaN?
  {
    Numerals.Mul(Numerals.Finite(if f.qty.Blank? then 0 else f.qty.n), f.price)
  }

  /** The displayed total is the total that will be submitted, except for an
      empty quantity field, shown as zero but submitted as one unit. */
  lemma DisplayedTotalMatchesSubmission(st: EntryState, user: Option<Helpers.Profile>)
    ensures st.form.qty.Count? ==> DisplayedTotal(st.form) == SaleRecord(st, user).total
    ensures st.form.qty.Blank? && st.form.price.Finite? ==>
      DisplayedTotal(st.form) == Numerals.Finite(0) && SaleRecord(st, user).total == st.form.price
  {
  }

  /** The submit button is disabled while saving or with no product chosen. */
  predicate SubmitDisabled(st: EntryState)
  {
    st.loading || st.form.product == ""
  }

  function SubmitLabel(st: EntryState): (s: string)
    ensures st.loading && Editing(st) ==> s == "UPDATING..."
    ensures st.loading && !Editing(st) ==> s == "MENYIMPAN..."
    ensures !st.loading && Editing(st) ==> s == "UPDATE"
    ensures !st.loading && !Editing(st) ==> s == "SIMPAN"
  {
    if st.loading then (if Editing(st) then "UPDATING..." else "MENYIMPAN...")
    else (if Editing(st) then "UPDATE" else "SIMPAN")
  }

  /** A dropdown entry built from a catalogue product (`caption` is the
      option's label). */
  datatype ProductOption = ProductOption(value: Value, caption: Value, price: Value, icon: Value)

  /** The product cell of the form: read-only with the product's icon while
      editing, the dropdown otherwise. */
  datatype ProductCell = ReadOnly(icon: Value, product: string) | Picker

  /** Index of the first option whose value is `v`. */
  function OptionIndex(options: seq<ProductOption>, v: Value): (r: int)
    ensures -1 <= r < |options|
    ensures r >= 0 ==> options[r].value == v && forall j :: 0 <= j < r ==> options[j].value != v
    ensures r == -1 ==> forall j :: 0 <= j < |options| ==> options[j].value != v
  {
    if options == [] then -1
    else if options[0].value == v then 0
    else
      var k := OptionIndex(options[1..], v);
      if k == -1 then -1 else k + 1
  }

  const PackageIcon: Value := Str("\U{1F4E6}")

  function ProductCellOf(st: EntryState, options: seq<ProductOption>): (c: ProductCell)
    ensures c.Picker? <==> !Editing(st)
    ensures c.ReadOnly? ==> c.product == st.form.product
    ensures c.ReadOnly? && OptionIndex(options, Str(st.form.product)) >= 0
            && Truthy(options[OptionIndex(options, Str(st.form.product))].icon)
            ==> c.icon == options[OptionIndex(options, Str(st.form.product))].icon
    ensures c.ReadOnly? ==> Truthy(c.icon)
  {
    if !Editing(st) then Picker
    else
      var i := OptionIndex(options, Str(st.form.product));
      ReadOnly(Or(if i >= 0 then options[i].icon else Undef, PackageIcon), st.form.product)
  }

  // ---------------------------------------------------------------- handlers

  /** `resetForm()`. */
  function ResetForm(st: EntryState, today: string): (r: EntryState)
    ensures r.form == EmptyForm(today) && r.editingId.None?
    ensures r.loading == st.loading && r.deleteOpen == st.deleteOpen && r.toDelete == st.toDelete
  {
    st.(form := EmptyForm(today), editingId := None)
  }

  /** The attribution attached to a sale: the user's name, else email, else "Unknown". */
  function AddedBy(user: Option<Helpers.Profile>): (v: Value)
    ensures Truthy(v)
    ensures user.Some? && Truthy(user.value.name) ==> v == user.value.name
    ensures user.Some? && !Truthy(user.value.name) && Truthy(user.value.email) ==> v == user.value.email
  {
    if user.None? then Str("Unknown")
    else Or(user.value.name, Or(user.value.email, Str("Unknown")))
  }

  /** The record submitted for the current form. */
  function SaleRecord(st: EntryState, user: Option<Helpers.Profile>): (t: Api.TxRecord)
    ensures t.qty == FinalQty(st.form.qty)
    ensures t.total == Numerals.Mul(Numerals.Finite(t.qty), st.form.price)
    ensures t.date == st.form.date && t.product == st.form.product && t.price == st.form.price
    ensures t.id.Some? <==> Editing(st)
    ensures Editing(st) ==> t.id == st.editingId
  {
    var q := FinalQty(st.form.qty);
    Api.TxRecord(
      if Editing(st) then st.editingId else None,
      st.form.date, st.form.product, q, st.form.price,
      Numerals.Mul(Numerals.Finite(q), st.form.price),
      AddedBy(user))
  }

  /** What the stock branch reads from a product option. */
  datatype StockOption = StockOption(value: string, id: Option<int>, stock: Option<int>, sold: Option<int>)

  /** The first option whose value is `product`, or -1: the stock branch's own
      `productOptions.find(p => p.value === formData.product)`
      (src/hooks/useTransactionHandlers.ts:62), over the richer option it reads. */
  function StockIndex(options: seq<StockOption>, product: string): (r: int)
    ensures -1 <= r < |options|
    ensures r >= 0 ==> options[r].value == product && forall j :: 0 <= j < r ==> options[j].value != product
    ensures r == -1 ==> forall j :: 0 <= j < |options| ==> options[j].value != product
  {
    if options == [] then -1
    else if options[0].value == product then 0
    else
      var k := StockIndex(options[1..], product);
      if k == -1 then -1 else k + 1
  }

  /** The product update following a new sale of `qty` units, when the
      matching option carries an id, a stock and a sold count. */
  function StockUpdate(options: seq<StockOption>, product: string, qty: int): (r: Option<Api.PartialProduct>)
    ensures var i := StockIndex(options, product);
      r.Some? <==> i >= 0 && options[i].id.Some? && options[i].stock.Some? && options[i].sold.Some?
    ensures r.Some? ==> var o := options[StockIndex(options, product)];
      && r.value.id == Some(Numerals.Finite(o.id.value))
      && r.value.stock == Some(Numerals.Finite(if o.stock.value - qty < 0 then 0 else o.stock.value - qty))
      && r.value.sold == Some(Numerals.Finite(o.sold.value + qty))
      && r.value.name.None? && r.value.price.None? && r.value.image.None?
  {
    var i := StockIndex(options, product);
    if i >= 0 && options[i].id.Some? && options[i].stock.Some? && options[i].sold.Some? then
      var o := options[i];
      var left := o.stock.value - qty;
      Some(Api.PartialProduct(
        Some(Numerals.Finite(o.id.value)), None, None,
        Some(Numerals.Finite(if left < 0 then 0 else left)), None,
        Some(Numerals.Finite(o.sold.value + qty))))
    else None
  }

  /** The stock written back is never negative. */
  lemma StockUpdateNonNegative(options: seq<StockOption>, product: string, qty: int)
    requires StockUpdate(options, product, qty).Some?
    ensures var p := StockUpdate(options, product, qty).value;
      p.stock.Some? && p.stock.value.Finite? && p.stock.value.n >= 0
  {
  }

  /** The product write of the stock branch never carries the new sold count:
      the request encoding drops `sold`, so its form is the same whatever
      `sold` was computed. */
  lemma StockUpdateSoldNotSent(options: seq<StockOption>, product: string, qty: int)
    requires StockUpdate(options, product, qty).Some?
    ensures var p := StockUpdate(options, product, qty).value;
      Api.ManageProductForm(Api.Update, p) == Api.ManageProductForm(Api.Update, p.(sold := None))
  {
    Api.ManageProductIgnoresSold(Api.Update, StockUpdate(options, product, qty).value, None);
  }

  datatype Step = Step(state: EntryState, effects: seq<Effect>)

  /** `handleSubmit(e, productOptions)`; `saved` is what `submitTransaction`
      resolved to. */
  function HandleSubmit(st: EntryState, options: Option<seq<StockOption>>, user: Option<Helpers.Profile>,
                        saved: bool, today: string): (r: Step)
    ensures st.form.product == "" ==> r == Step(st, [])
    ensures st.form.product != "" ==>
      && |r.effects| >= 2
      && r.effects[0] == SubmitTx(SaleRecord(st, user), Editing(st))
      && !r.state.loading
      && r.state.deleteOpen == st.deleteOpen && r.state.toDelete == st.toDelete
    ensures st.form.product != "" && saved ==>
      && r.state.form == EmptyForm(today) && r.state.editingId.None?
      && r.effects[|r.effects| - 1] == RefreshData
    ensures st.form.product != "" && !saved ==>
      && r.state.form == st.form && r.state.editingId == st.editingId
      && r.effects == [SubmitTx(SaleRecord(st, user), Editing(st)), Alert(SaveFailed)]
    ensures (exists i :: 0 <= i < |r.effects| && r.effects[i].UpdateProduct?) <==>
      && st.form.product != "" && saved && !Editing(st) && options.Some?
      && StockUpdate(options.value, st.form.product, FinalQty(st.form.qty)).Some?
  {
    if st.form.product == "" then Step(st, [])
    else
      var submit := SubmitTx(SaleRecord(st, user), Editing(st));
      if saved then
        var stock := if !Editing(st) && options.Some?
          then StockUpdate(options.value, st.form.product, FinalQty(st.form.qty)) else None;
        var effects := [submit] + (if stock.Some? then [UpdateProduct(stock.value)] else []) + [RefreshData];
        assert stock.Some? ==> effects[1].UpdateProduct?;
        Step(EntryState(EmptyForm(today), None, false, st.deleteOpen, st.toDelete), effects)
      else
        Step(st.(loading := false), [submit, Alert(SaveFailed)])
  }

  /** Fed the reply of `submitTransaction`, a submission refreshes the data
      exactly when the request got a 2xx answer; a thrown request or any
      other status ends in the failure alert with the form kept. */
  lemma SubmitReplyDecides(st: EntryState, options: Option<seq<StockOption>>, user: Option<Helpers.Profile>,
                           reply: Api.HttpReply, today: string)
    requires st.form.product != ""
    ensures var r := HandleSubmit(st, options, user, Api.WriteSucceeded(reply), today);
      && (r.effects[|r.effects| - 1] == RefreshData <==> reply.Reply? && Api.Ok(reply.status))
      && (!(reply.Reply? && Api.Ok(reply.status)) ==>
            r.effects[|r.effects| - 1] == Alert(SaveFailed) && r.state.form == st.form)
  {
  }

  /** `handleEdit(t)`; `isoDate` is `new Date(t.date)` rendered as
      `YYYY-MM-DD`, `None` when the date does not parse. */
  function HandleEdit(st: EntryState, t: Api.TxRecord, isoDate: Option<string>): (r: EntryState)
    ensures r.form == FormData(isoDate.GetOr(""), Text.Trim(t.product), Count(t.qty), t.price)
    ensures Editing(r) <==> t.id.Some? && t.id.value != ""
    ensures Editing(r) ==> r.editingId == t.id
    ensures r.loading == st.loading && r.deleteOpen == st.deleteOpen && r.toDelete == st.toDelete
  {
    st.(form := FormData(isoDate.GetOr(""), Text.Trim(t.product), Count(t.qty), t.price),
        editingId := if t.id.Some? && t.id.value != "" then t.id else None)
  }

  /** Editing a sale and saving without changes resubmits it under its own id
      and as an update. */
  lemma EditThenSubmitUpdates(st: EntryState, t: Api.TxRecord, isoDate: Option<string>,
                              user: Option<Helpers.Profile>, saved: bool, today: string)
    requires t.id.Some? && t.id.value != "" && Text.Trim(t.product) != ""
    ensures var r := HandleSubmit(HandleEdit(st, t, isoDate), None, user, saved, today);
      && r.effects[0].SubmitTx? && r.effects[0].isUpdate
      && r.effects[0].record.id == t.id
      && r.effects[0].record.qty == t.qty && r.effects[0].record.price == t.price
  {
  }

  /** `confirmDelete(t)`. */
  function ConfirmDelete(st: EntryState, t: Api.TxRecord): (r: EntryState)
    ensures r.toDelete == Some(t) && r.deleteOpen
    ensures r.form == st.form && r.editingId == st.editingId && r.loading == st.loading
  {
    st.(toDelete := Some(t), deleteOpen := true)
  }

  /** `handleDelete()`; `deleted` is what `deleteTransaction` resolved to. */
  function HandleDelete(st: EntryState, deleted: bool): (r: Step)
    ensures st.toDelete.None? || st.toDelete.value.id.None? || st.toDelete.value.id.value == "" ==> r == Step(st, [])
    ensures st.toDelete.Some? && st.toDelete.value.id.Some? && st.toDelete.value.id.value != "" ==>
      && |r.effects| == 2
      && r.effects[0] == DeleteTx(st.toDelete.value.id.value)
      && (deleted ==> (r.effects == [DeleteTx(st.toDelete.value.id.value), RefreshData]
                       && !r.state.deleteOpen && r.state.toDelete.None?))
      && (!deleted ==> (r.effects == [DeleteTx(st.toDelete.value.id.value), Alert(DeleteFailed)]
                        && r.state == st.(loading := false)))
    ensures r.state.form == st.form && r.state.editingId == st.editingId
  {
    if st.toDelete.None? || st.toDelete.value.id.None? || st.toDelete.value.id.value == "" then Step(st, [])
    else
      var id := st.toDelete.value.id.value;
      if deleted then Step(st.(loading := false, deleteOpen := false, toDelete := None), [DeleteTx(id), RefreshData])
      else Step(st.(loading := false), [DeleteTx(id), Alert(DeleteFailed)])
  }

  /** Confirming and then deleting a sale with an id deletes exactly that id. */
  lemma ConfirmThenDelete(st: EntryState, t: Api.TxRecord, deleted: bool)
    requires t.id.Some? && t.id.value != ""
    ensures HandleDelete(ConfirmDelete(st, t), deleted).effects[0] == DeleteTx(t.id.value)
  {
  }

  /** `handleProductChange(value, options)`: the price of the first option
      with that value, through `Number`, else the previous price. */
  function HandleProductChange(st: EntryState, value: string, options: seq<ProductOption>): (r: EntryState)
    ensures r.form.product == value
    ensures r.form.date == st.form.date && r.form.qty == st.form.qty
    ensures OptionIndex(options, Str(value)) >= 0 ==>
      r.form.price == Order.ToNumber(Order.ToPrimitive(options[OptionIndex(options, Str(value))].price))
    ensures OptionIndex(options, Str(value)) == -1 ==> r.form.price == st.form.price
    ensures r.editingId == st.editingId && r.loading == st.loading
  {
    var i := OptionIndex(options, Str(value));
    var price := if i >= 0 then Order.ToNumber(Order.ToPrimitive(options[i].price)) else st.form.price;
    st.(form := st.form.(product := value, price := price))
  }

  // ---------------------------------------------------------------- input page

  /** `productOptions`: one option per catalogue product, its name as value
      and label, its price and image; an absent catalogue gives none. */
  function ProductOptions(products: Value): (r: seq<ProductOption>)
    ensures !products.Arr? ==> r == []
    ensures products.Arr? ==> |r| == |products.items|
    ensures products.Arr? ==> forall i :: 0 <= i < |r| ==>
      var p := products.items[i];
      r[i] == ProductOption(Prop(p, "name"), Prop(p, "name"), Prop(p, "price"), Prop(p, "image"))
  {
    if !products.Arr? then []
    else
      seq(|products.items|, i requires 0 <= i < |products.items| =>
        var p := products.items[i];
        ProductOption(Prop(p, "name"), Prop(p, "name"), Prop(p, "price"), Prop(p, "image")))
  }

  /** What the stock branch could read from a dropdown option: only its
      value, since the option has no id, stock or sold. */
  function AsStockOption(o: ProductOption): (s: StockOption)
    ensures s.id.None? && s.stock.None? && s.sold.None?
  {
    StockOption(if o.value.Str? then o.value.s else "", None, None, None)
  }

  /** The form as written submits through `handleSubmit(e)`, passing no
      options. */
  function FormSubmit(st: EntryState, user: Option<Helpers.Profile>, saved: bool, today: string): Step
  {
    HandleSubmit(st, None, user, saved, today)
  }

  /** As written, no submission from the page ever updates stock or sold:
      the form passes no options, and the page's options carry no id,
      stock or sold even if they were passed. */
  lemma FormSubmitNeverUpdatesStock(st: EntryState, user: Option<Helpers.Profile>, saved: bool,
                                    today: string, products: Value)
    ensures forall i :: 0 <= i < |FormSubmit(st, user, saved, today).effects| ==>
      !FormSubmit(st, user, saved, today).effects[i].UpdateProduct?
    ensures var opts := seq(|ProductOptions(products)|, i requires 0 <= i < |ProductOptions(products)| =>
        AsStockOption(ProductOptions(products)[i]));
      forall i :: 0 <= i < |HandleSubmit(st, Some(opts), user, saved, today).effects| ==>
        !HandleSubmit(st, Some(opts), user, saved, today).effects[i].UpdateProduct?
  {
  }

  /** The option the stock branch needs for one catalogue product: its
      name, and its id, stock and sold when they are numbers. */
  function CatalogOption(p: Value): (o: StockOption)
    ensures Prop(p, "name").Str? ==> o.value == Prop(p, "name").s
    ensures Prop(p, "id").Num? ==> o.id == Some(Prop(p, "id").n)
    ensures Prop(p, "stock").Num? ==> o.stock == Some(Prop(p, "stock").n)
    ensures Prop(p, "sold").Num? ==> o.sold == Some(Prop(p, "sold").n)
  {
    StockOption(
      if Prop(p, "name").Str? then Prop(p, "name").s else "",
      if Prop(p, "id").Num? then Some(Prop(p, "id").n) else None,
      if Prop(p, "stock").Num? then Some(Prop(p, "stock").n) else None,
      if Prop(p, "sold").Num? then Some(Prop(p, "sold").n) else None)
  }

  /** The options built from the catalogue, one per product in order. */
  function CatalogStockOptions(products: Value): (r: seq<StockOption>)
    ensures !products.Arr? ==> r == []
    ensures products.Arr? ==> |r| == |products.items|
    ensures products.Arr? ==> forall i :: 0 <= i < |r| ==> r[i] == CatalogOption(products.items[i])
  {
    if !products.Arr? then []
    else seq(|products.items|, i requires 0 <= i < |products.items| => CatalogOption(products.items[i]))
  }

  /** Submitting with the catalogue's options, as the handler expects. */
  function CatalogSubmit(st: EntryState, products: Value, user: Option<Helpers.Profile>,
                         saved: bool, today: string): (r: Step)
    ensures (exists i :: 0 <= i < |r.effects| && r.effects[i].UpdateProduct?) ==>
      saved && !Editing(st) && st.form.product != ""
  {
    HandleSubmit(st, Some(CatalogStockOptions(products)), user, saved, today)
  }

  /** With the catalogue's options, a saved new sale of a catalogued product
      (numeric id, stock and sold) does write the stock back, clamped at zero,
      and the sold count bumped. */
  lemma CatalogSubmitUpdatesStock(st: EntryState, products: Value, user: Option<Helpers.Profile>,
                                  today: string, k: int, id: int, stock: int, sold: int)
    requires st.form.product != "" && !Editing(st) && products.Arr?
    requires 0 <= k < |products.items|
    requires Prop(products.items[k], "name") == Str(st.form.product)
    requires Prop(products.items[k], "id") == Num(id)
    requires Prop(products.items[k], "stock") == Num(stock)
    requires Prop(products.items[k], "sold") == Num(sold)
    requires forall j :: 0 <= j < k ==> Prop(products.items[j], "name") != Str(st.form.product)
    ensures var q := FinalQty(st.form.qty);
      CatalogSubmit(st, products, user, true, today).effects[1] ==
        UpdateProduct(Api.PartialProduct(
          Some(Numerals.Finite(id)), None, None,
          Some(Numerals.Finite(if stock - q < 0 then 0 else stock - q)), None,
          Some(Numerals.Finite(sold + q))))
  {
    var opts := CatalogStockOptions(products);
    assert opts[k] == StockOption(st.form.product, Some(id), Some(stock), Some(sold));
    CatalogOptionsBefore(products, k, st.form.product);
    OptionSubmitUpdatesStock(st, opts, user, today, k, id, stock, sold);
  }

  /** A saved new sale whose first matching option has an id, a stock and a
      sold count writes that product's reduced stock and raised sold count. */
  lemma OptionSubmitUpdatesStock(st: EntryState, options: seq<StockOption>, user: Option<Helpers.Profile>,
                                 today: string, k: int, id: int, stock: int, sold: int)
    requires st.form.product != "" && !Editing(st)
    requires 0 <= k < |options| && options[k] == StockOption(st.form.product, Some(id), Some(stock), Some(sold))
    requires forall j :: 0 <= j < k ==> options[j].value != st.form.product
    ensures var q := FinalQty(st.form.qty);
      HandleSubmit(st, Some(options), user, true, today).effects[1] ==
        UpdateProduct(Api.PartialProduct(
          Some(Numerals.Finite(id)), None, None,
          Some(Numerals.Finite(if stock - q < 0 then 0 else stock - q)), None,
          Some(Numerals.Finite(sold + q))))
  {
    StockIndexAt(options, st.form.product, k);
    StockUpdateAt(options, st.form.product, FinalQty(st.form.qty), k);
    SavedSaleWritesStock(st, options, user, today);
  }

  /** No catalogue option before the first product of that name carries it. */
  lemma CatalogOptionsBefore(products: Value, k: int, name: string)
    requires products.Arr? && 0 <= k < |products.items| && name != ""
    requires forall j :: 0 <= j < k ==> Prop(products.items[j], "name") != Str(name)
    ensures forall j :: 0 <= j < k ==> CatalogStockOptions(products)[j].value != name
  {
    var opts := CatalogStockOptions(products);
    forall j | 0 <= j < k ensures opts[j].value != name
    {
      assert Prop(products.items[j], "name") != Str(name);
    }
  }

  /** The update the stock branch computes from the option it finds. */
  lemma StockUpdateAt(options: seq<StockOption>, product: string, qty: int, k: int)
    requires 0 <= k < |options| && StockIndex(options, product) == k
    requires options[k].id.Some? && options[k].stock.Some? && options[k].sold.Some?
    ensures var o := options[k];
      var left := o.stock.value - qty;
      StockUpdate(options, product, qty) == Some(Api.PartialProduct(
        Some(Numerals.Finite(o.id.value)), None, None,
        Some(Numerals.Finite(if left < 0 then 0 else left)), None,
        Some(Numerals.Finite(o.sold.value + qty))))
  {
  }

  /** The stock lookup finds the first option of that value. */
  lemma StockIndexAt(options: seq<StockOption>, product: string, k: int)
    requires 0 <= k < |options| && options[k].value == product
    requires forall j :: 0 <= j < k ==> options[j].value != product
    ensures StockIndex(options, product) == k
  {
  }

  /** A saved new sale whose option carries full stock data writes the
      product update right after the sale itself. */
  lemma SavedSaleWritesStock(st: EntryState, options: seq<StockOption>, user: Option<Helpers.Profile>,
                             today: string)
    requires st.form.product != "" && !Editing(st)
    requires StockUpdate(options, st.form.product, FinalQty(st.form.qty)).Some?
    ensures HandleSubmit(st, Some(options), user, true, today).effects[1] ==
      UpdateProduct(StockUpdate(options, st.form.product, FinalQty(st.form.qty)).value)
  {
  }

  /** Does the sale's product contain the query, ignoring case? A product
      that is not a string matches nothing. */
  predicate ProductMatches(item: Value, query: string)
  {
    var p := Prop(item, "product");
    p.Str? && Text.ContainsIgnoreCase(p.s, query)
  }

  /** The history table on the input page: five rows a page, newest date
      first, filtered on product. */
  const InputTable: Table.Config :=
    Table.Config(5, Some(Table.SortConfig("date", Order.Desc)), Some((item, q) => ProductMatches(item, q)))

  lemma InputTableShape(data: seq<Value>, st: Table.TableState)
    ensures |Table.Render(data, InputTable, st).rows| <= 5
    ensures Table.Init(InputTable).sort == Some(Table.SortConfig("date", Order.Desc))
    ensures st.query != "" ==> forall i :: 0 <= i < |Table.Processed(data, InputTable, st)| ==>
      ProductMatches(Table.Processed(data, InputTable, st)[i], st.query)
  {
    if st.query != "" {
      var f := Table.Filtered(data, st.query, InputTable.filterFn);
      var p := Table.Processed(data, InputTable, st);
      forall i | 0 <= i < |p| ensures ProductMatches(p[i], st.query)
      {
        assert p[i] in multiset(f);
        var j :| 0 <= j < |f| && f[j] == p[i];
      }
    }
  }
}

=== FILE: helpers.dfy ===
/** Case-insensitive field lookup and profile defaults applied to the loosely
    cased rows the spreadsheet endpoint returns (src/services/helpers.ts). */
module Helpers {
  import opened Js
  import Text

  /** A normalised profile. Fields stay JavaScript values: the code applies
      defaults but no type conversion. */
  datatype Profile = Profile(name: Value, email: Value, photourl: Value, password: Value)

  const DefaultName: Value := Str("Admin Bakery")
  const DefaultEmail: Value := Str("admin@baketrack.com")
  /** The cook emoji: woman, zero-width joiner, cooking. */
  const DefaultPhoto: Value := Str("\U{1F469}\U{200D}\U{1F373}")

  /** Whether a field key equals the requested key ignoring case. */
  predicate KeyMatches(fieldKey: string, key: string)
  {
    Text.Lower(fieldKey) == Text.Lower(key)
  }

  /** Index of the first key, in key order, that equals `key` ignoring case; -1 if none. */
  function FindKey(fields: seq<(string, Value)>, key: string): (r: int)
    ensures -1 <= r < |fields|
    ensures r >= 0 ==> KeyMatches(fields[r].0, key) && forall j :: 0 <= j < r ==> !KeyMatches(fields[j].0, key)
    ensures r == -1 ==> forall j :: 0 <= j < |fields| ==> !KeyMatches(fields[j].0, key)
  {
    if fields == [] then -1
    else if KeyMatches(fields[0].0, key) then 0
    else
      var k := FindKey(fields[1..], key);
      if k == -1 then -1 else k + 1
  }

  /** The first case-insensitive match is also the first exact occurrence of its own key,
      so reading the object by the found key yields that field's value. */
  lemma FoundKeyIsFirstExact(fields: seq<(string, Value)>, key: string)
    requires FindKey(fields, key) >= 0
    ensures FieldIndex(fields, fields[FindKey(fields, key)].0) == FindKey(fields, key)
  {
  }

  /** `getVal(obj, key)`: `undefined` for a falsy object; otherwise the value of the
      first key whose lower-case form equals the lower-cased request, or `undefined`
      when there is none (or when the key found is the empty, falsy, string). */
  function GetVal(obj: Value, key: string): (r: Value)
    ensures !Truthy(obj) ==> r == Undef
    ensures Truthy(obj) && obj.Obj? && FindKey(obj.fields, key) >= 0 && obj.fields[FindKey(obj.fields, key)].0 != ""
            ==> r == obj.fields[FindKey(obj.fields, key)].1
    ensures r != Undef ==> obj.Obj? && FindKey(obj.fields, key) >= 0
  {
    if !Truthy(obj) || !obj.Obj? then Undef
    else
      var i := FindKey(obj.fields, key);
      if i == -1 then Undef
      else
        var found := obj.fields[i].0;
        if found == "" then Undef
        else
          FoundKeyIsFirstExact(obj.fields, key);
          Prop(obj, found)
  }

  /** The requested key's casing is irrelevant. */
  lemma GetValIgnoresRequestCase(obj: Value, k1: string, k2: string)
    requires Text.Lower(k1) == Text.Lower(k2)
    ensures GetVal(obj, k1) == GetVal(obj, k2)
  {
    if obj.Obj? {
      FindKeySameLower(obj.fields, k1, k2);
    }
  }

  lemma {:induction false} FindKeySameLower(fields: seq<(string, Value)>, k1: string, k2: string)
    requires Text.Lower(k1) == Text.Lower(k2)
    ensures FindKey(fields, k1) == FindKey(fields, k2)
  {
    if fields != [] {
      FindKeySameLower(fields[1..], k1, k2);
    }
  }

  /** `b` is `a` with every key re-cased in place: same order, same values, keys equal ignoring case. */
  ghost predicate Recased(a: seq<(string, Value)>, b: seq<(string, Value)>)
  {
    |a| == |b| && forall i :: 0 <= i < |a| ==> a[i].1 == b[i].1 && Text.Lower(a[i].0) == Text.Lower(b[i].0)
  }

  lemma {:induction false} FindKeyRecased(a: seq<(string, Value)>, b: seq<(string, Value)>, key: string)
    requires Recased(a, b)
    ensures FindKey(a, key) == FindKey(b, key)
  {
    if a != [] {
      assert Recased(a[1..], b[1..]);
      FindKeyRecased(a[1..], b[1..], key);
    }
  }

  /** Re-casing the keys of the raw object never changes what `getVal` finds,
      unless it turns a found key into the empty string (impossible: re-casing
      keeps lengths). */
  lemma {:induction false} GetValRecased(a: seq<(string, Value)>, b: seq<(string, Value)>, key: string)
    requires Recased(a, b)
    ensures GetVal(Obj(a), key) == GetVal(Obj(b), key)
  {
    FindKeyRecased(a, b, key);
    var i := FindKey(a, key);
    if i >= 0 {
      assert |Text.Lower(a[i].0)| == |a[i].0| && |Text.Lower(b[i].0)| == |b[i].0|;
    }
  }

  /** `mapProfile(p)`: name, email and photo fall back to fixed defaults when the
      looked-up value is falsy; the password is passed through without a default. */
  function MapProfile(p: Value): (r: Profile)
    ensures Truthy(r.name) && Truthy(r.email) && Truthy(r.photourl)
    ensures r.name == GetVal(p, "name") || r.name == DefaultName
    ensures r.email == GetVal(p, "email") || r.email == DefaultEmail
    ensures r.photourl in {GetVal(p, "photourl"), GetVal(p, "photo"), DefaultPhoto}
    ensures r.password == GetVal(p, "password")
  {
    Profile(
      Or(GetVal(p, "name"), DefaultName),
      Or(GetVal(p, "email"), DefaultEmail),
      Or(Or(Or(GetVal(p, "photourl"), GetVal(p, "photourl")), GetVal(p, "photo")), DefaultPhoto),
      GetVal(p, "password"))
  }

  /** Each default is used exactly when the looked-up value is falsy, and the
      repeated `photourl` lookup changes nothing: a truthy `photourl` wins, then a
      truthy `photo`, then the default. */
  lemma MapProfileDefaults(p: Value)
    ensures MapProfile(p).name == DefaultName <==> (!Truthy(GetVal(p, "name")) || GetVal(p, "name") == DefaultName)
    ensures MapProfile(p).email == DefaultEmail <==> (!Truthy(GetVal(p, "email")) || GetVal(p, "email") == DefaultEmail)
    ensures Truthy(GetVal(p, "photourl")) ==> MapProfile(p).photourl == GetVal(p, "photourl")
    ensures !Truthy(GetVal(p, "photourl")) && Truthy(GetVal(p, "photo")) ==> MapProfile(p).photourl == GetVal(p, "photo")
    ensures !Truthy(GetVal(p, "photourl")) && !Truthy(GetVal(p, "photo")) ==> MapProfile(p).photourl == DefaultPhoto
  {
  }

  /** A null or missing profile gets every default and no password. */
  lemma MapProfileOfNothing(p: Value)
    requires !Truthy(p)
    ensures MapProfile(p) == Profile(DefaultName, DefaultEmail, DefaultPhoto, Undef)
  {
  }

  /** Re-casing the raw keys does not change the normalised profile. */
  lemma MapProfileRecased(a: seq<(string, Value)>, b: seq<(string, Value)>)
    requires Recased(a, b)
    ensures MapProfile(Obj(a)) == MapProfile(Obj(b))
  {
    GetValRecased(a, b, "name");
    GetValRecased(a, b, "email");
    GetValRecased(a, b, "photourl");
    GetValRecased(a, b, "photo");
    GetValRecased(a, b, "password");
  }
}

=== FILE: js.dfy ===
/** JavaScript values as they arrive from the spreadsheet endpoint and flow
    through the client: JSON plus `undefined`. An object keeps its keys in
    `Object.keys` order, because several lookups return the FIRST match. */
module Js {
  import Numerals
  import Optional
  import Text

  datatype Value =
    | Undef
    | Null
    | Bool(b: bool)
    | Num(n: int)
    | Str(s: string)
    | Arr(items: seq<Value>)
    | Obj(fields: seq<(string, Value)>)

  /** JavaScript truthiness: `undefined`, `null`, `false`, `0` and `""` are falsy
      (`NaN` does not arise, numbers being integers here). */
  predicate Truthy(v: Value)
  {
    match v
    case Undef => false
    case Null => false
    case Bool(b) => b
    case Num(n) => n != 0
    case Str(s) => s != ""
    case Arr(_) => true
    case Obj(_) => true
  }

  /** `a || b`: one of the operands, truthy exactly when either operand is. */
  function Or(a: Value, b: Value): (r: Value)
    ensures r == a || r == b
    ensures Truthy(r) <==> Truthy(a) || Truthy(b)
    ensures Truthy(a) ==> r == a
    ensures !Truthy(a) ==> r == b
  {
    if Truthy(a) then a else b
  }

  /** `null` and `undefined`, on which a property access throws. */
  predicate Nullish(v: Value)
  {
    v == Undef || v == Null
  }

  /** Index of the first field whose key is exactly `key`. */
  function FieldIndex(fields: seq<(string, Value)>, key: string): (r: int)
    ensures -1 <= r < |fields|
    ensures r >= 0 ==> fields[r].0 == key && forall j :: 0 <= j < r ==> fields[j].0 != key
    ensures r == -1 ==> forall j :: 0 <= j < |fields| ==> fields[j].0 != key
  {
    if fields == [] then -1
    else if fields[0].0 == key then 0
    else
      var k := FieldIndex(fields[1..], key);
      if k == -1 then -1 else k + 1
  }

  /** `v[key]` on a value that is not `null`/`undefined`: an object's field, or
      `undefined` (the properties of primitives used here are never read). */
  function Prop(v: Value, key: string): (r: Value)
    ensures v.Obj? && FieldIndex(v.fields, key) >= 0 ==> r == v.fields[FieldIndex(v.fields, key)].1
    ensures !v.Obj? || FieldIndex(v.fields, key) == -1 ==> r == Undef
  {
    if v.Obj? then
      var i := FieldIndex(v.fields, key);
      if i >= 0 then v.fields[i].1 else Undef
    else Undef
  }

  lemma {:induction false} FieldIndexUpdate(fields: seq<(string, Value)>, key: string, value: Value)
    requires FieldIndex(fields, key) >= 0
    ensures FieldIndex(fields[FieldIndex(fields, key) := (key, value)], key) == FieldIndex(fields, key)
  {
    var i := FieldIndex(fields, key);
    var r := fields[i := (key, value)];
    if i > 0 {
      FieldIndexUpdate(fields[1..], key, value);
      assert r[1..] == fields[1..][i - 1 := (key, value)];
    }
  }

  lemma {:induction false} FieldIndexAppend(fields: seq<(string, Value)>, key: string, value: Value)
    requires FieldIndex(fields, key) == -1
    ensures FieldIndex(fields + [(key, value)], key) == |fields|
  {
    if fields != [] {
      FieldIndexAppend(fields[1..], key, value);
      assert (fields + [(key, value)])[1..] == fields[1..] + [(key, value)];
    }
  }

  /** `{...fields, [key]: value}`: an existing key keeps its position and takes
      the new value, a new key is appended. */
  function SetField(fields: seq<(string, Value)>, key: string, value: Value): (r: seq<(string, Value)>)
    ensures |fields| <= |r|
    ensures FieldIndex(fields, key) >= 0 ==> |r| == |fields|
    ensures FieldIndex(fields, key) == -1 ==> r == fields + [(key, value)]
    ensures forall j :: 0 <= j < |fields| && fields[j].0 != key ==> r[j] == fields[j]
    ensures FieldIndex(r, key) >= 0 && r[FieldIndex(r, key)] == (key, value)
  {
    var i := FieldIndex(fields, key);
    if i >= 0 then
      FieldIndexUpdate(fields, key, value);
      fields[i := (key, value)]
    else
      FieldIndexAppend(fields, key, value);
      fields + [(key, value)]
  }

  /** Reading a key back after `SetField` gives the value just written, and
      every other key reads as before. */
  lemma PropSetField(fields: seq<(string, Value)>, key: string, value: Value, other: string)
    ensures Prop(Obj(SetField(fields, key, value)), key) == value
    ensures other != key ==> Prop(Obj(SetField(fields, key, value)), other) == Prop(Obj(fields), other)
  {
    if other != key {
      var i := FieldIndex(fields, key);
      if i >= 0 {
        FieldIndexOtherUpdate(fields, key, value, other);
      } else {
        FieldIndexOtherAppend(fields, key, value, other);
      }
    }
  }

  /** Overwriting one key's field does not move another key's first occurrence. */
  lemma {:induction false} FieldIndexOtherUpdate(fields: seq<(string, Value)>, key: string, value: Value, other: string)
    requires FieldIndex(fields, key) >= 0 && other != key
    ensures FieldIndex(fields[FieldIndex(fields, key) := (key, value)], other) == FieldIndex(fields, other)
  {
    var i := FieldIndex(fields, key);
    var r := fields[i := (key, value)];
    if i > 0 && fields[0].0 != other {
      FieldIndexOtherUpdate(fields[1..], key, value, other);
      assert r[1..] == fields[1..][i - 1 := (key, value)];
    }
  }

  /** Appending a field under one key does not change where another key is found. */
  lemma {:induction false} FieldIndexOtherAppend(fields: seq<(string, Value)>, key: string, value: Value, other: string)
    requires other != key
    ensures FieldIndex(fields + [(key, value)], other) == FieldIndex(fields, other)
  {
    if fields != [] {
      FieldIndexOtherAppend(fields[1..], key, value, other);
      assert (fields + [(key, value)])[1..] == fields[1..] + [(key, value)];
    }
  }

  /** `String(v)`: arrays join their elements with commas, rendering `null`
      and `undefined` elements as empty. */
  function ToString(v: Value): string
  {
    match v
    case Undef => "undefined"
    case Null => "null"
    case Bool(b) => if b then "true" else "false"
    case Num(n) => Numerals.IntToString(n)
    case Str(s) => s
    case Arr(items) =>
      Text.Join(seq(|items|, i requires 0 <= i < |items| =>
        if Nullish(items[i]) then "" else ToString(items[i])), ",")
    case Obj(_) => "[object Object]"
  }

  /** The text carried by a string value; `None` for every other value. */
  function AsText(v: Value): (r: Optional.Option<string>)
    ensures r.Some? <==> v.Str?
  {
    if v.Str? then Optional.Some(v.s) else Optional.None
  }
}

=== FILE: layout.dfy ===
/** The route guard around every page (src/components/layout/ClientLayout.tsx):
    while sign-in state loads nothing is decided; then a signed-out visitor is
    sent to the login page, a signed-in one away from it, and the page
    becomes ready otherwise. */
module Layout {
  import Auth

  /** The paths reachable without signing in, and shown without the sidebar. */
  predicate IsPublic(path: string)
  {
    path == "/login" || path == "/setup"
  }

  /** The effect's decision: wait, navigate elsewhere, or mark the page ready. */
  datatype Decision = Wait | Redirect(to: string) | MarkReady

  function Guard(loading: bool, loggedIn: bool, path: string): (d: Decision)
    ensures loading <==> d.Wait?
    ensures d.Redirect? ==> (d.to == "/login" <==> !loggedIn) && (d.to == "/" <==> loggedIn)
    ensures !loading && !loggedIn ==> (d.Redirect? <==> !IsPublic(path))
    ensures !loading && loggedIn ==> (d.Redirect? <==> path == "/login")
  {
    if loading then Wait
    else if !loggedIn && path != "/login" && path != "/setup" then Redirect("/login")
    else if loggedIn && path == "/login" then Redirect("/")
    else MarkReady
  }

  /** Following a redirect lands on a page the guard accepts. */
  lemma RedirectSettles(loggedIn: bool, path: string)
    ensures var d := Guard(false, loggedIn, path);
      d.Redirect? ==> Guard(false, loggedIn, d.to) == MarkReady
  {
  }

  /** The setup page is always reachable once loading is over. */
  lemma SetupAlwaysReachable(loggedIn: bool)
    ensures Guard(false, loggedIn, "/setup") == MarkReady
  {
  }

  /** What is rendered. */
  datatype View = Spinner | Bare | WithSidebar

  function Render(loading: bool, isReady: bool, path: string): (v: View)
    ensures v.Spinner? <==> loading || !isReady
    ensures !v.Spinner? ==> (v.Bare? <==> IsPublic(path))
  {
    if loading || !isReady then Spinner
    else if path == "/login" || path == "/setup" then Bare
    else WithSidebar
  }

  /** `isReady` after the guard has run: it only ever turns on. */
  function Ready(isReady: bool, loading: bool, loggedIn: bool, path: string): (r: bool)
    ensures r <==> isReady || Guard(loading, loggedIn, path).MarkReady?
  {
    isReady || Guard(loading, loggedIn, path).MarkReady?
  }

  /** A signed-out visitor never sees a page with the sidebar on first load:
      either the spinner stays up or the page is a public one. */
  lemma SignedOutSeesNoDashboard(loading: bool, path: string)
    ensures Render(loading, Ready(false, loading, false, path), path) != WithSidebar
  {
  }

  /** After signing out, the guard on any private page sends the visitor to
      the login page. */
  lemma LogoutThenGuard(st: Auth.AuthState, path: string)
    requires !IsPublic(path)
    ensures var after := Auth.Logout(st).0;
      Guard(after.loading, after.loggedIn, path) == (if st.loading then Wait else Redirect("/login"))
  {
  }
}

=== FILE: numerals.dfy ===
/** Decimal integers as text: `Number.prototype.toString`, `parseInt` and
    `Number(string)` restricted to integers. Fractions, exponents, hex
    prefixes and `Infinity` are not modelled (see the README). */
module Numerals {
  import opened Optional
  import Text

  predicate IsDigit(c: char)
  {
    '0' <= c <= '9'
  }

  predicate AllDigits(s: string)
  {
    forall i :: 0 <= i < |s| ==> IsDigit(s[i])
  }

  function DigitChar(d: int): (c: char)
    requires 0 <= d < 10
    ensures IsDigit(c)
  {
    ('0' as int + d) as char
  }

  function DigitValue(c: char): (d: int)
    requires IsDigit(c)
    ensures 0 <= d < 10 && DigitChar(d) == c
  {
    c as int - '0' as int
  }

  /** The value of a string of decimal digits, most significant first. */
  function DigitsValue(s: string): (n: nat)
    requires AllDigits(s)
  {
    if s == [] then 0 else DigitsValue(s[..|s| - 1]) * 10 + DigitValue(s[|s| - 1])
  }

  /** Decimal rendering of a natural number, without leading zeros. */
  function NatToString(n: nat): (r: string)
    ensures |r| >= 1 && AllDigits(r)
    ensures r[0] == '0' ==> n == 0 && r == "0"
  {
    if n < 10 then [DigitChar(n)] else NatToString(n / 10) + [DigitChar(n % 10)]
  }

  /** `n.toString()` for an integer-valued number. */
  function IntToString(n: int): (r: string)
    ensures |r| >= 1
    ensures n >= 0 ==> AllDigits(r)
    ensures n < 0 ==> r[0] == '-' && AllDigits(r[1..])
  {
    if n < 0 then "-" + NatToString(-n) else NatToString(n)
  }

  lemma {:induction false} NatToStringValue(n: nat)
    ensures DigitsValue(NatToString(n)) == n
  {
    if n >= 10 {
      var s := NatToString(n);
      assert s[..|s| - 1] == NatToString(n / 10);
      NatToStringValue(n / 10);
    }
  }

  /** Length of the longest all-digit prefix of `s`. */
  function DigitPrefix(s: string): (k: nat)
    ensures k <= |s|
    ensures k < |s| ==> !IsDigit(s[k])
  {
    if s == [] || !IsDigit(s[0]) then 0 else 1 + DigitPrefix(s[1..])
  }

  /** Everything the prefix covers is a digit. */
  lemma {:induction false} DigitPrefixDigits(s: string)
    ensures AllDigits(s[..DigitPrefix(s)])
  {
    if s != [] && IsDigit(s[0]) {
      var k := DigitPrefix(s);
      DigitPrefixDigits(s[1..]);
      var t := s[..k];
      var u := s[1..][..k - 1];
      forall i | 0 <= i < |t| ensures IsDigit(t[i])
      {
        if i > 0 {
          assert t[i] == u[i - 1];
        }
      }
    }
  }

  lemma {:induction false} DigitPrefixAll(s: string)
    requires AllDigits(s)
    ensures DigitPrefix(s) == |s|
  {
    if s != [] {
      DigitPrefixAll(s[1..]);
    }
  }

  /** The value of the longest run of digits at the front, `None` when there is none. */
  function LeadingDigits(s: string): Option<nat>
  {
    var k := DigitPrefix(s);
    DigitPrefixDigits(s);
    if k == 0 then None else Some(DigitsValue(s[..k]))
  }

  /** The value and sign read after leading whitespace: an optional `+`/`-`
      then the longest run of digits; `None` when there are no digits. */
  function SignedDigits(s: string): Option<int>
  {
    if |s| > 0 && s[0] == '-' then
      (match LeadingDigits(s[1..]) case Some(v) => Some(0 - v) case None => None)
    else if |s| > 0 && s[0] == '+' then
      (match LeadingDigits(s[1..]) case Some(v) => Some(v as int) case None => None)
    else
      (match LeadingDigits(s) case Some(v) => Some(v as int) case None => None)
  }

  /** `parseInt(text)` in base ten: `None` stands for `NaN`. Trailing junk
      after the digits is ignored, as in JavaScript. */
  function ParseInt(text: string): Option<int>
  {
    SignedDigits(Text.TrimStart(text))
  }

  /** The result of `Number(value)` on an integer-valued input. */
  datatype JsNumber = Finite(n: int) | NaN

  /** The value of a non-empty run of digits, `None` for anything else. */
  function UnsignedNumeral(s: string): Option<nat>
  {
    if |s| > 0 && AllDigits(s) then Some(DigitsValue(s)) else None
  }

  /** `Number(text)`: surrounding whitespace is ignored, an empty string is 0,
      and anything but an optionally signed run of digits is `NaN`. */
  function StringToNumber(text: string): JsNumber
  {
    TrimmedToNumber(Text.Trim(text))
  }

  /** `Number` on text that has already been trimmed. */
  function TrimmedToNumber(t: string): JsNumber
  {
    if t == [] then Finite(0)
    else if t[0] == '-' then
      (match UnsignedNumeral(t[1..]) case Some(v) => Finite(0 - v) case None => NaN)
    else if t[0] == '+' then
      (match UnsignedNumeral(t[1..]) case Some(v) => Finite(v) case None => NaN)
    else
      (match UnsignedNumeral(t) case Some(v) => Finite(v) case None => NaN)
  }

  /** `String(x)` for a number: `NaN` prints as "NaN". */
  function NumberToString(x: JsNumber): string
  {
    match x
    case Finite(n) => IntToString(n)
    case NaN => "NaN"
  }

  /** `parseInt` reads back exactly what `toString` wrote. */
  lemma ParseIntToString(n: int)
    ensures ParseInt(IntToString(n)) == Some(n)
  {
    var m: nat := if n < 0 then -n else n;
    var d := NatToString(m);
    var s := IntToString(n);
    assert s == (if n < 0 then "-" + d else d);
    assert Text.LeadingSpace(s) == 0 by {
      assert !Text.IsSpace(s[0]);
    }
    assert Text.TrimStart(s) == s;
    NatToStringValue(m);
    SignedDigitsOf(d);
  }

  /** A run of digits, with or without a minus sign in front, is read whole. */
  lemma SignedDigitsOf(d: string)
    requires |d| >= 1 && AllDigits(d)
    ensures SignedDigits(d) == Some(DigitsValue(d) as int)
    ensures SignedDigits("-" + d) == Some(-(DigitsValue(d) as int))
  {
    DigitPrefixAll(d);
    assert d[..|d|] == d;
    assert LeadingDigits(d) == Some(DigitsValue(d));
    assert ("-" + d)[1..] == d;
  }

  /** A numeral begins with a sign or digit and ends with a digit, so `trim` keeps it whole. */
  lemma TrimNumeral(s: string)
    requires |s| >= 1 && (s[0] == '-' || IsDigit(s[0])) && IsDigit(s[|s| - 1])
    ensures Text.Trim(s) == s
  {
    Text.TrimNoSpace(s);
  }

  lemma TrimmedDigits(d: string)
    requires |d| >= 1 && AllDigits(d)
    ensures TrimmedToNumber(d) == Finite(DigitsValue(d))
    ensures TrimmedToNumber("-" + d) == Finite(0 - DigitsValue(d))
  {
    assert d[0] != '-' && d[0] != '+';
    assert UnsignedNumeral(d) == Some(DigitsValue(d));
    assert ("-" + d)[1..] == d;
  }

  /** `Number` on an unsigned run of digits is its value. */
  lemma StringToNumberDigits(d: string)
    requires |d| >= 1 && AllDigits(d)
    ensures StringToNumber(d) == Finite(DigitsValue(d))
  {
    TrimNumeral(d);
    TrimmedDigits(d);
  }

  /** `Number` on a minus sign followed by digits is the negated value. */
  lemma StringToNumberNegDigits(d: string)
    requires |d| >= 1 && AllDigits(d)
    ensures StringToNumber("-" + d) == Finite(0 - DigitsValue(d))
  {
    var s := "-" + d;
    assert s[|s| - 1] == d[|d| - 1];
    TrimNumeral(s);
    TrimmedDigits(d);
  }

  /** `Number` reads back exactly what `toString` wrote. */
  lemma StringToNumberToString(n: int)
    ensures StringToNumber(IntToString(n)) == Finite(n)
  {
    var m: nat := if n < 0 then -n else n;
    NatToStringValue(m);
    if n < 0 {
      StringToNumberNegDigits(NatToString(m));
    } else {
      StringToNumberDigits(NatToString(m));
    }
  }

  /** `Number(String(x))` is `x`, `NaN` included. */
  lemma NumberRoundTrip(x: JsNumber)
    ensures StringToNumber(NumberToString(x)) == x
  {
    if x.Finite? {
      StringToNumberToString(x.n);
    } else {
      var t := "NaN";
      assert !Text.IsSpace(t[0]) && !Text.IsSpace(t[2]);
      assert Text.TrimStart(t) == t && Text.TrimEnd(t) == t;
      assert !IsDigit(t[0]);
    }
  }

  /** `a * b` on numbers. */
  function Mul(a: JsNumber, b: JsNumber): (r: JsNumber)
    ensures r.Finite? <==> a.Finite? && b.Finite?
    ensures r.Finite? ==> r.n == a.n * b.n
  {
    if a.Finite? && b.Finite? then Finite(a.n * b.n) else NaN
  }

  /** `a + b` on numbers. */
  function Add(a: JsNumber, b: JsNumber): (r: JsNumber)
    ensures r.Finite? <==> a.Finite? && b.Finite?
    ensures r.Finite? ==> r.n == a.n + b.n
  {
    if a.Finite? && b.Finite? then Finite(a.n + b.n) else NaN
  }
}

=== FILE: optional.dfy ===
/** The absent-or-present value used wherever the dashboard code reads a
    field that may be `undefined` or `null`. */
module Optional {

  datatype Option<+T> = None | Some(value: T) {

    /** The carried value, or `default` when there is none (JavaScript's `?? default`). */
    function GetOr(default: T): T
    {
      match this
      case Some(v) => v
      case None => default
    }
  }
}

=== FILE: order.dfy ===
/** JavaScript's relational `<` on the values the tables sort by, and the
    three-way comparator `useTable` builds from it. */
module Order {
  import opened Js
  import Numerals

  /** String `<`: lexicographic on characters, a proper prefix being smaller. */
  predicate StrLess(a: string, b: string)
  {
    if b == [] then false
    else if a == [] then true
    else if a[0] != b[0] then a[0] < b[0]
    else StrLess(a[1..], b[1..])
  }

  lemma {:induction false} StrLessAsym(a: string, b: string)
    ensures StrLess(a, b) ==> !StrLess(b, a)
  {
    if a != [] && b != [] && a[0] == b[0] {
      StrLessAsym(a[1..], b[1..]);
    }
  }

  lemma {:induction false} StrLessTrans(a: string, b: string, c: string)
    ensures StrLess(a, b) && StrLess(b, c) ==> StrLess(a, c)
  {
    if a != [] && b != [] && c != [] && a[0] == b[0] == c[0] {
      StrLessTrans(a[1..], b[1..], c[1..]);
    }
  }

  lemma {:induction false} StrLessTotal(a: string, b: string)
    ensures a == b || StrLess(a, b) || StrLess(b, a)
  {
    if a != [] && b != [] && a[0] == b[0] {
      StrLessTotal(a[1..], b[1..]);
      if a[1..] == b[1..] {
        assert a == [a[0]] + a[1..] && b == [b[0]] + b[1..];
      }
    }
  }

  /** ToPrimitive: arrays and objects become their string form. */
  function ToPrimitive(v: Value): (r: Value)
    ensures !r.Arr? && !r.Obj?
    ensures v.Str? || v.Arr? || v.Obj? <==> r.Str?
  {
    if v.Arr? || v.Obj? then Str(ToString(v)) else v
  }

  /** ToNumber on a primitive. */
  function ToNumber(v: Value): Numerals.JsNumber
  {
    match v
    case Undef => Numerals.NaN
    case Null => Numerals.Finite(0)
    case Bool(b) => Numerals.Finite(if b then 1 else 0)
    case Num(n) => Numerals.Finite(n)
    case Str(s) => Numerals.StringToNumber(s)
    case Arr(_) => Numerals.NaN
    case Obj(_) => Numerals.NaN
  }

  /** `Number(v)`. */
  function NumberOf(v: Value): Numerals.JsNumber
  {
    ToNumber(ToPrimitive(v))
  }

  /** `a < b`: two strings compare as strings, anything else numerically, a
      `NaN` operand making the answer false. */
  predicate Less(a: Value, b: Value)
  {
    var pa := ToPrimitive(a);
    var pb := ToPrimitive(b);
    if pa.Str? && pb.Str? then StrLess(pa.s, pb.s)
    else
      var x := ToNumber(pa);
      var y := ToNumber(pb);
      x.Finite? && y.Finite? && x.n < y.n
  }

  /** Keys of one kind, on which `<` is a strict total order. */
  predicate SameKind(a: Value, b: Value)
  {
    (a.Str? && b.Str?) || (a.Num? && b.Num?)
  }

  lemma LessAsym(a: Value, b: Value)
    ensures Less(a, b) ==> !Less(b, a)
  {
    var pa := ToPrimitive(a);
    var pb := ToPrimitive(b);
    if pa.Str? && pb.Str? {
      StrLessAsym(pa.s, pb.s);
    }
  }

  lemma LessIrreflexive(a: Value)
    ensures !Less(a, a)
  {
    LessAsym(a, a);
  }

  lemma LessTotal(a: Value, b: Value)
    requires SameKind(a, b)
    ensures a == b || Less(a, b) || Less(b, a)
  {
    if a.Str? {
      StrLessTotal(a.s, b.s);
    }
  }

  lemma LessTrans(a: Value, b: Value, c: Value)
    requires SameKind(a, b) && SameKind(b, c)
    ensures Less(a, b) && Less(b, c) ==> Less(a, c)
  {
    if a.Str? {
      StrLessTrans(a.s, b.s, c.s);
    }
  }

  datatype Direction = Asc | Desc

  /** The sort callback: negative when `a` goes first, positive when `b` does. */
  function Compare(dir: Direction, a: Value, b: Value): (r: int)
    ensures r == 0 <==> !Less(a, b) && !Less(b, a)
    ensures dir == Asc ==> (r < 0 <==> Less(a, b)) && (r > 0 <==> Less(b, a))
    ensures dir == Desc ==> (r < 0 <==> Less(b, a)) && (r > 0 <==> Less(a, b))
  {
    LessAsym(a, b);
    if Less(a, b) then (if dir == Asc then -1 else 1)
    else if Less(b, a) then (if dir == Asc then 1 else -1)
    else 0
  }

  /** `a` may precede `b`. */
  predicate Le(dir: Direction, a: Value, b: Value)
  {
    Compare(dir, a, b) <= 0
  }

  /** Swapping the arguments negates the comparator. */
  lemma CompareAntisym(dir: Direction, a: Value, b: Value)
    ensures Compare(dir, a, b) == -Compare(dir, b, a)
  {
    LessAsym(a, b);
  }

  /** Keys the comparator separates are different keys. */
  lemma CompareSeparates(dir: Direction, a: Value, b: Value)
    ensures Compare(dir, a, b) != 0 ==> a != b
  {
    LessIrreflexive(a);
  }

  /** On keys of one kind the comparator is a total preorder: any two keys
      are ordered one way or the other, and the order is transitive. */
  lemma LeTotal(dir: Direction, a: Value, b: Value)
    ensures Le(dir, a, b) || Le(dir, b, a)
  {
    CompareAntisym(dir, a, b);
  }

  lemma LeTrans(dir: Direction, a: Value, b: Value, c: Value)
    requires SameKind(a, b) && SameKind(b, c)
    requires Le(dir, a, b) && Le(dir, b, c)
    ensures Le(dir, a, c)
  {
    LessAsym(a, b);
    LessAsym(b, c);
    LessAsym(a, c);
    LessTotal(a, b);
    LessTotal(b, c);
    LessTrans(a, b, c);
    LessTrans(c, b, a);
    LessTrans(b, a, c);
    LessTrans(c, a, b);
    LessTrans(a, c, b);
    LessTrans(b, c, a);
  }

  /** On numbers the comparator is the numeric order, reversed for `Desc`. */
  lemma LeNum(dir: Direction, x: int, y: int)
    ensures Le(dir, Num(x), Num(y)) <==> (if dir == Asc then x <= y else x >= y)
  {
  }
}

=== FILE: pagination.dfy ===
/** The pager under each table (src/components/ui/Pagination.tsx): hidden for
    a single page, otherwise a label and previous/next buttons that ask the
    table for a neighbouring page. */
module Pagination {
  import opened Optional
  import Table

  datatype Controls = Controls(current: int, total: int,
                               prevTarget: int, prevDisabled: bool,
                               nextTarget: int, nextDisabled: bool)

  /** The rendered pager, or `None` when nothing is rendered. */
  function Render(currentPage: int, totalPages: int): (r: Option<Controls>)
    ensures r.None? <==> totalPages <= 1
    ensures r.Some? ==> r.value.current == currentPage && r.value.total == totalPages
    ensures r.Some? ==> r.value.prevTarget == currentPage - 1 && r.value.nextTarget == currentPage + 1
    ensures r.Some? ==> (r.value.prevDisabled <==> currentPage == 1)
    ensures r.Some? ==> (r.value.nextDisabled <==> currentPage == totalPages)
  {
    if totalPages <= 1 then None
    else Some(Controls(currentPage, totalPages,
                       currentPage - 1, currentPage == 1,
                       currentPage + 1, currentPage == totalPages))
  }

  /** Wired to the table's `goToPage`, an enabled button on a page in range
      moves exactly one page and never leaves `1..totalPages`. */
  lemma PressStaysInRange(st: Table.TableState, totalPages: int)
    requires Render(st.page, totalPages).Some?
    requires 1 <= st.page <= totalPages
    ensures var c := Render(st.page, totalPages).value;
      (!c.prevDisabled ==> Table.GoToPage(st, totalPages, c.prevTarget).page == st.page - 1) &&
      (!c.nextDisabled ==> Table.GoToPage(st, totalPages, c.nextTarget).page == st.page + 1)
    ensures var c := Render(st.page, totalPages).value;
      1 <= Table.GoToPage(st, totalPages, c.prevTarget).page <= totalPages &&
      1 <= Table.GoToPage(st, totalPages, c.nextTarget).page <= totalPages
  {
  }

  /** A disabled button, were it pressed anyway, would leave the page as is. */
  lemma DisabledIsNoOp(st: Table.TableState, totalPages: int)
    requires Render(st.page, totalPages).Some?
    ensures var c := Render(st.page, totalPages).value;
      (c.prevDisabled ==> Table.GoToPage(st, totalPages, c.prevTarget).page == st.page) &&
      (c.nextDisabled ==> Table.GoToPage(st, totalPages, c.nextTarget).page == st.page)
  {
  }
}

=== FILE: proxy.dfy ===
/** The same-origin proxy route (src/app/api/proxy/route.ts). `fetch` to the
    spreadsheet endpoint and `JSON.parse` are parameters: the model decides
    only the status code and the JSON envelope, and the form it forwards. */
module Proxy {
  import opened Optional
  import opened Js
  import Api
  import Text

  /** What the upstream `fetch` produced: a network-level throw, or a status and body text. */
  datatype Upstream = NetError | Upstream(status: int, text: string)

  /** A `NextResponse.json(body, { status })`. */
  datatype Response = Response(status: int, body: Value)

  const MissingTarget: Response := Response(400, Obj([("error", Str("Missing target URL"))]))
  const FetchFailed: Response := Response(500, Obj([("error", Str("Failed to fetch data from Spreadsheet"))]))
  const PostFailed: Response :=
    Response(500, Obj([("success", Bool(false)), ("error", Str("Failed to send data to Spreadsheet"))]))
  const PostSucceeded: Response := Response(200, Obj([("success", Bool(true))]))

  /** Characters of `text`, from the front, that fit in `budget` UTF-16 code units. */
  function ExcerptCount(text: string, budget: nat): (k: nat)
    ensures k <= |text|
  {
    if text == [] || Text.Utf16Units(text[0]) > budget then 0
    else 1 + ExcerptCount(text[1..], budget - Text.Utf16Units(text[0]))
  }

  /** The excerpt of an unparseable body that is echoed back: `text.substring(0, 200)`,
      which counts UTF-16 code units. The model keeps whole characters only. */
  function RawExcerpt(text: string): (r: string)
    ensures |r| <= |text| && r == text[..|r|] && Text.Utf16Length(r) <= 200
    ensures |r| < |text| ==> Text.Utf16Length(r) + Text.Utf16Units(text[|r|]) > 200
    ensures Text.Utf16Length(text) <= 200 ==> r == text
  {
    ExcerptCountSpec(text, 200);
    text[..ExcerptCount(text, 200)]
  }

  /** The counted prefix fits the budget, the next character does not, and a
      text that fits entirely is kept entirely. */
  lemma {:induction false} ExcerptCountSpec(text: string, budget: nat)
    ensures Text.Utf16Length(text[..ExcerptCount(text, budget)]) <= budget
    ensures ExcerptCount(text, budget) < |text| ==>
              Text.Utf16Length(text[..ExcerptCount(text, budget)])
              + Text.Utf16Units(text[ExcerptCount(text, budget)]) > budget
    ensures Text.Utf16Length(text) <= budget ==> ExcerptCount(text, budget) == |text|
  {
    if text == [] || Text.Utf16Units(text[0]) > budget {
      assert text[..0] == [];
    } else {
      var u := Text.Utf16Units(text[0]);
      var k := ExcerptCount(text[1..], budget - u);
      ExcerptCountSpec(text[1..], budget - u);
      assert text[..1 + k][1..] == text[1..][..k];
      if 1 + k < |text| {
        assert text[1 + k] == text[1..][k];
      }
    }
  }

  /** For text inside the Basic Multilingual Plane the excerpt is exactly the
      first 200 characters. */
  lemma RawExcerptBmp(text: string)
    requires forall i :: 0 <= i < |text| ==> Text.Utf16Units(text[i]) == 1
    ensures RawExcerpt(text) == if |text| <= 200 then text else text[..200]
  {
    ExcerptCountBmp(text, 200);
  }

  lemma {:induction false} ExcerptCountBmp(text: string, budget: nat)
    requires forall i :: 0 <= i < |text| ==> Text.Utf16Units(text[i]) == 1
    ensures ExcerptCount(text, budget) == if |text| <= budget then |text| else budget
  {
    if text != [] && budget > 0 {
      assert forall i :: 0 <= i < |text[1..]| ==> Text.Utf16Units(text[1..][i]) == Text.Utf16Units(text[i + 1]);
      ExcerptCountBmp(text[1..], budget - 1);
    }
  }

  /** A character outside the Basic Multilingual Plane takes two of the 200 units:
      an excerpt of such characters alone holds at most 100 of them. */
  lemma {:induction false} ExcerptCountAstral(text: string, budget: nat)
    requires forall i :: 0 <= i < |text| ==> Text.Utf16Units(text[i]) == 2
    ensures ExcerptCount(text, budget) == if 2 * |text| <= budget then |text| else budget / 2
  {
    if text != [] && budget >= 2 {
      assert forall i :: 0 <= i < |text[1..]| ==> Text.Utf16Units(text[1..][i]) == Text.Utf16Units(text[i + 1]);
      ExcerptCountAstral(text[1..], budget - 2);
    }
  }

  function ParseFailed(text: string): (r: Response)
    ensures r.status == 500 && Prop(r.body, "raw") == Str(RawExcerpt(text))
  {
    var fields := [("error", Str("Failed to parse JSON from GAS")), ("raw", Str(RawExcerpt(text)))];
    assert FieldIndex(fields[1..], "raw") == 0;
    Response(500, Obj(fields))
  }

  /** `searchParams.get('url')` is falsy: absent or empty. */
  predicate MissingUrl(url: Option<string>)
  {
    url.None? || url.value == ""
  }

  /** `GET /api/proxy?url=…`. */
  function HandleGet(url: Option<string>, fetch: string -> Upstream, parse: string -> Option<Value>): (r: Response)
    ensures MissingUrl(url) ==> r == MissingTarget
    ensures !MissingUrl(url) && fetch(url.value).NetError? ==> r == FetchFailed
    ensures !MissingUrl(url) && fetch(url.value).Upstream? && parse(fetch(url.value).text).Some?
            ==> r == Response(200, parse(fetch(url.value).text).value)
    ensures !MissingUrl(url) && fetch(url.value).Upstream? && parse(fetch(url.value).text).None?
            ==> r.status == 500 && Prop(r.body, "raw").Str? && Text.Utf16Length(Prop(r.body, "raw").s) <= 200
                 && |Prop(r.body, "raw").s| <= 200
  {
    if MissingUrl(url) then MissingTarget
    else
      match fetch(url.value)
      case NetError => FetchFailed
      case Upstream(_, text) =>
        match parse(text)
        case Some(data) => Response(200, data)
        case None => ParseFailed(text)
  }

  /** A missing target is answered before any fetch: the answer does not depend on
      what the network would have done. */
  lemma GetMissingUrlFetchesNothing(url: Option<string>, f1: string -> Upstream, f2: string -> Upstream,
                                    parse: string -> Option<Value>)
    requires MissingUrl(url)
    ensures HandleGet(url, f1, parse) == HandleGet(url, f2, parse)
  {
  }

  /** A parseable upstream body is relayed with status 200 whatever the upstream
      status was: two upstream replies with the same text but different statuses
      give the same response. */
  lemma GetHidesUpstreamStatus(u: string, s1: int, s2: int, text: string, parse: string -> Option<Value>)
    requires u != "" && parse(text).Some?
    ensures HandleGet(Some(u), _ => Upstream(s1, text), parse) == HandleGet(Some(u), _ => Upstream(s2, text), parse)
    ensures HandleGet(Some(u), _ => Upstream(s1, text), parse).status == 200
  {
  }

  /** The only statuses the GET route produces, and when it answers 200. */
  lemma GetStatuses(url: Option<string>, fetch: string -> Upstream, parse: string -> Option<Value>)
    ensures HandleGet(url, fetch, parse).status in {200, 400, 500}
    ensures HandleGet(url, fetch, parse).status == 200 <==>
      !MissingUrl(url) && fetch(url.value).Upstream? && parse(fetch(url.value).text).Some?
  {
  }

  /** A value in the incoming multipart form: text or an uploaded file. */
  datatype FormValue = Text(s: string) | File(name: string)

  /** `value.toString()` for a form value. */
  function FormValueText(v: FormValue): string
  {
    match v
    case Text(s) => s
    case File(_) => "[object File]"
  }

  /** The urlencoded parameters re-emitted from the incoming form: same pairs,
      same order, values stringified. */
  function OutgoingParams(incoming: seq<(string, FormValue)>): (out: Api.Form)
    ensures |out| == |incoming|
    ensures forall i :: 0 <= i < |incoming| ==>
      out[i] == (incoming[i].0, FormValueText(incoming[i].1))
  {
    if incoming == [] then []
    else [(incoming[0].0, FormValueText(incoming[0].1))] + OutgoingParams(incoming[1..])
  }

  /** A text-only form is forwarded verbatim. */
  lemma OutgoingParamsOfText(form: Api.Form)
    ensures OutgoingParams(seq(|form|, i requires 0 <= i < |form| => (form[i].0, Text(form[i].1)))) == form
  {
  }

  /** `POST /api/proxy?url=…`. `incoming` is `None` when the request body is not a
      readable form (`request.formData()` throws). */
  function HandlePost(url: Option<string>, incoming: Option<seq<(string, FormValue)>>,
                      fetch: (string, Api.Form) -> Upstream): (r: Response)
    ensures MissingUrl(url) ==> r == MissingTarget
    ensures r == MissingTarget || r == PostFailed || r == PostSucceeded
    ensures r == PostSucceeded <==>
      !MissingUrl(url) && incoming.Some?
      && fetch(url.value, OutgoingParams(incoming.value)).Upstream?
      && Api.Ok(fetch(url.value, OutgoingParams(incoming.value)).status)
  {
    if MissingUrl(url) then MissingTarget
    else if incoming.None? then PostFailed
    else
      match fetch(url.value, OutgoingParams(incoming.value))
      case NetError => PostFailed
      case Upstream(status, _) => if Api.Ok(status) then PostSucceeded else PostFailed
  }

  /** The upstream body is never relayed: only the upstream status matters. */
  lemma PostIgnoresUpstreamBody(u: string, form: seq<(string, FormValue)>, status: int, t1: string, t2: string)
    requires u != ""
    ensures HandlePost(Some(u), Some(form), (_, _) => Upstream(status, t1))
         == HandlePost(Some(u), Some(form), (_, _) => Upstream(status, t2))
  {
  }

  /** The client's `res.ok` after a write through the proxy is true exactly
      when a target and a form were given and the spreadsheet answered with
      a 2xx status: the proxy turns every other outcome into 400 or 500. */
  lemma WriteThroughProxy(url: Option<string>, incoming: Option<seq<(string, FormValue)>>,
                          fetch: (string, Api.Form) -> Upstream)
    ensures Api.WriteSucceeded(ClientView(HandlePost(url, incoming, fetch))) <==>
      !MissingUrl(url) && incoming.Some?
      && fetch(url.value, OutgoingParams(incoming.value)).Upstream?
      && Api.Ok(fetch(url.value, OutgoingParams(incoming.value)).status)
  {
  }

  /** What the browser-side client sees of a proxy response: it is always JSON. */
  function ClientView(r: Response): Api.HttpReply
  {
    Api.Reply(r.status, Some(r.body))
  }

  /** End to end: an upstream body that is not JSON makes `fetchFullData` return
      null, while a JSON error body sent with a failing upstream status is relayed
      with 200 and treated as data. */
  lemma FullDataThroughProxy(u: string, status: int, text: string, parse: string -> Option<Value>)
    requires u != ""
    ensures parse(text).None? ==>
      Api.FetchFullData(ClientView(HandleGet(Some(u), _ => Upstream(status, text), parse))) == None
    ensures parse(text).Some? ==>
      Api.FetchFullData(ClientView(HandleGet(Some(u), _ => Upstream(status, text), parse)))
        == Api.FetchFullData(Api.Reply(200, parse(text)))
  {
  }
}

=== FILE: report.dfy ===
/** The report page (src/app/report/page.tsx): summary figures, the three
    best-selling products, takings per weekday, the history table and the CSV
    export, all computed from the cached list of sales. */
module Report {
  import opened Optional
  import opened Js
  import opened Numerals
  import Text
  import Order
  import Table
  import Entry

  /** `Number(t.total)` and `Number(t.qty)`. */
  function TotalOf(t: Value): JsNumber { Order.NumberOf(Prop(t, "total")) }
  function QtyOf(t: Value): JsNumber { Order.NumberOf(Prop(t, "qty")) }

  // ---------------------------------------------------------------- summary

  /** `transactions.reduce((sum, t) => sum + Number(t.total), 0)`. */
  function Omzet(txs: seq<Value>): (r: JsNumber)
    ensures r.Finite? <==> forall i :: 0 <= i < |txs| ==> TotalOf(txs[i]).Finite?
    decreases |txs|
  {
    if txs == [] then Finite(0)
    else
      var init := txs[..|txs| - 1];
      var r := Add(Omzet(init), TotalOf(txs[|txs| - 1]));
      assert forall i :: 0 <= i < |init| ==> init[i] == txs[i];
      r
  }

  /** Takings split at any point add up. */
  lemma {:induction false} OmzetAppend(a: seq<Value>, b: seq<Value>)
    ensures Omzet(a + b) == Add(Omzet(a), Omzet(b))
    decreases |b|
  {
    if b == [] {
      assert a + b == a;
    } else {
      var init := b[..|b| - 1];
      assert (a + b)[..|a + b| - 1] == a + init;
      OmzetAppend(a, init);
    }
  }

  /** A real-valued figure, or `NaN`; rounding of floating point is not modelled. */
  datatype Figure = Real(x: real) | NotANumber

  /** The margin applied to takings to estimate profit. */
  const Margin: real := 0.45

  datatype Stats = Stats(omzet: JsNumber, laba: Figure, aov: Figure, totalTx: nat)

  /** `x` is the mean of `count` amounts adding up to `total`. */
  predicate IsMean(x: real, total: int, count: nat)
  {
    x * (count as real) == total as real
  }

  /** `totalTx > 0 ? totalOmzet / totalTx : 0`. */
  function Average(total: JsNumber, count: nat): (a: Figure)
    ensures count == 0 ==> a == Real(0.0)
    ensures count > 0 && total.NaN? ==> a.NotANumber?
    ensures count > 0 && total.Finite? ==> a.Real? && IsMean(a.x, total.n, count)
  {
    if count == 0 then Real(0.0)
    else if total.NaN? then NotANumber
    else Real(total.n as real / count as real)
  }

  /** `totalOmzet * 0.45`. */
  function Profit(total: JsNumber): (p: Figure)
    ensures total.Finite? ==> p == Real(total.n as real * Margin)
    ensures total.NaN? ==> p.NotANumber?
  {
    if total.Finite? then Real(total.n as real * Margin) else NotANumber
  }

  /** `stats`: takings, estimated profit, average order value (zero when there
      are no sales) and the number of sales. */
  function ComputeStats(txs: seq<Value>): (s: Stats)
    ensures s.omzet == Omzet(txs) && s.totalTx == |txs|
    ensures s.laba == Profit(s.omzet) && s.aov == Average(s.omzet, s.totalTx)
    ensures s.omzet.Finite? <==> forall i :: 0 <= i < |txs| ==> TotalOf(txs[i]).Finite?
    ensures s.omzet.Finite? ==> s.laba == Real(s.omzet.n as real * Margin)
    ensures txs == [] ==> s.omzet == Finite(0) && s.aov == Real(0.0)
    ensures s.totalTx > 0 && s.omzet.Finite? ==> s.aov.Real? && IsMean(s.aov.x, s.omzet.n, s.totalTx)
    ensures txs != [] && s.omzet.NaN? ==> s.aov.NotANumber? && s.laba.NotANumber?
  {
    var o := Omzet(txs);
    Stats(o, Profit(o), Average(o, |txs|), |txs|)
  }

  // ---------------------------------------------------------------- top products

  datatype Group = Group(name: string, sold: JsNumber, icon: Value)

  /** `t.product.trim()`; a product that is not a string is read as empty. */
  function ProductName(t: Value): string
  {
    var p := Prop(t, "product");
    Text.Trim(if p.Str? then p.s else "")
  }

  /** One sale as the grouping sees it: its trimmed product name and `Number(t.qty)`. */
  datatype Sale = Sale(name: string, qty: JsNumber)

  function Sales(txs: seq<Value>): (r: seq<Sale>)
    ensures |r| == |txs|
    ensures forall i :: 0 <= i < |txs| ==> r[i] == Sale(ProductName(txs[i]), QtyOf(txs[i]))
  {
    seq(|txs|, i requires 0 <= i < |txs| => Sale(ProductName(txs[i]), QtyOf(txs[i])))
  }

  /** Icons for well-known products, in the order they are tried. */
  const DefaultIcons: seq<(string, string)> := [
    ("Cupcake", "\U{1F9C1}"), ("Donat", "\U{1F369}"), ("Croissant", "\U{1F950}"),
    ("Roti", "\U{1F35E}"), ("Cake", "\U{1F370}")]

  const BagelIcon: string := "\U{1F96F}"

  /** The icon of the first default whose key occurs in the name. */
  function DefaultIcon(name: string, icons: seq<(string, string)>): (r: Option<string>)
    ensures r.Some? <==> exists i :: 0 <= i < |icons| && Text.Contains(name, icons[i].0)
    ensures r.Some? ==> exists i :: 0 <= i < |icons| && Text.Contains(name, icons[i].0) && r.value == icons[i].1
                          && forall j :: 0 <= j < i ==> !Text.Contains(name, icons[j].0)
  {
    if icons == [] then None
    else if Text.Contains(name, icons[0].0) then Some(icons[0].1)
    else
      var r := DefaultIcon(name, icons[1..]);
      assert forall i :: 1 <= i < |icons| ==> icons[i] == icons[1..][i - 1];
      if r.Some? then
        ghost var k :| 0 <= k < |icons[1..]| && Text.Contains(name, icons[1..][k].0) && r.value == icons[1..][k].1
                       && forall j :: 0 <= j < k ==> !Text.Contains(name, icons[1..][j].0);
        assert Text.Contains(name, icons[k + 1].0);
        r
      else r
  }

  /** `data.products.find(p => p.name === name)?.image`. */
  function CatalogImage(products: Value, name: string): Value
  {
    if !products.Arr? then Undef
    else
      var i := Table.Keep(products.items, p => Prop(p, "name") == Str(name));
      if i == [] then Undef else Prop(i[0], "image")
  }

  /** A new group's icon: the catalogue image, else a default icon, else a bagel. */
  function IconFor(products: Value, name: string): (v: Value)
    ensures Truthy(v)
    ensures Truthy(CatalogImage(products, name)) ==> v == CatalogImage(products, name)
    ensures !Truthy(CatalogImage(products, name)) && DefaultIcon(name, DefaultIcons).Some? ==>
      v == Str(DefaultIcon(name, DefaultIcons).value)
    ensures !Truthy(CatalogImage(products, name)) && DefaultIcon(name, DefaultIcons).None? ==> v == Str(BagelIcon)
  {
    var d := DefaultIcon(name, DefaultIcons);
    assert d.Some? ==> d.value != "" by {
      if d.Some? {
        var i :| 0 <= i < |DefaultIcons| && d.value == DefaultIcons[i].1;
      }
    }
    Or(CatalogImage(products, name), Or(if d.Some? then Str(d.value) else Undef, Str(BagelIcon)))
  }

  /** Index of the group called `name`, or -1. */
  function GroupIndex(gs: seq<Group>, name: string): (r: int)
    ensures -1 <= r < |gs|
    ensures r >= 0 ==> gs[r].name == name
    ensures r == -1 ==> forall j :: 0 <= j < |gs| ==> gs[j].name != name
  {
    if gs == [] then -1
    else if gs[0].name == name then 0
    else
      var k := GroupIndex(gs[1..], name);
      if k == -1 then -1 else k + 1
  }

  /** One sale counted into the groups: a new name opens a group (sold
      `0 + qty`, icon chosen now), a known one adds its quantity. */
  function CountSale(gs: seq<Group>, s: Sale, products: Value): (r: seq<Group>)
    ensures |gs| <= |r| <= |gs| + 1
    ensures forall j :: 0 <= j < |gs| ==> r[j].name == gs[j].name
    ensures |r| == |gs| + 1 ==> r[|gs|].name == s.name
  {
    var i := GroupIndex(gs, s.name);
    if i >= 0 then gs[i := gs[i].(sold := Add(gs[i].sold, s.qty))]
    else gs + [Group(s.name, Add(Finite(0), s.qty), IconFor(products, s.name))]
  }

  /** The names a plain object already answers for, inherited from
      `Object.prototype`: `counts[name]` is truthy for them from the start. */
  const Inherited: set<string> := {
    "constructor", "hasOwnProperty", "isPrototypeOf", "propertyIsEnumerable",
    "toString", "toLocaleString", "valueOf", "__proto__",
    "__defineGetter__", "__defineSetter__", "__lookupGetter__", "__lookupSetter__"}

  /** The grouping as written: the counts live in a plain object, so a sale
      whose name is inherited finds a truthy entry, opens no group, and its
      quantity lands on the inherited member instead. */
  function GroupsAsWritten(sales: seq<Sale>, products: Value): seq<Group>
    decreases |sales|
  {
    if sales == [] then []
    else
      var gs := GroupsAsWritten(sales[..|sales| - 1], products);
      var s := sales[|sales| - 1];
      if s.name in Inherited then gs else CountSale(gs, s, products)
  }

  /** The grouping as intended: every name gets its own group. */
  function Groups(sales: seq<Sale>, products: Value): seq<Group>
    decreases |sales|
  {
    if sales == [] then []
    else CountSale(Groups(sales[..|sales| - 1], products), sales[|sales| - 1], products)
  }

  /** Reference definition: the summed quantity of the sales of `name`, in order. */
  function SoldFor(sales: seq<Sale>, name: string): JsNumber
    decreases |sales|
  {
    if sales == [] then Finite(0)
    else
      var s := sales[|sales| - 1];
      if s.name == name then Add(SoldFor(sales[..|sales| - 1], name), s.qty)
      else SoldFor(sales[..|sales| - 1], name)
  }

  ghost predicate Sells(sales: seq<Sale>, name: string)
  {
    exists i :: 0 <= i < |sales| && sales[i].name == name
  }

  ghost predicate DistinctNames(gs: seq<Group>)
  {
    forall i, j :: 0 <= i < j < |gs| ==> gs[i].name != gs[j].name
  }

  /** Group names are distinct. */
  lemma {:induction false} GroupsDistinct(sales: seq<Sale>, products: Value)
    ensures DistinctNames(Groups(sales, products))
    decreases |sales|
  {
    if sales != [] {
      GroupsDistinct(sales[..|sales| - 1], products);
    }
  }

  lemma SellsSnoc(sales: seq<Sale>, name: string)
    requires sales != []
    ensures Sells(sales, name) <==> Sells(sales[..|sales| - 1], name) || sales[|sales| - 1].name == name
  {
    var init := sales[..|sales| - 1];
    if Sells(sales, name) && sales[|sales| - 1].name != name {
      var i :| 0 <= i < |sales| && sales[i].name == name;
      assert init[i] == sales[i];
    }
    if Sells(init, name) {
      var i :| 0 <= i < |init| && init[i].name == name;
      assert sales[i] == init[i];
    }
  }

  /** There is a group for a name exactly when some sale has that name. */
  lemma {:induction false} GroupsCover(sales: seq<Sale>, products: Value, name: string)
    ensures GroupIndex(Groups(sales, products), name) >= 0 <==> Sells(sales, name)
    decreases |sales|
  {
    if sales != [] {
      var init := sales[..|sales| - 1];
      GroupsCover(init, products, name);
      SellsSnoc(sales, name);
      CountSaleFinds(Groups(init, products), sales[|sales| - 1], products, name);
    }
  }

  /** Counting one sale makes its name findable and keeps every other name as findable as before. */
  lemma CountSaleFinds(gs: seq<Group>, s: Sale, products: Value, name: string)
    ensures GroupIndex(CountSale(gs, s, products), name) >= 0 <==> GroupIndex(gs, name) >= 0 || s.name == name
  {
    var i := GroupIndex(gs, s.name);
    if i >= 0 {
      GroupIndexUpdate(gs, i, Add(gs[i].sold, s.qty), name);
      GroupIndexUpdate(gs, i, Add(gs[i].sold, s.qty), s.name);
    } else {
      GroupIndexAppend(gs, Group(s.name, Add(Finite(0), s.qty), IconFor(products, s.name)), name);
    }
  }

  lemma {:induction false} SoldForAbsent(sales: seq<Sale>, name: string)
    requires !Sells(sales, name)
    ensures SoldFor(sales, name) == Finite(0)
    decreases |sales|
  {
    if sales != [] {
      SellsSnoc(sales, name);
      SoldForAbsent(sales[..|sales| - 1], name);
    }
  }

  lemma {:induction false} GroupIndexUpdate(gs: seq<Group>, i: int, sold: JsNumber, name: string)
    requires 0 <= i < |gs|
    ensures GroupIndex(gs[i := gs[i].(sold := sold)], name) == GroupIndex(gs, name)
  {
    if gs != [] && gs[0].name != name && i > 0 {
      assert gs[i := gs[i].(sold := sold)][1..] == gs[1..][i - 1 := gs[i].(sold := sold)];
      GroupIndexUpdate(gs[1..], i - 1, sold, name);
    }
  }

  lemma {:induction false} GroupIndexAppend(gs: seq<Group>, g: Group, name: string)
    requires GroupIndex(gs, g.name) == -1
    ensures GroupIndex(gs + [g], name) == (if name == g.name && GroupIndex(gs, name) == -1 then |gs| else GroupIndex(gs, name))
  {
    if gs != [] {
      assert (gs + [g])[1..] == gs[1..] + [g];
      GroupIndexAppend(gs[1..], g, name);
    }
  }

  /** Each group counts exactly the summed quantity of its product's sales. */
  lemma {:induction false} GroupsSold(sales: seq<Sale>, products: Value, name: string)
    requires GroupIndex(Groups(sales, products), name) >= 0
    ensures Groups(sales, products)[GroupIndex(Groups(sales, products), name)].sold == SoldFor(sales, name)
    decreases |sales|
  {
    var init := sales[..|sales| - 1];
    var s := sales[|sales| - 1];
    var gs := Groups(init, products);
    var i := GroupIndex(gs, s.name);
    if i >= 0 {
      GroupIndexUpdate(gs, i, Add(gs[i].sold, s.qty), name);
      GroupsSold(init, products, name);
    } else {
      var g := Group(s.name, Add(Finite(0), s.qty), IconFor(products, s.name));
      GroupIndexAppend(gs, g, name);
      if name == s.name {
        GroupsCover(init, products, name);
        SoldForAbsent(init, name);
      } else {
        GroupsSold(init, products, name);
      }
    }
  }

  /** One group per product name sold, names distinct, and each group's
      count is the summed quantity of that product's sales. */
  lemma GroupsCorrect(sales: seq<Sale>, products: Value, name: string)
    ensures DistinctNames(Groups(sales, products))
    ensures GroupIndex(Groups(sales, products), name) >= 0 <==> Sells(sales, name)
    ensures GroupIndex(Groups(sales, products), name) >= 0 ==>
      Groups(sales, products)[GroupIndex(Groups(sales, products), name)].sold == SoldFor(sales, name)
  {
    GroupsDistinct(sales, products);
    GroupsCover(sales, products, name);
    if GroupIndex(Groups(sales, products), name) >= 0 {
      GroupsSold(sales, products, name);
    }
  }

  /** A canonical array index: such property names come first, in numeric
      order, when an object's values are listed. */
  predicate IsArrayIndex(s: string)
  {
    |s| > 0 && AllDigits(s) && (s[0] != '0' || |s| == 1) && DigitsValue(s) < 0xFFFF_FFFF
  }

  predicate IndexNamed(g: Group) { IsArrayIndex(g.name) }
  predicate OtherNamed(g: Group) { !IsArrayIndex(g.name) }
  function IndexKey(g: Group): Value { Num(if IsArrayIndex(g.name) then DigitsValue(g.name) else 0) }

  /** `Object.values(counts)`: groups named by array indices in ascending
      numeric order, then the others in the order they were opened. */
  function ValuesOrder(gs: seq<Group>): (r: seq<Group>)
    ensures multiset(r) == multiset(gs)
  {
    var index := Table.Keep(gs, IndexNamed);
    var other := Table.Keep(gs, OtherNamed);
    Table.KeepSplit(gs, IndexNamed, OtherNamed);
    Table.SortBy(index, IndexKey, Order.Asc) + other
  }

  /** The key `b.sold - a.sold` sorts on: a `NaN` count compares equal to all. */
  function SoldKey(g: Group): Value
  {
    if g.sold.Finite? then Num(g.sold.n) else Undef
  }

  /** `slice(0, 3)`. */
  function FirstThree(s: seq<Group>): (r: seq<Group>)
    ensures |r| == if |s| < 3 then |s| else 3
    ensures forall i :: 0 <= i < |r| ==> r[i] == s[i]
    ensures multiset(r) <= multiset(s)
  {
    var r := s[..if |s| < 3 then |s| else 3];
    assert s == r + s[|r|..];
    r
  }

  /** At most three groups, best sellers first (ties in listing order). */
  function TopOf(gs: seq<Group>): (r: seq<Group>)
    ensures |r| <= 3 && |r| <= |gs|
    ensures |r| == if |gs| < 3 then |gs| else 3
    ensures multiset(r) <= multiset(gs)
  {
    var v := ValuesOrder(gs);
    assert |v| == |gs| by {
      assert |multiset(v)| == |multiset(gs)|;
    }
    FirstThree(Table.SortBy(v, SoldKey, Order.Desc))
  }

  /** `topProducts` as written. */
  function TopProductsAsWritten(txs: seq<Value>, products: Value): seq<Group>
  {
    TopOf(GroupsAsWritten(Sales(txs), products))
  }

  /** `topProducts` with every name grouped. */
  function TopProducts(txs: seq<Value>, products: Value): seq<Group>
  {
    TopOf(Groups(Sales(txs), products))
  }

  /** Listing the values keeps every count a number. */
  lemma ValuesFinite(gs: seq<Group>)
    requires forall i :: 0 <= i < |gs| ==> gs[i].sold.Finite?
    ensures var v := ValuesOrder(gs);
      forall i :: 0 <= i < |v| ==> v[i].sold.Finite?
  {
    var v := ValuesOrder(gs);
    forall i | 0 <= i < |v| ensures v[i].sold.Finite?
    {
      assert v[i] in multiset(gs);
    }
  }

  /** Sorting groups whose counts are all numbers by count, largest first. */
  lemma SortByCount(v: seq<Group>)
    requires forall i :: 0 <= i < |v| ==> v[i].sold.Finite?
    ensures ByCount(Table.SortBy(v, SoldKey, Order.Desc))
  {
    assert Table.UniformKeys(v, SoldKey) by {
      assert forall i :: 0 <= i < |v| ==> SoldKey(v[i]).Num?;
    }
    Table.SortBySorted(v, SoldKey, Order.Desc);
    var sorted := Table.SortBy(v, SoldKey, Order.Desc);
    forall i | 0 <= i < |sorted| ensures sorted[i].sold.Finite?
    {
      assert sorted[i] in multiset(v);
    }
    SortedCounts(sorted);
    forall i, j | 0 <= i < j < |sorted|
      ensures CountAtLeast(sorted[i], sorted[j])
    {
    }
  }

  /** Groups sorted by descending `SoldKey`, all counts numbers, have
      non-increasing counts. */
  lemma SortedCounts(sorted: seq<Group>)
    requires forall i :: 0 <= i < |sorted| ==> sorted[i].sold.Finite?
    requires Table.Sorted(sorted, SoldKey, Order.Desc)
    ensures forall i, j :: 0 <= i < j < |sorted| ==> sorted[i].sold.n >= sorted[j].sold.n
  {
    forall i, j | 0 <= i < j < |sorted|
      ensures sorted[i].sold.n >= sorted[j].sold.n
    {
      assert Order.Le(Order.Desc, SoldKey(sorted[i]), SoldKey(sorted[j]));
      Order.LeNum(Order.Desc, sorted[i].sold.n, sorted[j].sold.n);
    }
  }

  /** Both counts are numbers and the first is at least the second. */
  predicate CountAtLeast(a: Group, b: Group)
  {
    a.sold.Finite? && b.sold.Finite? && a.sold.n >= b.sold.n
  }

  /** Every count a number, and the counts non-increasing. */
  ghost predicate ByCount(gs: seq<Group>)
  {
    forall i, j :: 0 <= i < j < |gs| ==> CountAtLeast(gs[i], gs[j])
  }

  /** A prefix of a list ordered by count is ordered by count. */
  lemma ByCountPrefix(s: seq<Group>, n: nat)
    requires ByCount(s) && n <= |s|
    ensures ByCount(s[..n])
  {
    var p := s[..n];
    forall i, j | 0 <= i < j < |p|
      ensures CountAtLeast(p[i], p[j])
    {
      assert p[i] == s[i] && p[j] == s[j];
    }
  }

  /** Taking the first three keeps an ordering by count. */
  lemma FirstThreeOrdered(sorted: seq<Group>)
    requires ByCount(sorted)
    ensures ByCount(FirstThree(sorted))
  {
    var top := FirstThree(sorted);
    assert top == sorted[..|top|];
    ByCountPrefix(sorted, |top|);
  }

  /** The three best sellers come in non-increasing order of units sold
      when every count is a number. */
  lemma TopOfOrdered(gs: seq<Group>)
    requires forall i :: 0 <= i < |gs| ==> gs[i].sold.Finite?
    ensures ByCount(TopOf(gs))
  {
    ValuesFinite(gs);
    var v := ValuesOrder(gs);
    SortByCount(v);
    var sorted := Table.SortBy(v, SoldKey, Order.Desc);
    FirstThreeOrdered(sorted);
    assert TopOf(gs) == FirstThree(sorted);
  }

  /** The listed groups are the best sellers: when every count is a number,
      each listed group has sold at least as much as every group left out. */
  lemma TopOfMaximal(gs: seq<Group>)
    requires forall i :: 0 <= i < |gs| ==> gs[i].sold.Finite?
    ensures forall g, i :: g in multiset(gs) - multiset(TopOf(gs)) && 0 <= i < |TopOf(gs)| ==>
      CountAtLeast(TopOf(gs)[i], g)
  {
    ValuesFinite(gs);
    var v := ValuesOrder(gs);
    SortByCount(v);
    var sorted := Table.SortBy(v, SoldKey, Order.Desc);
    var k := |TopOf(gs)|;
    assert TopOf(gs) == sorted[..k];
    PrefixBeatsRest(gs, sorted, k);
  }

  /** The first `k` of a permutation of `all` ordered by count have each sold
      at least as much as anything of `all` they leave out. */
  lemma PrefixBeatsRest(all: seq<Group>, s: seq<Group>, k: nat)
    requires ByCount(s) && k <= |s| && multiset(s) == multiset(all)
    ensures forall g, i :: g in multiset(all) - multiset(s[..k]) && 0 <= i < k ==> CountAtLeast(s[..k][i], g)
  {
    var top, rest := s[..k], s[k..];
    assert s == top + rest;
    assert multiset(all) - multiset(top) == multiset(rest);
    ByCountBeatsRest(s, k);
    forall g, i | g in multiset(all) - multiset(top) && 0 <= i < k
      ensures CountAtLeast(top[i], g)
    {
      assert g in multiset(rest);
      assert top[i] == s[i];
    }
  }

  /** In a list ordered by count, each of the first `k` groups has sold at
      least as much as any later one. */
  lemma ByCountBeatsRest(s: seq<Group>, k: nat)
    requires ByCount(s) && k <= |s|
    ensures forall g, i :: g in s[k..] && 0 <= i < k ==> CountAtLeast(s[i], g)
  {
    forall g, i | g in s[k..] && 0 <= i < k
      ensures CountAtLeast(s[i], g)
    {
      var j :| 0 <= j < |s[k..]| && s[k..][j] == g;
      assert s[k + j] == g;
    }
  }

  /** A single sale of a product named "constructor". */
  const ConstructorSale: Value := Obj([("product", Str("constructor")), ("qty", Num(2))])

  lemma ConstructorSaleRead()
    ensures Sales([ConstructorSale]) == [Sale("constructor", Finite(2))]
  {
    var name := "constructor";
    assert !Text.IsSpace(name[0]) && !Text.IsSpace(name[|name| - 1]);
    SingleSaleRead(name, 2);
  }

  /** A sale recorded with a product name without surrounding spaces and a
      numeric quantity is read as exactly that name and quantity. */
  lemma SingleSaleRead(name: string, n: int)
    requires name == [] || (!Text.IsSpace(name[0]) && !Text.IsSpace(name[|name| - 1]))
    ensures Sales([Obj([("product", Str(name)), ("qty", Num(n))])]) == [Sale(name, Finite(n))]
  {
    var t := Obj([("product", Str(name)), ("qty", Num(n))]);
    SaleFields(name, n);
    Text.TrimNoSpace(name);
    NumberRead(Prop(t, "qty"), n);
    assert ProductName(t) == name;
    assert QtyOf(t) == Finite(n);
    var r := Sales([t]);
    assert |r| == 1 && r[0] == Sale(name, Finite(n));
    assert r == [r[0]];
  }

  /** Reading the two fields of such a sale. */
  lemma SaleFields(name: string, n: int)
    ensures var t := Obj([("product", Str(name)), ("qty", Num(n))]);
      Prop(t, "product") == Str(name) && Prop(t, "qty") == Num(n)
  {
    var f := [("product", Str(name)), ("qty", Num(n))];
    assert f[0].0 != "qty" by {
      assert f[0].0[0] == 'p';
    }
    assert f[1..] == [("qty", Num(n))];
    assert FieldIndex(f[1..], "qty") == 0;
  }

  lemma NumberRead(v: Value, n: int)
    requires v == Num(n)
    ensures Order.NumberOf(v) == Finite(n)
  {
  }

  /** As written, that sale opens no group and the top list is empty;
      grouped as intended it is the single best seller with 2 units. */
  lemma InheritedNameDropped()
    ensures TopProductsAsWritten([ConstructorSale], Arr([])) == []
    ensures |TopProducts([ConstructorSale], Arr([]))| == 1
    ensures TopProducts([ConstructorSale], Arr([]))[0].name == "constructor"
    ensures TopProducts([ConstructorSale], Arr([]))[0].sold == Finite(2)
  {
    ConstructorSaleRead();
    var sales := [Sale("constructor", Finite(2))];
    assert sales[..|sales| - 1] == [];
    assert GroupsAsWritten(sales, Arr([])) == [];
    var gs := Groups(sales, Arr([]));
    assert gs == CountSale([], sales[0], Arr([]));
    assert |gs| == 1 && gs[0].name == "constructor" && gs[0].sold == Finite(2);
    var v := ValuesOrder(gs);
    assert |v| == 1 && v[0] == gs[0] by {
      assert multiset(v) == multiset{gs[0]};
      assert v[0] in multiset(v);
    }
    var sorted := Table.SortBy(v, SoldKey, Order.Desc);
    assert |sorted| == 1 && sorted[0] in multiset(v);
  }

  /** Every group count is a number when every quantity is. */
  lemma {:induction false} GroupsFinite(sales: seq<Sale>, products: Value)
    requires forall i :: 0 <= i < |sales| ==> sales[i].qty.Finite?
    ensures forall i :: 0 <= i < |Groups(sales, products)| ==> Groups(sales, products)[i].sold.Finite?
    decreases |sales|
  {
    if sales != [] {
      var init := sales[..|sales| - 1];
      assert forall i :: 0 <= i < |init| ==> init[i] == sales[i];
      GroupsFinite(init, products);
    }
  }

  /** Top products come in non-increasing order of units sold when every
      quantity is a number. */
  lemma TopProductsOrdered(txs: seq<Value>, products: Value)
    requires forall i :: 0 <= i < |txs| ==> QtyOf(txs[i]).Finite?
    ensures ByCount(TopProducts(txs, products))
  {
    GroupsFinite(Sales(txs), products);
    TopOfOrdered(Groups(Sales(txs), products));
  }

  /** With numeric quantities the top list holds the best sellers: no group
      left out has sold more than any group listed. */
  lemma TopProductsBest(txs: seq<Value>, products: Value)
    requires forall i :: 0 <= i < |txs| ==> QtyOf(txs[i]).Finite?
    ensures var gs := Groups(Sales(txs), products);
      var top := TopProducts(txs, products);
      forall g, i :: g in multiset(gs) - multiset(top) && 0 <= i < |top| ==> CountAtLeast(top[i], g)
  {
    GroupsFinite(Sales(txs), products);
    TopOfMaximal(Groups(Sales(txs), products));
  }

  // ---------------------------------------------------------------- weekly

  /** A weekday as `getDay()` numbers it: 0 is Sunday. */
  type Weekday = d: int | 0 <= d < 7

  const DayNames: seq<string> := ["Su", "Mo", "Tu", "We", "Th", "Fr", "Sa"]

  /** One sale as the weekly chart sees it: the weekday of its date (`None`
      for a date that does not parse) and `Number(t.total)`. */
  datatype DaySale = DaySale(day: Option<Weekday>, amount: JsNumber)

  /** `weekday` is `new Date(date).getDay()`, a parameter of the model. */
  function DaySales(txs: seq<Value>, weekday: Value -> Option<Weekday>): (r: seq<DaySale>)
    ensures |r| == |txs|
    ensures forall i :: 0 <= i < |txs| ==> r[i] == DaySale(weekday(Prop(txs[i], "date")), TotalOf(txs[i]))
  {
    seq(|txs|, i requires 0 <= i < |txs| => DaySale(weekday(Prop(txs[i], "date")), TotalOf(txs[i])))
  }

  /** The takings per weekday, Sunday first. */
  function Buckets(sales: seq<DaySale>): (b: seq<JsNumber>)
    ensures |b| == 7
    decreases |sales|
  {
    if sales == [] then [Finite(0), Finite(0), Finite(0), Finite(0), Finite(0), Finite(0), Finite(0)]
    else
      var b := Buckets(sales[..|sales| - 1]);
      var s := sales[|sales| - 1];
      match s.day
      case None => b
      case Some(d) => b[d := Add(b[d], s.amount)]
  }

  /** Reference definition: the takings of the sales made on weekday `d`. */
  function DayTotal(sales: seq<DaySale>, d: Weekday): JsNumber
    decreases |sales|
  {
    if sales == [] then Finite(0)
    else
      var s := sales[|sales| - 1];
      if s.day == Some(d) then Add(DayTotal(sales[..|sales| - 1], d), s.amount)
      else DayTotal(sales[..|sales| - 1], d)
  }

  /** `weeklyData`: the buckets rotated to run Monday to Saturday, then Sunday. */
  function Weekly(txs: seq<Value>, weekday: Value -> Option<Weekday>): (r: seq<(string, JsNumber)>)
    ensures |r| == 7
    ensures forall i :: 0 <= i < 6 ==> r[i] == (DayNames[i + 1], Buckets(DaySales(txs, weekday))[i + 1])
    ensures r[6] == (DayNames[0], Buckets(DaySales(txs, weekday))[0])
  {
    var b := Buckets(DaySales(txs, weekday));
    var days := seq(7, i requires 0 <= i < 7 => (DayNames[i], b[i]));
    days[1..] + [days[0]]
  }

  /** The labels run Monday first and Sunday last. */
  lemma WeeklyLabels(txs: seq<Value>, weekday: Value -> Option<Weekday>)
    ensures var r := Weekly(txs, weekday);
      [r[0].0, r[1].0, r[2].0, r[3].0, r[4].0, r[5].0, r[6].0] == ["Mo", "Tu", "We", "Th", "Fr", "Sa", "Su"]
  {
  }

  /** Each bucket holds exactly the takings of its weekday. */
  lemma {:induction false} BucketsByDay(sales: seq<DaySale>, d: Weekday)
    ensures Buckets(sales)[d] == DayTotal(sales, d)
    decreases |sales|
  {
    if sales != [] {
      BucketsByDay(sales[..|sales| - 1], d);
    }
  }

  /** Left-to-right sum of numbers. */
  function SumAll(xs: seq<JsNumber>): JsNumber
    decreases |xs|
  {
    if xs == [] then Finite(0) else Add(SumAll(xs[..|xs| - 1]), xs[|xs| - 1])
  }

  lemma {:induction false} SumAllUpdate(xs: seq<JsNumber>, d: int, x: JsNumber)
    requires 0 <= d < |xs|
    ensures SumAll(xs[d := Add(xs[d], x)]) == Add(SumAll(xs), x)
    decreases |xs|
  {
    var ys := xs[d := Add(xs[d], x)];
    assert ys[..|ys| - 1] == if d == |xs| - 1 then xs[..|xs| - 1] else xs[..|xs| - 1][d := Add(xs[d], x)];
    if d < |xs| - 1 {
      SumAllUpdate(xs[..|xs| - 1], d, x);
    }
  }

  /** The sum of the amounts, in order. */
  function Takings(sales: seq<DaySale>): JsNumber
    decreases |sales|
  {
    if sales == [] then Finite(0) else Add(Takings(sales[..|sales| - 1]), sales[|sales| - 1].amount)
  }

  /** When every date has a weekday, the seven buckets add up to the takings. */
  lemma {:induction false} BucketsAddUp(sales: seq<DaySale>)
    requires forall i :: 0 <= i < |sales| ==> sales[i].day.Some?
    ensures SumAll(Buckets(sales)) == Takings(sales)
    decreases |sales|
  {
    if sales == [] {
      SumAllZeros(7);
      assert Buckets(sales) == seq(7, _ => Finite(0));
    } else {
      var init := sales[..|sales| - 1];
      var s := sales[|sales| - 1];
      assert forall i :: 0 <= i < |init| ==> init[i] == sales[i];
      BucketsAddUp(init);
      var b := Buckets(init);
      assert Buckets(sales) == b[s.day.value := Add(b[s.day.value], s.amount)];
      SumAllUpdate(b, s.day.value, s.amount);
    }
  }

  lemma {:induction false} SumAllZeros(n: nat)
    ensures SumAll(seq(n, _ => Finite(0))) == Finite(0)
  {
    if n > 0 {
      assert seq(n, _ => Finite(0))[..n - 1] == seq(n - 1, _ => Finite(0));
      SumAllZeros(n - 1);
    }
  }

  lemma {:induction false} TakingsAreOmzet(txs: seq<Value>, weekday: Value -> Option<Weekday>)
    ensures Takings(DaySales(txs, weekday)) == Omzet(txs)
    decreases |txs|
  {
    if txs != [] {
      var init := txs[..|txs| - 1];
      TakingsAreOmzet(init, weekday);
      assert DaySales(txs, weekday)[..|txs| - 1] == DaySales(init, weekday);
    }
  }

  /** When every date parses, the seven bars (Weekly shows exactly these
      buckets) add up to the total takings. */
  lemma WeeklyAddsUp(txs: seq<Value>, weekday: Value -> Option<Weekday>)
    requires forall i :: 0 <= i < |txs| ==> weekday(Prop(txs[i], "date")).Some?
    ensures SumAll(Buckets(DaySales(txs, weekday))) == Omzet(txs)
  {
    BucketsAddUp(DaySales(txs, weekday));
    TakingsAreOmzet(txs, weekday);
  }

  // ---------------------------------------------------------------- table

  /** The report table: twenty rows a page, newest date first, filtered on product. */
  const ReportTable: Table.Config :=
    Table.Config(20, Some(Table.SortConfig("date", Order.Desc)), Some((item, q) => Entry.ProductMatches(item, q)))

  lemma ReportTableShape(data: seq<Value>, st: Table.TableState)
    ensures |Table.Render(data, ReportTable, st).rows| <= 20
    ensures Table.Init(ReportTable).sort == Some(Table.SortConfig("date", Order.Desc))
    ensures st.query == "" ==> Table.Render(data, ReportTable, st).totalItems == |data|
  {
  }

  // ---------------------------------------------------------------- CSV

  const CsvHeader: string := "Tanggal,Produk,Qty,Harga,Total"

  /** The product cell as written: wrapped in quotes, embedded quotes kept as they are. */
  function QuoteAsWritten(p: string): string
  {
    "\"" + p + "\""
  }

  /** The product cell as section 2 of RFC 4180 requires: wrapped in quotes,
      each embedded quote doubled. */
  function Quote(p: string): (r: string)
    ensures |r| >= 2 && r[0] == '"' && r[|r| - 1] == '"'
  {
    "\"" + Escape(p) + "\""
  }

  function Escape(p: string): string
  {
    if p == [] then [] else (if p[0] == '"' then "\"\"" else [p[0]]) + Escape(p[1..])
  }

  /** Reading one quoted field, as an RFC 4180 reader does: the text up to
      the lone closing quote, a doubled quote standing for one; `None` when
      the text does not start with a quote or the field never closes. */
  function ReadQuoted(s: string): Option<(string, string)>
  {
    if s == [] || s[0] != '"' then None else ReadBody(s[1..])
  }

  function ReadBody(s: string): (r: Option<(string, string)>)
    decreases |s|
  {
    if s == [] then None
    else if s[0] == '"' then
      if |s| >= 2 && s[1] == '"' then
        match ReadBody(s[2..])
        case None => None
        case Some(res) => Some(("\"" + res.0, res.1))
      else Some(("", s[1..]))
    else
      match ReadBody(s[1..])
      case None => None
      case Some(res) => Some(([s[0]] + res.0, res.1))
  }

  lemma {:induction false} ReadBodyEscape(p: string, rest: string)
    requires rest == [] || rest[0] != '"'
    ensures ReadBody(Escape(p) + "\"" + rest) == Some((p, rest))
    decreases |p|
  {
    if p == [] {
      ReadBodyClose(rest);
    } else {
      var t := Escape(p[1..]) + "\"" + rest;
      ReadBodyEscape(p[1..], rest);
      if p[0] == '"' {
        assert Escape(p) + "\"" + rest == "\"\"" + t;
        ReadBodyDoubled(t);
      } else {
        assert Escape(p) + "\"" + rest == [p[0]] + t;
        ReadBodyPlain(p[0], t);
      }
      assert [p[0]] + p[1..] == p;
    }
  }

  /** A lone quote closes the field. */
  lemma ReadBodyClose(rest: string)
    requires rest == [] || rest[0] != '"'
    ensures ReadBody("\"" + rest) == Some(("", rest))
  {
    assert ("\"" + rest)[1..] == rest;
  }

  /** A doubled quote reads as one quote character. */
  lemma ReadBodyDoubled(t: string)
    ensures ReadBody("\"\"" + t) == match ReadBody(t)
      case None => None
      case Some(res) => Some(("\"" + res.0, res.1))
  {
    assert ("\"\"" + t)[2..] == t;
  }

  /** Any other character is copied into the field. */
  lemma ReadBodyPlain(c: char, t: string)
    requires c != '"'
    ensures ReadBody([c] + t) == match ReadBody(t)
      case None => None
      case Some(res) => Some(([c] + res.0, res.1))
  {
    assert ([c] + t)[1..] == t;
  }

  /** The quoted cell reads back as the product name, whatever it contains,
      and reading stops exactly at the end of the cell. */
  lemma QuoteRoundTrip(p: string, rest: string)
    requires rest == [] || rest[0] != '"'
    ensures ReadQuoted(Quote(p) + rest) == Some((p, rest))
  {
    ReadBodyEscape(p, rest);
    assert (Quote(p) + rest)[1..] == Escape(p) + "\"" + rest;
  }

  /** As written, a name with a quote in it does not read back: `a"b`
      followed by the next comma reads as `a`, leaving `b",` behind. */
  lemma QuoteAsWrittenBreaks()
    ensures ReadQuoted(QuoteAsWritten("a\"b") + ",") == Some(("a", "b\","))
  {
    var s := QuoteAsWritten("a\"b") + ",";
    assert s == "\"a\"b\",";
    assert s[1..] == "a\"b\",";
    assert s[1..][1..] == "\"b\",";
    assert s[1..][1..][1..] == "b\",";
    assert "\"b\","[1..] == "b\",";
    assert ReadBody("\"b\",") == Some(("", "b\","));
    assert "a\"b\","[1..] == "\"b\",";
    assert ['a'] + "" == "a";
    assert ReadBody("a\"b\",") == Some(("a", "b\","));
  }

  /** One CSV line: date, quoted product, quantity, price, total, joined with
      commas as `Array.prototype.join` does. */
  function CsvLine(t: Value, quote: string -> string): string
  {
    ToString(Arr([Prop(t, "date"), Str(quote(ToString(Prop(t, "product")))),
                  Prop(t, "qty"), Prop(t, "price"), Prop(t, "total")]))
  }

  /** `csvContent`: the header, then one line per sale in list order, joined
      with newlines and no final newline. */
  function Csv(txs: seq<Value>, quote: string -> string): string
  {
    Text.Join([CsvHeader] + CsvRows(txs, quote), "\n")
  }

  /** One line per sale, in list order. */
  function CsvRows(txs: seq<Value>, quote: string -> string): (r: seq<string>)
    ensures |r| == |txs|
    ensures forall i :: 0 <= i < |txs| ==> r[i] == CsvLine(txs[i], quote)
  {
    seq(|txs|, i requires 0 <= i < |txs| => CsvLine(txs[i], quote))
  }

  /** The export as written. */
  function ExportCsvAsWritten(txs: seq<Value>): string
  {
    Csv(txs, QuoteAsWritten)
  }

  /** The export with quotes escaped. */
  function ExportCsv(txs: seq<Value>): string
  {
    Csv(txs, Quote)
  }

  /** When no line contains a newline, splitting the export at newlines gives
      the header and then exactly one line per sale, in order. */
  lemma CsvLines(txs: seq<Value>, quote: string -> string)
    requires forall i :: 0 <= i < |txs| ==> Text.NoChar(CsvLine(txs[i], quote), '\n')
    ensures var lines := Text.Split(Csv(txs, quote), '\n');
      |lines| == |txs| + 1 && lines[0] == CsvHeader &&
      forall i :: 0 <= i < |txs| ==> lines[i + 1] == CsvLine(txs[i], quote)
  {
    var rows := CsvRows(txs, quote);
    assert forall i :: 0 <= i < |rows| ==> Text.NoChar(rows[i], '\n');
    SplitHeaderRows(CsvHeader, rows, '\n');
  }

  /** A header and rows, none holding the separator, split back apart. */
  lemma SplitHeaderRows(header: string, rows: seq<string>, sep: char)
    requires Text.NoChar(header, sep)
    requires forall i :: 0 <= i < |rows| ==> Text.NoChar(rows[i], sep)
    ensures var lines := Text.Split(Text.Join([header] + rows, [sep]), sep);
      |lines| == |rows| + 1 && lines[0] == header &&
      forall i :: 0 <= i < |rows| ==> lines[i + 1] == rows[i]
  {
    var parts := [header] + rows;
    forall i | 0 <= i < |parts| ensures Text.NoChar(parts[i], sep)
    {
      if i > 0 {
        assert parts[i] == rows[i - 1];
      }
    }
    Text.SplitJoin(parts, sep);
  }
}

=== FILE: setup.dfy ===
/** The first-run wizard (src/app/setup/page.tsx with its Step3Connect and
    SetupFooter components): four steps, the third of which takes the
    spreadsheet script's URL, checks its shape, tests it through the proxy
    and stores it. Storage, alerts and the test request are returned as
    effects; the request's reply is an input. */
module Setup {
  import opened Optional
  import opened Js
  import Text
  import Api
  import Proxy

  // ---------------------------------------------------------------- URL shape

  const ScriptPrefix: string := "https://script.google.com/macros/s/"

  /** `[\w-]`: an ASCII letter, digit, underscore or hyphen. */
  predicate IdChar(c: char)
  {
    ('a' <= c <= 'z') || ('A' <= c <= 'Z') || ('0' <= c <= '9') || c == '_' || c == '-'
  }

  /** The characters `.` does not match. */
  predicate LineTerminator(c: char)
  {
    c == '\n' || c == '\r' || c == '\U{2028}' || c == '\U{2029}'
  }

  /** `(\?.*)?$`: nothing, or a question mark and then anything on one line. */
  predicate ValidQuery(q: string)
  {
    q == "" || (q[0] == '?' && forall i :: 1 <= i < |q| ==> !LineTerminator(q[i]))
  }

  /** The length of the leading run of `[\w-]` characters. */
  function IdRun(s: string): (k: nat)
    ensures k <= |s|
    ensures k < |s| ==> !IdChar(s[k])
  {
    if s == [] || !IdChar(s[0]) then 0 else 1 + IdRun(s[1..])
  }

  /** Every character the run covers is an id character. */
  lemma {:induction false} IdRunChars(s: string)
    ensures forall i :: 0 <= i < IdRun(s) ==> IdChar(s[i])
  {
    if s != [] && IdChar(s[0]) {
      IdRunChars(s[1..]);
      forall i | 0 <= i < IdRun(s) ensures IdChar(s[i]) {
        if i > 0 {
          assert s[i] == s[1..][i - 1];
        }
      }
    }
  }

  /** `isValidUrlPattern(url)`, read left to right: the prefix, the id run,
      `/exec`, and an optional one-line query. */
  predicate IsValidUrl(u: string)
  {
    Text.StartsWith(u, ScriptPrefix) &&
    var rest := u[|ScriptPrefix|..];
    var k := IdRun(rest);
    k >= 1 && Text.StartsWith(rest[k..], "/exec") && ValidQuery(rest[k + 5..])
  }

  /** Reference reading of the pattern: `u` splits as the prefix, an id of
      `n` word characters or hyphens, `/exec` and a valid query. */
  ghost predicate SplitsAt(u: string, n: int)
  {
    var p := |ScriptPrefix|;
    && n >= 1 && p + n + 5 <= |u|
    && u[..p] == ScriptPrefix
    && (forall i :: p <= i < p + n ==> IdChar(u[i]))
    && u[p + n..p + n + 5] == "/exec"
    && ValidQuery(u[p + n + 5..])
  }

  /** The scanner accepts exactly the URLs the pattern describes. Since `/`
      is not an id character, the id can only end where the run ends. */
  lemma UrlValidIff(u: string)
    ensures IsValidUrl(u) <==> exists n :: SplitsAt(u, n)
  {
    if IsValidUrl(u) {
      ValidSplits(u);
    }
    if exists n :: SplitsAt(u, n) {
      var n :| SplitsAt(u, n);
      SplitsValid(u, n);
    }
  }

  /** An accepted URL splits where the id run ends. */
  lemma ValidSplits(u: string)
    requires IsValidUrl(u)
    ensures SplitsAt(u, IdRun(u[|ScriptPrefix|..]))
  {
    var p := |ScriptPrefix|;
    var rest := u[p..];
    var k := IdRun(rest);
    IdRunChars(rest);
    assert u[p + k..p + k + 5] == rest[k..][..5];
    assert u[p + k + 5..] == rest[k + 5..];
    forall i | p <= i < p + k ensures IdChar(u[i]) {
      assert u[i] == rest[i - p];
    }
  }

  /** A URL that splits as the pattern says is accepted. */
  lemma SplitsValid(u: string, n: int)
    requires SplitsAt(u, n)
    ensures IsValidUrl(u)
  {
    var p := |ScriptPrefix|;
    var rest := u[p..];
    assert Text.StartsWith(u, ScriptPrefix);
    forall i | 0 <= i < n ensures IdChar(rest[i]) {
      assert rest[i] == u[p + i];
    }
    assert rest[n] == u[p + n] == '/';
    IdRunStops(rest, n);
    assert rest[n..][..5] == u[p + n..p + n + 5];
    assert rest[n + 5..] == u[p + n + 5..];
  }

  lemma {:induction false} IdRunStops(s: string, n: nat)
    requires n < |s| && !IdChar(s[n])
    requires forall i :: 0 <= i < n ==> IdChar(s[i])
    ensures IdRun(s) == n
  {
    if n > 0 {
      IdRunStops(s[1..], n - 1);
    }
  }

  /** A deployment URL is accepted, with or without a query. */
  lemma UrlAccepted(id: string, q: string)
    requires |id| >= 1 && forall i :: 0 <= i < |id| ==> IdChar(id[i])
    requires ValidQuery(q)
    ensures IsValidUrl(ScriptPrefix + id + "/exec" + q)
  {
    var u := ScriptPrefix + id + "/exec" + q;
    var p := |ScriptPrefix|;
    assert u[..p] == ScriptPrefix;
    forall i | p <= i < p + |id| ensures IdChar(u[i]) {
      assert u[i] == id[i - p];
    }
    assert u[p + |id|..p + |id| + 5] == "/exec";
    assert u[p + |id| + 5..] == q;
    assert SplitsAt(u, |id|);
    UrlValidIff(u);
  }

  /** Anything after `/exec` other than a one-line query is refused, and so
      is an empty id. */
  lemma UrlRefused(id: string, tail: string)
    requires forall i :: 0 <= i < |id| ==> IdChar(id[i])
    requires !ValidQuery(tail) || id == ""
    ensures !IsValidUrl(ScriptPrefix + id + "/exec" + tail)
  {
    var u := ScriptPrefix + id + "/exec" + tail;
    var p := |ScriptPrefix|;
    var rest := u[p..];
    assert rest == id + "/exec" + tail;
    assert rest[|id|] == '/';
    IdRunStops(rest, |id|);
    assert rest[|id| + 5..] == tail;
  }

  /** Concretely: a trailing slash or a line break in the query is refused. */
  lemma UrlExamples()
    ensures IsValidUrl(ScriptPrefix + "AKfy_c-9" + "/exec" + "?v=2")
    ensures !IsValidUrl(ScriptPrefix + "AKfy_c-9" + "/exec" + "/")
    ensures !IsValidUrl(ScriptPrefix + "AKfy_c-9" + "/exec" + "?a\nb")
  {
    var id := "AKfy_c-9";
    assert forall i :: 0 <= i < |id| ==> IdChar(id[i]);
    UrlAccepted(id, "?v=2");
    UrlRefused(id, "/");
    assert LineTerminator("?a\nb"[2]);
    UrlRefused(id, "?a\nb");
  }

  // ---------------------------------------------------------------- wizard

  datatype Status = Idle | Testing | Success | Error

  /** The message under the URL field; its wording depends on the language. */
  datatype Message = NoMessage | ErrUrl | SuccessConn | ErrConn

  datatype SetupState = SetupState(step: int, apiUrl: string, loading: bool, status: Status, message: Message)

  const Initial: SetupState := SetupState(1, "", false, Idle, NoMessage)

  /** What the wizard asks of the browser: a GET through the proxy for the
      given script URL, storing the URL, or the "enter a valid URL" alert. */
  datatype Effect = FetchThroughProxy(target: string) | StoreUrl(url: string) | AlertEnterValid

  /** The start-up effect: a stored URL pre-fills the field and `?step=3`
      jumps to the connection step. */
  function Init(st: SetupState, storedUrl: Option<string>, stepParam: Option<string>): (r: SetupState)
    ensures storedUrl.Some? && storedUrl.value != "" ==> r.apiUrl == storedUrl.value
    ensures storedUrl.None? || storedUrl.value == "" ==> r.apiUrl == st.apiUrl
    ensures r.step == if stepParam == Some("3") then 3 else st.step
    ensures r.status == st.status && r.loading == st.loading
  {
    var url := if storedUrl.Some? && storedUrl.value != "" then storedUrl.value else st.apiUrl;
    st.(apiUrl := url, step := if stepParam == Some("3") then 3 else st.step)
  }

  /** The script URL the connection test asks the proxy to GET. */
  function TestTarget(cleanUrl: string): string
  {
    cleanUrl + "?action=getData"
  }

  /** `handleTestConnection` up to the request: nothing for an empty field;
      otherwise the trimmed URL replaces the field, a malformed one is an
      error without any request, a well-formed one starts the test. */
  function StartTest(st: SetupState): (r: (SetupState, seq<Effect>))
    ensures st.apiUrl == "" ==> r == (st, [])
    ensures st.apiUrl != "" ==> r.0.apiUrl == Text.Trim(st.apiUrl) && r.0.step == st.step
    ensures st.apiUrl != "" && !IsValidUrl(Text.Trim(st.apiUrl)) ==>
      r.1 == [] && r.0.status == Error && r.0.message == ErrUrl
    ensures st.apiUrl != "" && IsValidUrl(Text.Trim(st.apiUrl)) ==>
      r.1 == [FetchThroughProxy(TestTarget(Text.Trim(st.apiUrl)))] && r.0.status == Testing && r.0.message == NoMessage
  {
    if st.apiUrl == "" then (st, [])
    else
      var clean := Text.Trim(st.apiUrl);
      if !IsValidUrl(clean) then (st.(apiUrl := clean, status := Error, message := ErrUrl), [])
      else (st.(apiUrl := clean, status := Testing, message := NoMessage), [FetchThroughProxy(TestTarget(clean))])
  }

  /** The checks on the proxy's reply, in the order they are made: the reply
      is 2xx, its body is a JSON object (`data.error` on `null` throws), it
      has no truthy `error`, and it has products or transactions. */
  predicate Accepted(reply: Api.HttpReply)
  {
    && reply.Reply? && Api.Ok(reply.status)
    && reply.body.Some? && !Nullish(reply.body.value)
    && !Truthy(Prop(reply.body.value, "error"))
    && (Truthy(Prop(reply.body.value, "products")) || Truthy(Prop(reply.body.value, "transactions")))
  }

  /** `handleTestConnection` after the reply: success when accepted, an
      error otherwise (every failed check throws into the same handler). */
  function FinishTest(st: SetupState, reply: Api.HttpReply): (r: SetupState)
    ensures Accepted(reply) ==> r.status == Success && r.message == SuccessConn
    ensures !Accepted(reply) ==> r.status == Error && r.message == ErrConn
    ensures r.apiUrl == st.apiUrl && r.step == st.step && r.loading == st.loading
  {
    match reply
    case Thrown => st.(status := Error, message := ErrConn)
    case Reply(status, body) =>
      if !Api.Ok(status) || body.None? || Nullish(body.value) then st.(status := Error, message := ErrConn)
      else if Truthy(Prop(body.value, "error")) then st.(status := Error, message := ErrConn)
      else if Truthy(Prop(body.value, "products")) || Truthy(Prop(body.value, "transactions")) then
        st.(status := Success, message := SuccessConn)
      else st.(status := Error, message := ErrConn)
  }

  /** Through the proxy, the test depends only on the script's body: an
      unparseable body fails, a parseable one is judged on its fields
      whatever status the script answered with. */
  lemma TestThroughProxy(st: SetupState, target: string, status: int, text: string, parse: string -> Option<Value>)
    requires target != ""
    ensures var reply := Proxy.ClientView(Proxy.HandleGet(Some(target), _ => Proxy.Upstream(status, text), parse));
      && (parse(text).None? ==> FinishTest(st, reply).status == Error)
      && (parse(text).Some? ==>
            (FinishTest(st, reply).status == Success <==>
              !Nullish(parse(text).value) && !Truthy(Prop(parse(text).value, "error")) &&
              (Truthy(Prop(parse(text).value, "products")) || Truthy(Prop(parse(text).value, "transactions")))))
  {
  }

  /** `handleNext`: blocked, with an alert, only on the connection step when
      the test has not succeeded and the URL is malformed. */
  function HandleNext(st: SetupState): (r: (SetupState, seq<Effect>))
    ensures st.step == 3 && st.status != Success && !IsValidUrl(st.apiUrl) ==> r == (st, [AlertEnterValid])
    ensures !(st.step == 3 && st.status != Success && !IsValidUrl(st.apiUrl)) ==> r == (st.(step := st.step + 1), [])
  {
    if st.step == 3 && st.status != Success && !IsValidUrl(st.apiUrl) then (st, [AlertEnterValid])
    else (st.(step := st.step + 1), [])
  }

  /** `handlePrev`. */
  function HandlePrev(st: SetupState): (r: SetupState)
    ensures r.step == st.step - 1 && r == st.(step := r.step)
  {
    st.(step := st.step - 1)
  }

  /** `handleSaveAndFinish`: the trimmed URL is stored, then loading is
      shown until the timer fires. */
  function SaveAndFinish(st: SetupState): (r: (SetupState, seq<Effect>))
    ensures r.1 == [StoreUrl(Text.Trim(st.apiUrl))]
    ensures r.0 == st.(loading := true)
  {
    (st.(loading := true), [StoreUrl(Text.Trim(st.apiUrl))])
  }

  /** The timer of `handleSaveAndFinish`: loading ends and `handleNext` runs. */
  function SaveTimerFires(st: SetupState): (r: (SetupState, seq<Effect>))
    ensures !r.0.loading
  {
    HandleNext(st.(loading := false))
  }

  /** Back button: shown on steps 2 and 3. */
  predicate BackVisible(step: int)
  {
    1 < step < 4
  }

  datatype FooterAction = SaveAndFinishAction | NextAction
  datatype FooterLabel = BtnSave | BtnFinish | BtnNext
  datatype FooterButton = FooterButton(action: FooterAction, disabled: bool, caption: FooterLabel)

  /** The footer (the page's own and `SetupFooter`, which agree): hidden from
      step 4 on; on step 3 the finish button, disabled without a URL, while
      saving or before a successful test; otherwise an always enabled "next". */
  function Footer(step: int, loading: bool, apiUrl: string, status: Status): (r: Option<FooterButton>)
    ensures r.None? <==> step >= 4
    ensures r.Some? && step == 3 ==>
      (&& r.value.action == SaveAndFinishAction
       && (r.value.disabled <==> apiUrl == "" || loading || status != Success)
       && r.value.caption == (if loading then BtnSave else BtnFinish))
    ensures r.Some? && step != 3 ==> r.value == FooterButton(NextAction, false, BtnNext)
  {
    if step >= 4 then None
    else if step == 3 then
      Some(FooterButton(SaveAndFinishAction, apiUrl == "" || loading || status != Success, if loading then BtnSave else BtnFinish))
    else Some(FooterButton(NextAction, false, BtnNext))
  }

  /** Pressing the footer button, its timer included. */
  function PressFooter(st: SetupState): (r: (SetupState, seq<Effect>))
    requires Footer(st.step, st.loading, st.apiUrl, st.status).Some?
  {
    match Footer(st.step, st.loading, st.apiUrl, st.status).value.action
    case SaveAndFinishAction =>
      var saved := SaveAndFinish(st);
      var fired := SaveTimerFires(saved.0);
      (fired.0, saved.1 + fired.1)
    case NextAction => HandleNext(st)
  }

  /** An enabled footer button always moves exactly one step on; on the
      connection step it also stores the trimmed URL. */
  lemma EnabledFooterAdvances(st: SetupState)
    requires Footer(st.step, st.loading, st.apiUrl, st.status).Some?
    requires !Footer(st.step, st.loading, st.apiUrl, st.status).value.disabled
    ensures PressFooter(st).0.step == st.step + 1
    ensures st.step == 3 ==> PressFooter(st).1 == [StoreUrl(Text.Trim(st.apiUrl))]
    ensures st.step != 3 ==> PressFooter(st).1 == []
  {
  }

  /** The wizard cannot be finished before a test has succeeded. */
  lemma StepsNeverSkipTest(st: SetupState)
    requires st.step == 3 && st.status != Success
    ensures Footer(st.step, st.loading, st.apiUrl, st.status).value.disabled
  {
  }

  // ---------------------------------------------------------------- connection step

  /** Typing in the URL field: the text replaces the URL and the test status
      goes back to idle. */
  function EditUrl(st: SetupState, text: string): (r: SetupState)
    ensures r.apiUrl == text && r.status == Idle
    ensures r.step == st.step && r.loading == st.loading && r.message == st.message
  {
    st.(apiUrl := text, status := Idle)
  }

  /** Any edit after a successful test disables finishing until a new test succeeds. */
  lemma EditRequiresRetest(st: SetupState, text: string)
    requires st.step == 3
    ensures Footer(3, st.loading, text, EditUrl(st, text).status).value.disabled
  {
  }

  /** The test button is disabled without a URL and while a test runs. */
  predicate TestDisabled(st: SetupState)
  {
    st.apiUrl == "" || st.status == Testing
  }

  /** An enabled test button always leaves the idle state behind. */
  lemma EnabledTestChangesStatus(st: SetupState)
    requires !TestDisabled(st)
    ensures StartTest(st).0.status in {Testing, Error}
  {
  }

  /** The message under the field: red for an error, green for a success. */
  datatype Notice = Hidden | Red(message: Message) | Green(message: Message)

  function NoticeOf(st: SetupState): (n: Notice)
    ensures n.Red? <==> st.status == Error
    ensures n.Green? <==> st.status == Success
    ensures !n.Hidden? ==> n.message == st.message
  {
    match st.status
    case Error => Red(st.message)
    case Success => Green(st.message)
    case _ => Hidden
  }

  /** After a finished test the notice says what happened. */
  lemma FinishedTestNotice(st: SetupState, reply: Api.HttpReply)
    ensures NoticeOf(FinishTest(st, reply)) == (if Accepted(reply) then Green(SuccessConn) else Red(ErrConn))
  {
  }

  // ---------------------------------------------------------------- bold markers

  /** The help texts' bold markers as written: every `**` becomes `<b>`,
      then a second pass replaces `**` with `</b>`. */
  function BoldAsWritten(s: string): string
  {
    Text.ReplaceAll(Text.ReplaceAll(s, "**", "<b>"), "**", "</b>")
  }

  /** No two adjacent stars. */
  predicate NoDoubleStar(r: string)
  {
    forall i :: 0 <= i < |r| - 1 ==> !(r[i] == '*' && r[i + 1] == '*')
  }

  lemma {:induction false} NoDoubleStarContains(r: string)
    requires NoDoubleStar(r)
    ensures !Text.Contains(r, "**")
    decreases |r|
  {
    if |r| >= 2 {
      assert r[..2] != "**" by {
        assert !(r[0] == '*' && r[1] == '*');
      }
      NoDoubleStarContains(r[1..]);
    }
  }

  lemma {:induction false} ReplaceStarHead(s: string)
    ensures var r := Text.ReplaceAll(s, "**", "<b>");
      |r| > 0 && r[0] == '*' ==> |s| > 0 && s[0] == '*'
    decreases |s|
  {
  }

  /** The first pass leaves no `**` behind. */
  lemma {:induction false} FirstPassNoMarkers(s: string)
    ensures NoDoubleStar(Text.ReplaceAll(s, "**", "<b>"))
    decreases |s|
  {
    if |s| < 2 {
    } else if Text.StartsWith(s, "**") {
      FirstPassNoMarkers(s[2..]);
      var tail := Text.ReplaceAll(s[2..], "**", "<b>");
      assert Text.ReplaceAll(s, "**", "<b>") == "<b>" + tail;
    } else {
      FirstPassNoMarkers(s[1..]);
      ReplaceStarHead(s[1..]);
      var tail := Text.ReplaceAll(s[1..], "**", "<b>");
      var r := [s[0]] + tail;
      assert Text.ReplaceAll(s, "**", "<b>") == r;
      forall i | 0 <= i < |r| - 1 ensures !(r[i] == '*' && r[i + 1] == '*')
      {
        if i > 0 {
          assert r[i] == tail[i - 1] && r[i + 1] == tail[i];
        }
      }
    }
  }

  /** As written the second pass never fires: no closing tag is produced. */
  lemma SecondPassIsNoOp(s: string)
    ensures BoldAsWritten(s) == Text.ReplaceAll(s, "**", "<b>")
  {
    FirstPassNoMarkers(s);
    NoDoubleStarContains(Text.ReplaceAll(s, "**", "<b>"));
    Text.ReplaceAllAbsent(Text.ReplaceAll(s, "**", "<b>"), "**", "</b>");
  }

  /** Text without stars passes the first pass unchanged up to the next marker. */
  lemma {:induction false} FirstPassPlain(t: string, rest: string)
    requires Text.NoChar(t, '*')
    ensures Text.ReplaceAll(t + "**" + rest, "**", "<b>") == t + Text.ReplaceAll("**" + rest, "**", "<b>")
    decreases |t|
  {
    if t != [] {
      var s := t + "**" + rest;
      var after := Text.ReplaceAll("**" + rest, "**", "<b>");
      assert s[0] == t[0] != '*';
      Text.ReplaceAllSkip(s, "**", "<b>");
      assert s[1..] == t[1..] + "**" + rest;
      assert Text.NoChar(t[1..], '*') by {
        forall i | 0 <= i < |t[1..]| ensures t[1..][i] != '*' {
          assert t[1..][i] == t[i + 1];
        }
      }
      FirstPassPlain(t[1..], rest);
      assert [t[0]] + (t[1..] + after) == t + after;
    }
  }

  /** The first pass turns both markers of a pair into opening tags. */
  lemma FirstPassPair(t: string, rest: string)
    requires Text.NoChar(t, '*')
    ensures Text.ReplaceAll("**" + t + "**" + rest, "**", "<b>") ==
      "<b>" + t + "<b>" + Text.ReplaceAll(rest, "**", "<b>")
  {
    var tail := t + "**" + rest;
    var done := Text.ReplaceAll(rest, "**", "<b>");
    assert "**" + t + "**" + rest == "**" + tail;
    Text.ReplaceAllHead("**", tail, "<b>");
    FirstPassPlain(t, rest);
    Text.ReplaceAllHead("**", rest, "<b>");
    assert "<b>" + (t + ("<b>" + done)) == "<b>" + t + "<b>" + done;
  }

  /** As written, a pair of markers around star-free text opens two bold
      runs and closes none. */
  lemma BoldAsWrittenPair(t: string, rest: string)
    requires Text.NoChar(t, '*')
    ensures BoldAsWritten("**" + t + "**" + rest) == "<b>" + t + "<b>" + Text.ReplaceAll(rest, "**", "<b>")
  {
    SecondPassIsNoOp("**" + t + "**" + rest);
    FirstPassPair(t, rest);
  }

  /** So `**Chrome**` comes out as `<b>Chrome<b>`. */
  lemma BoldAsWrittenExample()
    ensures BoldAsWritten("**Chrome**") == "<b>Chrome<b>"
  {
    var t := "Chrome";
    assert Text.NoChar(t, '*');
    BoldAsWrittenPair(t, "");
    assert Text.ReplaceAll("", "**", "<b>") == "";
    assert "**" + t + "**" + "" == "**Chrome**";
    assert "<b>" + t + "<b>" + "" == "<b>Chrome<b>";
  }

  /** The markers as intended: they alternate between opening and closing
      a bold run; `open` says whether one is open. */
  function Bold(s: string, open: bool): string
    decreases |s|
  {
    if |s| < 2 then s
    else if Text.StartsWith(s, "**") then (if open then "</b>" else "<b>") + Bold(s[2..], !open)
    else [s[0]] + Bold(s[1..], open)
  }

  /** Text without stars passes through unchanged up to the next marker. */
  lemma {:induction false} BoldPlain(t: string, rest: string, open: bool)
    requires Text.NoChar(t, '*')
    ensures Bold(t + "**" + rest, open) == t + Bold("**" + rest, open)
    decreases |t|
  {
    if t != [] {
      var s := t + "**" + rest;
      assert s[0] == t[0] != '*';
      assert s[1..] == t[1..] + "**" + rest;
      BoldPlain(t[1..], rest, open);
      assert [t[0]] + t[1..] == t;
    }
  }

  /** A marker at the front toggles the run and the scan resumes after it. */
  lemma BoldHead(rest: string, open: bool)
    ensures Bold("**" + rest, open) == (if open then "</b>" else "<b>") + Bold(rest, !open)
  {
    assert ("**" + rest)[..2] == "**";
    assert ("**" + rest)[2..] == rest;
  }

  /** A pair of markers around star-free text makes exactly one bold run. */
  lemma BoldPair(t: string, rest: string)
    requires Text.NoChar(t, '*')
    ensures Bold("**" + t + "**" + rest, false) == "<b>" + t + "</b>" + Bold(rest, false)
  {
    assert "**" + t + "**" + rest == "**" + (t + "**" + rest);
    BoldHead(t + "**" + rest, false);
    BoldPlain(t, rest, true);
    BoldHead(rest, true);
  }

  /** So `**Chrome**` comes out as `<b>Chrome</b>`. */
  lemma BoldExample()
    ensures Bold("**Chrome**", false) == "<b>Chrome</b>"
  {
    var t := "Chrome";
    assert Bold("", false) == "";
    assert Text.NoChar(t, '*');
    BoldPair(t, "");
    assert "**" + t + "**" + "" == "**Chrome**";
    assert "<b>" + t + "</b>" + "" == "<b>Chrome</b>";
  }
}

=== FILE: table.dfy ===
/** The generic table hook (src/hooks/useTable.ts): filter by a search query,
    sort by one field, cut into fixed-size pages. The hook's state is a
    `TableState`; each setter is a pure transition and the rendered view is
    a function of the data, the configuration and the state. */
module Table {
  import opened Js
  import opened Optional
  import opened Order
  import Text

  // ---------------------------------------------------------------- filter

  /** `s.filter(p)`. */
  function Keep<T>(s: seq<T>, p: T -> bool): (r: seq<T>)
    ensures |r| <= |s|
    ensures forall i :: 0 <= i < |r| ==> p(r[i])
  {
    if s == [] then []
    else (if p(s[0]) then [s[0]] else []) + Keep(s[1..], p)
  }

  /** Filtering a concatenation filters each part: with `Keep([x])` this pins
      `Keep` down as the in-order selection of the elements satisfying `p`. */
  lemma {:induction false} KeepAppend<T>(a: seq<T>, b: seq<T>, p: T -> bool)
    ensures Keep(a + b, p) == Keep(a, p) + Keep(b, p)
  {
    if a == [] {
      assert a + b == b;
    } else {
      assert (a + b)[0] == a[0] && (a + b)[1..] == a[1..] + b;
      KeepAppend(a[1..], b, p);
    }
  }

  /** Filters that agree on the elements give the same result. */
  lemma {:induction false} KeepCongruent<T>(s: seq<T>, p: T -> bool, q: T -> bool)
    requires forall i :: 0 <= i < |s| ==> p(s[i]) == q(s[i])
    ensures Keep(s, p) == Keep(s, q)
  {
    if s != [] {
      assert forall i :: 1 <= i < |s| ==> s[i] == s[1..][i - 1];
      KeepCongruent(s[1..], p, q);
    }
  }

  /** An element survives the filter exactly when it was there and passes. */
  lemma {:induction false} KeepMember<T>(s: seq<T>, p: T -> bool, x: T)
    ensures x in Keep(s, p) <==> x in s && p(x)
  {
    if s != [] {
      KeepMember(s[1..], p, x);
      assert x in s <==> x == s[0] || x in s[1..];
    }
  }

  /** Filtering keeps everything exactly when everything passes. */
  lemma {:induction false} KeepAll<T>(s: seq<T>, p: T -> bool)
    ensures Keep(s, p) == s <==> forall i :: 0 <= i < |s| ==> p(s[i])
  {
    if s != [] {
      KeepAll(s[1..], p);
      if !p(s[0]) {
        assert |Keep(s, p)| < |s|;
      } else {
        assert forall i :: 1 <= i < |s| ==> s[i] == s[1..][i - 1];
      }
    }
  }

  /** What one filter drops, its complement keeps. */
  lemma {:induction false} KeepSplit<T>(s: seq<T>, p: T -> bool, q: T -> bool)
    requires forall x :: q(x) <==> !p(x)
    ensures multiset(Keep(s, p)) + multiset(Keep(s, q)) == multiset(s)
  {
    if s != [] {
      var rest := s[1..];
      KeepSplit(rest, p, q);
      var head := if p(s[0]) then [s[0]] else [];
      var headQ := if q(s[0]) then [s[0]] else [];
      assert multiset(Keep(s, p)) == multiset(head) + multiset(Keep(rest, p)) by {
        assert Keep(s, p) == head + Keep(rest, p);
      }
      assert multiset(Keep(s, q)) == multiset(headQ) + multiset(Keep(rest, q)) by {
        assert Keep(s, q) == headQ + Keep(rest, q);
      }
      assert multiset(head) + multiset(headQ) == multiset{s[0]} by {
        assert q(s[0]) <==> !p(s[0]);
      }
      ConsMultiset(s);
    }
  }

  lemma ConsMultiset<T>(s: seq<T>)
    requires s != []
    ensures multiset(s) == multiset{s[0]} + multiset(s[1..])
  {
    assert s == [s[0]] + s[1..];
  }

  /** Filtering twice is filtering once. */
  lemma KeepIdempotent<T>(s: seq<T>, p: T -> bool)
    ensures Keep(Keep(s, p), p) == Keep(s, p)
  {
    KeepAll(Keep(s, p), p);
  }

  /** The filter step: applied only when the query is non-empty and the table
      was given a filter function. */
  function Filtered(s: seq<Value>, query: string, filterFn: Option<(Value, string) -> bool>): (r: seq<Value>)
    ensures query == "" || filterFn.None? ==> r == s
    ensures query != "" && filterFn.Some? ==> r == Keep(s, x => filterFn.value(x, query))
  {
    if query != "" && filterFn.Some? then Keep(s, x => filterFn.value(x, query)) else s
  }

  /** A record is listed exactly when it is in the data and, if a search is
      active, the filter function accepts it for the query. */
  lemma FilteredMember(s: seq<Value>, query: string, filterFn: Option<(Value, string) -> bool>, x: Value)
    ensures x in Filtered(s, query, filterFn) <==>
      x in s && (query == "" || filterFn.None? || filterFn.value(x, query))
  {
    if query != "" && filterFn.Some? {
      KeepMember(s, y => filterFn.value(y, query), x);
    }
  }

  // ---------------------------------------------------------------- sort

  /** Stable insertion of `x` behind every element it does not precede. */
  function Insert<T>(xs: seq<T>, x: T, key: T -> Value, dir: Direction): (r: seq<T>)
    ensures multiset(r) == multiset(xs) + multiset{x}
    ensures |r| == |xs| + 1
  {
    if xs == [] || Le(dir, key(xs[|xs| - 1]), key(x)) then xs + [x]
    else
      var r := Insert(xs[..|xs| - 1], x, key, dir) + [xs[|xs| - 1]];
      assert xs == xs[..|xs| - 1] + [xs[|xs| - 1]];
      r
  }

  /** `[...s].sort(cmp)` for the comparator of the sort configuration; a
      stable sort, as the language requires of `Array.prototype.sort`. */
  function SortBy<T>(s: seq<T>, key: T -> Value, dir: Direction): (r: seq<T>)
    ensures multiset(r) == multiset(s)
    ensures |r| == |s|
  {
    if s == [] then []
    else
      var r := Insert(SortBy(s[..|s| - 1], key, dir), s[|s| - 1], key, dir);
      assert s == s[..|s| - 1] + [s[|s| - 1]];
      r
  }

  ghost predicate Sorted<T>(s: seq<T>, key: T -> Value, dir: Direction)
  {
    forall i, j :: 0 <= i < j < |s| ==> Le(dir, key(s[i]), key(s[j]))
  }

  /** All sort keys are strings, or all are numbers. */
  ghost predicate UniformKeys<T>(s: seq<T>, key: T -> Value)
  {
    (forall i :: 0 <= i < |s| ==> key(s[i]).Str?) || (forall i :: 0 <= i < |s| ==> key(s[i]).Num?)
  }

  lemma UniformMember<T>(s: seq<T>, key: T -> Value, x: T, y: T)
    requires UniformKeys(s, key) && x in s && y in s
    ensures SameKind(key(x), key(y))
  {
  }

  /** Uniformity carries over to any selection of the same elements. */
  lemma UniformSub<T>(s: seq<T>, t: seq<T>, key: T -> Value)
    requires UniformKeys(s, key) && multiset(t) <= multiset(s)
    ensures UniformKeys(t, key)
  {
    forall i | 0 <= i < |t| ensures t[i] in s
    {
      assert t[i] in multiset(t);
    }
  }

  lemma {:induction false} InsertSorted<T>(xs: seq<T>, x: T, key: T -> Value, dir: Direction)
    requires Sorted(xs, key, dir) && UniformKeys(xs + [x], key)
    ensures Sorted(Insert(xs, x, key, dir), key, dir)
  {
    if xs == [] {
    } else if Le(dir, key(xs[|xs| - 1]), key(x)) {
      AppendSorted(xs, x, key, dir);
    } else {
      var init := xs[..|xs| - 1];
      var last := xs[|xs| - 1];
      assert xs == init + [last];
      assert UniformKeys(init + [x], key) by {
        assert multiset(init + [x]) <= multiset(xs + [x]);
        UniformSub(xs + [x], init + [x], key);
      }
      assert Sorted(init, key, dir);
      InsertSorted(init, x, key, dir);
      assert Le(dir, key(x), key(last)) by {
        LeTotal(dir, key(last), key(x));
      }
      AppendAfterAll(init, x, Insert(init, x, key, dir), last, key, dir);
    }
  }

  /** Appending an element that follows the last one keeps a list sorted. */
  lemma AppendSorted<T>(xs: seq<T>, x: T, key: T -> Value, dir: Direction)
    requires xs != [] && Sorted(xs, key, dir) && UniformKeys(xs + [x], key)
    requires Le(dir, key(xs[|xs| - 1]), key(x))
    ensures Sorted(xs + [x], key, dir)
  {
    var all := xs + [x];
    forall i, j | 0 <= i < j < |all|
      ensures Le(dir, key(all[i]), key(all[j]))
    {
      if j == |xs| && i < |xs| - 1 {
        assert xs[i] in all && xs[|xs| - 1] in all && x in all;
        UniformMember(all, key, xs[i], xs[|xs| - 1]);
        UniformMember(all, key, xs[|xs| - 1], x);
        LeTrans(dir, key(xs[i]), key(xs[|xs| - 1]), key(x));
      }
    }
  }

  /** Appending an element that every element of `init` and `x` may precede
      to a sorted arrangement of `init` and `x` keeps it sorted. */
  lemma AppendAfterAll<T>(init: seq<T>, x: T, r: seq<T>, last: T, key: T -> Value, dir: Direction)
    requires Sorted(r, key, dir) && multiset(r) == multiset(init) + multiset{x}
    requires Sorted(init + [last], key, dir) && Le(dir, key(x), key(last))
    ensures Sorted(r + [last], key, dir)
  {
    var all := r + [last];
    forall i, j | 0 <= i < j < |all|
      ensures Le(dir, key(all[i]), key(all[j]))
    {
      if j == |r| {
        assert r[i] in multiset(init) + multiset{x} by {
          assert r[i] in r;
        }
        if r[i] != x {
          assert r[i] in init;
          var k :| 0 <= k < |init| && init[k] == r[i];
          assert (init + [last])[k] == r[i] && (init + [last])[|init|] == last;
        }
      }
    }
  }

  /** On keys of one kind the result is ordered by the comparator. */
  lemma {:induction false} SortBySorted<T>(s: seq<T>, key: T -> Value, dir: Direction)
    requires UniformKeys(s, key)
    ensures Sorted(SortBy(s, key, dir), key, dir)
  {
    if s != [] {
      var init := s[..|s| - 1];
      assert s == init + [s[|s| - 1]];
      UniformSub(s, init, key);
      SortBySorted(init, key, dir);
      var sorted := SortBy(init, key, dir);
      UniformSub(s, sorted + [s[|s| - 1]], key);
      InsertSorted(sorted, s[|s| - 1], key, dir);
    }
  }

  /** The elements whose sort key is `k`, in order. */
  function WithKey<T>(s: seq<T>, key: T -> Value, k: Value): seq<T>
  {
    if s == [] then []
    else WithKey(s[..|s| - 1], key, k) + (if key(s[|s| - 1]) == k then [s[|s| - 1]] else [])
  }

  lemma WithKeySnoc<T>(s: seq<T>, x: T, key: T -> Value, k: Value)
    ensures WithKey(s + [x], key, k) == WithKey(s, key, k) + (if key(x) == k then [x] else [])
  {
    assert (s + [x])[..|s|] == s;
  }

  /** Two appended pieces of which one is empty may be swapped. */
  lemma SwapEmpty<T>(a: seq<T>, b: seq<T>, c: seq<T>)
    requires b == [] || c == []
    ensures a + b + c == a + c + b
  {
    if b == [] {
      assert a + b == a;
      assert a + c + b == a + c;
    } else {
      assert a + c == a;
      assert a + b + c == a + b;
    }
  }

  lemma {:induction false} InsertStable<T>(xs: seq<T>, x: T, key: T -> Value, dir: Direction, k: Value)
    ensures WithKey(Insert(xs, x, key, dir), key, k) == WithKey(xs, key, k) + (if key(x) == k then [x] else [])
  {
    if xs == [] || Le(dir, key(xs[|xs| - 1]), key(x)) {
      WithKeySnoc(xs, x, key, k);
    } else {
      var init := xs[..|xs| - 1];
      var last := xs[|xs| - 1];
      var r := Insert(init, x, key, dir);
      var tx: seq<T> := if key(x) == k then [x] else [];
      var tl: seq<T> := if key(last) == k then [last] else [];
      calc {
        WithKey(Insert(xs, x, key, dir), key, k);
        WithKey(r + [last], key, k);
        { WithKeySnoc(r, last, key, k); }
        WithKey(r, key, k) + tl;
        { InsertStable(init, x, key, dir, k); }
        WithKey(init, key, k) + tx + tl;
        { CompareSeparates(dir, key(last), key(x));
          SwapEmpty(WithKey(init, key, k), tx, tl); }
        WithKey(init, key, k) + tl + tx;
        { assert xs == init + [last];
          WithKeySnoc(init, last, key, k); }
        WithKey(xs, key, k) + tx;
      }
    }
  }

  /** Stability: records with the same sort key keep their relative order,
      whatever the keys are. */
  lemma {:induction false} SortByStable<T>(s: seq<T>, key: T -> Value, dir: Direction, k: Value)
    ensures WithKey(SortBy(s, key, dir), key, k) == WithKey(s, key, k)
  {
    if s != [] {
      var init := s[..|s| - 1];
      var x := s[|s| - 1];
      var tail := if key(x) == k then [x] else [];
      SortByStable(init, key, dir, k);
      InsertStable(SortBy(init, key, dir), x, key, dir, k);
      assert SortBy(s, key, dir) == Insert(SortBy(init, key, dir), x, key, dir);
      assert WithKey(s, key, k) == WithKey(init, key, k) + tail;
    }
  }

  // ---------------------------------------------------------------- pages

  /** `Math.ceil(n / perPage)`. */
  function TotalPages(n: nat, perPage: int): (r: nat)
    requires perPage > 0
    ensures r * perPage >= n
    ensures n > 0 ==> (r - 1) * perPage < n
    ensures r == 0 <==> n == 0
  {
    (n + perPage - 1) / perPage
  }

  /** `s.slice(start, end)`: negative bounds count from the end, bounds are
      clamped, and a crossed range is empty. */
  function Slice<T>(s: seq<T>, start: int, end: int): (r: seq<T>)
    ensures |r| <= |s|
    ensures 0 <= start <= end ==> r == s[Clamp(start, |s|)..Clamp(end, |s|)]
  {
    var from := if start < 0 then Clamp(|s| + start, |s|) else Clamp(start, |s|);
    var to := if end < 0 then Clamp(|s| + end, |s|) else Clamp(end, |s|);
    if from < to then s[from..to] else []
  }

  function Clamp(i: int, n: nat): (r: nat)
    ensures r <= n
  {
    if i < 0 then 0 else if i > n then n else i
  }

  /** The rows on page `page`. */
  function PageRows<T>(s: seq<T>, page: int, perPage: int): (r: seq<T>)
    requires perPage > 0
    ensures |r| <= perPage
    ensures page >= 1 ==> r == s[Clamp((page - 1) * perPage, |s|)..Clamp(page * perPage, |s|)]
  {
    var start := (page - 1) * perPage;
    NextMultiple(page - 1, perPage);
    Slice(s, start, start + perPage)
  }

  lemma NextMultiple(a: int, b: int)
    ensures a * b + b == (a + 1) * b
  {
  }

  /** A page past the last one is empty. */
  lemma PageBeyondEmpty<T>(s: seq<T>, page: int, perPage: int)
    requires perPage > 0 && page > TotalPages(|s|, perPage)
    ensures PageRows(s, page, perPage) == []
  {
    var t := TotalPages(|s|, perPage);
    assert (page - 1) * perPage >= t * perPage;
  }

  /** Pages `1..k` laid end to end. */
  function PagesUpTo<T>(s: seq<T>, k: nat, perPage: int): seq<T>
    requires perPage > 0
  {
    if k == 0 then [] else PagesUpTo(s, k - 1, perPage) + PageRows(s, k, perPage)
  }

  lemma {:induction false} PagesUpToPrefix<T>(s: seq<T>, k: nat, perPage: int)
    requires perPage > 0
    ensures PagesUpTo(s, k, perPage) == s[..Clamp(k * perPage, |s|)]
  {
    if k > 0 {
      PagesUpToPrefix(s, k - 1, perPage);
      assert (k - 1) * perPage + perPage == k * perPage;
      var a := Clamp((k - 1) * perPage, |s|);
      var b := Clamp(k * perPage, |s|);
      assert a <= b;
      assert s[..a] + s[a..b] == s[..b];
    }
  }

  /** Paging loses and repeats nothing: the pages in order are the list. */
  lemma PagesCoverAll<T>(s: seq<T>, perPage: int)
    requires perPage > 0
    ensures PagesUpTo(s, TotalPages(|s|, perPage), perPage) == s
  {
    PagesUpToPrefix(s, TotalPages(|s|, perPage), perPage);
  }

  // ---------------------------------------------------------------- hook

  datatype SortConfig = SortConfig(key: string, dir: Direction)

  /** The hook's arguments; `itemsPerPage` defaults to `DefaultPerPage`. */
  datatype Config = Config(itemsPerPage: int, initialSort: Option<SortConfig>,
                           filterFn: Option<(Value, string) -> bool>)

  const DefaultPerPage: int := 20

  datatype TableState = TableState(query: string, page: int, sort: Option<SortConfig>)

  function Init(cfg: Config): (st: TableState)
    ensures st.query == "" && st.page == 1 && st.sort == cfg.initialSort
  {
    TableState("", 1, cfg.initialSort)
  }

  /** The first render: no search is active, so every record is counted,
      the rows are the first page of the data in the initial order (the data
      as given when there is no initial sort), and nothing is lost. */
  lemma InitialView(data: seq<Value>, cfg: Config)
    requires cfg.itemsPerPage > 0
    ensures var v := Render(data, cfg, Init(cfg));
      var p := Processed(data, cfg, Init(cfg));
      && v.totalItems == |data| && v.currentPage == 1
      && multiset(p) == multiset(data)
      && (cfg.initialSort.None? ==> p == data)
      && v.rows == p[..if |data| < cfg.itemsPerPage then |data| else cfg.itemsPerPage]
  {
    var p := Processed(data, cfg, Init(cfg));
    assert Filtered(data, "", cfg.filterFn) == data;
    assert PageRows(p, 1, cfg.itemsPerPage) == p[Clamp(0, |p|)..Clamp(cfg.itemsPerPage, |p|)];
  }

  /** A row's sort key: `item[key]`. */
  function Field(key: string): Value -> Value
  {
    v => Prop(v, key)
  }

  /** The filtered, then sorted, list. */
  function Processed(data: seq<Value>, cfg: Config, st: TableState): (r: seq<Value>)
    ensures multiset(r) == multiset(Filtered(data, st.query, cfg.filterFn))
    ensures st.sort.None? ==> r == Filtered(data, st.query, cfg.filterFn)
  {
    var f := Filtered(data, st.query, cfg.filterFn);
    if st.sort.Some? then SortBy(f, Field(st.sort.value.key), st.sort.value.dir) else f
  }

  datatype View = View(rows: seq<Value>, totalItems: nat, totalPages: nat, currentPage: int)

  /** What the hook returns to the page. */
  function Render(data: seq<Value>, cfg: Config, st: TableState): (v: View)
    requires cfg.itemsPerPage > 0
    ensures v.totalItems <= |data|
    ensures v.totalItems == |Processed(data, cfg, st)|
    ensures v.totalPages == TotalPages(v.totalItems, cfg.itemsPerPage)
    ensures |v.rows| <= cfg.itemsPerPage
    ensures v.currentPage == st.page
  {
    var p := Processed(data, cfg, st);
    View(PageRows(p, st.page, cfg.itemsPerPage), |p|, TotalPages(|p|, cfg.itemsPerPage), st.page)
  }

  /** `handleSort(key)`: ascending, unless the table is already sorted
      ascending by this key. */
  function HandleSort(st: TableState, key: string): (r: TableState)
    ensures r.query == st.query && r.page == st.page
    ensures r.sort.Some? && r.sort.value.key == key
    ensures r.sort.value.dir == Desc <==> st.sort == Some(SortConfig(key, Asc))
  {
    var dir := if st.sort.Some? && st.sort.value.key == key && st.sort.value.dir == Asc then Desc else Asc;
    st.(sort := Some(SortConfig(key, dir)))
  }

  /** Clicking the same header cycles ascending, descending, ascending. */
  lemma HandleSortCycles(st: TableState, key: string)
    ensures HandleSort(HandleSort(st, key), key).sort == Some(SortConfig(key, if HandleSort(st, key).sort.value.dir == Asc then Desc else Asc))
    ensures HandleSort(HandleSort(HandleSort(st, key), key), key).sort == HandleSort(st, key).sort
  {
  }

  /** `Math.max(1, Math.min(page, totalPages))`. */
  function ClampPage(page: int, totalPages: int): (p: int)
    ensures p >= 1
    ensures totalPages >= 1 ==> p <= totalPages
    ensures 1 <= page <= totalPages ==> p == page
    ensures page > totalPages >= 1 ==> p == totalPages
  {
    if page < totalPages then (if page < 1 then 1 else page)
    else (if totalPages < 1 then 1 else totalPages)
  }

  /** `goToPage(page)`, against the page count of the current view. */
  function GoToPage(st: TableState, totalPages: int, page: int): (r: TableState)
    ensures r.query == st.query && r.sort == st.sort
    ensures r.page == ClampPage(page, totalPages)
  {
    st.(page := ClampPage(page, totalPages))
  }

  function NextPage(st: TableState, totalPages: int): (r: TableState)
    ensures totalPages >= 1 && 1 <= st.page < totalPages ==> r.page == st.page + 1
    ensures st.page >= totalPages >= 1 ==> r.page == totalPages
  {
    GoToPage(st, totalPages, st.page + 1)
  }

  function PrevPage(st: TableState, totalPages: int): (r: TableState)
    ensures 1 < st.page <= totalPages ==> r.page == st.page - 1
    ensures st.page <= 1 ==> r.page == 1
  {
    GoToPage(st, totalPages, st.page - 1)
  }

  /** `setSearchQuery(q)`: the page number is left as it was. */
  function SetQuery(st: TableState, q: string): (r: TableState)
    ensures r.query == q && r.page == st.page && r.sort == st.sort
  {
    st.(query := q)
  }

  /** Every transition keeps the page number at least 1. */
  ghost predicate Valid(st: TableState)
  {
    st.page >= 1
  }

  lemma TransitionsKeepValid(cfg: Config, st: TableState, key: string, q: string, total: int, page: int)
    requires Valid(st)
    ensures Valid(Init(cfg))
    ensures Valid(HandleSort(st, key)) && Valid(SetQuery(st, q))
    ensures Valid(GoToPage(st, total, page)) && Valid(NextPage(st, total)) && Valid(PrevPage(st, total))
  {
  }

  /** Because a new query keeps the page, narrowing the search while on a
      later page shows an empty page until the user navigates. */
  lemma NarrowedQueryCanEmptyPage(data: seq<Value>, cfg: Config, st: TableState, q: string)
    requires cfg.itemsPerPage > 0
    requires st.page > TotalPages(|Processed(data, cfg, SetQuery(st, q))|, cfg.itemsPerPage)
    ensures Render(data, cfg, SetQuery(st, q)).rows == []
  {
    PageBeyondEmpty(Processed(data, cfg, SetQuery(st, q)), st.page, cfg.itemsPerPage);
  }
}

=== FILE: text.dfy ===
/** String helpers that the dashboard takes from the JavaScript runtime:
    case folding, substring search, trimming, replace-all and join/split.
    Case folding is ASCII only; see the README. */
module Text {

  /** UTF-16 code units of one character: two for one outside the Basic
      Multilingual Plane (a surrogate pair), else one. */
  function Utf16Units(c: char): nat
  {
    if c as int > 0xFFFF then 2 else 1
  }

  /** The JavaScript `length` of a string: its UTF-16 code units. */
  function Utf16Length(s: string): (n: nat)
    ensures |s| <= n <= 2 * |s|
  {
    if s == [] then 0 else Utf16Units(s[0]) + Utf16Length(s[1..])
  }

  /** ASCII lower-casing of one character, as `toLowerCase` does for ASCII. */
  function LowerChar(c: char): char
  {
    if 'A' <= c <= 'Z' then (c as int + 32) as char else c
  }

  /** `s.toLowerCase()` restricted to ASCII letters. */
  function Lower(s: string): (r: string)
    ensures |r| == |s|
    ensures forall i :: 0 <= i < |s| ==> r[i] == LowerChar(s[i])
  {
    if s == [] then [] else [LowerChar(s[0])] + Lower(s[1..])
  }

  lemma LowerCharIdempotent(c: char)
    ensures LowerChar(LowerChar(c)) == LowerChar(c)
  {
  }

  /** Lower-casing twice is lower-casing once. */
  lemma LowerIdempotent(s: string)
    ensures Lower(Lower(s)) == Lower(s)
  {
    var l := Lower(s);
    var ll := Lower(l);
    assert |ll| == |l|;
    forall i | 0 <= i < |l| ensures ll[i] == l[i] {
      LowerCharIdempotent(s[i]);
    }
  }

  /** `s.startsWith(p)`. */
  predicate StartsWith(s: string, p: string)
  {
    |p| <= |s| && s[..|p|] == p
  }

  /** The independent definition of "needle occurs in hay at some position". */
  ghost predicate OccursAt(hay: string, needle: string, i: int)
  {
    0 <= i && i + |needle| <= |hay| && hay[i..i + |needle|] == needle
  }

  /** `hay.includes(needle)`, computed by scanning start positions left to right. */
  predicate Contains(hay: string, needle: string)
    decreases |hay|
  {
    StartsWith(hay, needle) || (|hay| > 0 && Contains(hay[1..], needle))
  }

  /** An occurrence at any position is found by the scan. */
  lemma {:induction false} OccursContains(hay: string, needle: string, i: int)
    requires OccursAt(hay, needle, i)
    ensures Contains(hay, needle)
    decreases i
  {
    if i == 0 {
      assert StartsWith(hay, needle);
    } else {
      assert hay[1..][i - 1..i - 1 + |needle|] == hay[i..i + |needle|];
      OccursContains(hay[1..], needle, i - 1);
    }
  }

  /** `Contains` holds exactly when the needle occurs at some position. */
  lemma {:induction false} ContainsIff(hay: string, needle: string)
    ensures Contains(hay, needle) <==> exists i :: OccursAt(hay, needle, i)
    decreases |hay|
  {
    if exists i :: OccursAt(hay, needle, i) {
      var i :| OccursAt(hay, needle, i);
      OccursContains(hay, needle, i);
    }
    if Contains(hay, needle) {
      if StartsWith(hay, needle) {
        assert OccursAt(hay, needle, 0);
      } else {
        ContainsIff(hay[1..], needle);
        var j :| OccursAt(hay[1..], needle, j);
        assert hay[j + 1..j + 1 + |needle|] == hay[1..][j..j + |needle|];
        assert OccursAt(hay, needle, j + 1);
      }
    }
  }

  /** The empty string occurs in every string, so an empty query filters nothing out. */
  lemma ContainsEmpty(hay: string)
    ensures Contains(hay, "")
  {
    assert StartsWith(hay, "");
  }

  /** Case-insensitive substring test used by every search box: both sides lower-cased. */
  predicate ContainsIgnoreCase(hay: string, needle: string)
  {
    Contains(Lower(hay), Lower(needle))
  }

  /** The characters `trim` removes: the ECMAScript WhiteSpace and LineTerminator
      code points (TAB, VT, FF, SP, NBSP, BOM, the Zs space separators, LF, CR, LS, PS). */
  predicate IsSpace(c: char)
  {
    c == '\t' || c == '\U{000B}' || c == '\U{000C}' || c == ' ' || c == '\U{00A0}'
    || c == '\U{FEFF}' || c == '\U{1680}' || ('\U{2000}' <= c <= '\U{200A}')
    || c == '\U{202F}' || c == '\U{205F}' || c == '\U{3000}'
    || c == '\n' || c == '\r' || c == '\U{2028}' || c == '\U{2029}'
  }

  predicate AllSpace(s: string)
  {
    forall i :: 0 <= i < |s| ==> IsSpace(s[i])
  }

  /** The length of the leading run of whitespace. */
  function LeadingSpace(s: string): (k: nat)
    ensures k <= |s|
    ensures k < |s| ==> !IsSpace(s[k])
  {
    if s != [] && IsSpace(s[0]) then 1 + LeadingSpace(s[1..]) else 0
  }

  lemma {:induction false} LeadingAllSpace(s: string)
    ensures AllSpace(s[..LeadingSpace(s)])
  {
    if s != [] && IsSpace(s[0]) {
      var k := LeadingSpace(s);
      LeadingAllSpace(s[1..]);
      var t := s[..k];
      var u := s[1..][..k - 1];
      forall i | 0 <= i < |t| ensures IsSpace(t[i])
      {
        if i > 0 {
          assert t[i] == u[i - 1];
        }
      }
    }
  }

  /** The length of the trailing run of whitespace. */
  function TrailingSpace(s: string): (k: nat)
    ensures k <= |s|
    ensures k < |s| ==> !IsSpace(s[|s| - k - 1])
  {
    if s != [] && IsSpace(s[|s| - 1]) then 1 + TrailingSpace(s[..|s| - 1]) else 0
  }

  lemma {:induction false} TrailingAllSpace(s: string)
    ensures AllSpace(s[|s| - TrailingSpace(s)..])
  {
    if s != [] && IsSpace(s[|s| - 1]) {
      var k := TrailingSpace(s);
      var init := s[..|s| - 1];
      TrailingAllSpace(init);
      var t := s[|s| - k..];
      var u := init[|init| - (k - 1)..];
      forall i | 0 <= i < |t| ensures IsSpace(t[i])
      {
        if i < k - 1 {
          assert t[i] == u[i];
        }
      }
    }
  }

  /** `s.trimStart()`. */
  function TrimStart(s: string): (r: string)
    ensures r == [] || !IsSpace(r[0])
  {
    s[LeadingSpace(s)..]
  }

  /** `s.trimEnd()`. */
  function TrimEnd(s: string): (r: string)
    ensures r == [] || !IsSpace(r[|r| - 1])
  {
    s[..|s| - TrailingSpace(s)]
  }

  /** `s.trim()`: leading and trailing whitespace removed. */
  function Trim(s: string): (r: string)
    ensures |r| <= |s|
    ensures r == [] || (!IsSpace(r[0]) && !IsSpace(r[|r| - 1]))
  {
    TrimEnd(TrimStart(s))
  }

  /** Cutting a suffix of `s` at `m` cuts `s` itself at `k + m`. */
  lemma SliceOfSuffix(s: string, k: nat, m: nat)
    requires k + m <= |s|
    ensures s[k..][..m] == s[k..k + m]
    ensures s[k..][m..] == s[k + m..]
  {
  }

  /** What `Trim` removes is whitespace on both sides and nothing else: the
      result is the stretch of `s` after its leading whitespace, and all that
      follows it is whitespace. */
  lemma TrimShape(s: string)
    ensures var k := LeadingSpace(s);
      && k + |Trim(s)| <= |s|
      && s[k..k + |Trim(s)|] == Trim(s)
      && AllSpace(s[..k]) && AllSpace(s[k + |Trim(s)|..])
  {
    TrimSlice(s);
    LeadingAllSpace(s);
    TrimTailSpace(s);
  }

  /** `Trim(s)` is the slice of `s` that starts after the leading whitespace. */
  lemma TrimSlice(s: string)
    ensures LeadingSpace(s) + |Trim(s)| <= |s|
    ensures s[LeadingSpace(s)..LeadingSpace(s) + |Trim(s)|] == Trim(s)
  {
    var k := LeadingSpace(s);
    var a := s[k..];
    var j := TrailingSpace(a);
    assert Trim(s) == a[..|a| - j];
    SliceOfSuffix(s, k, |a| - j);
  }

  /** Everything after `Trim(s)` inside `s` is whitespace. */
  lemma TrimTailSpace(s: string)
    ensures LeadingSpace(s) + |Trim(s)| <= |s|
    ensures AllSpace(s[LeadingSpace(s) + |Trim(s)|..])
  {
    var k := LeadingSpace(s);
    var a := s[k..];
    var j := TrailingSpace(a);
    assert TrimStart(s) == a;
    assert |Trim(s)| == |a| - j;
    TrailingAllSpace(a);
    SliceOfSuffix(s, k, |a| - j);
    assert s[k + |Trim(s)|..] == a[|a| - j..];
  }

  /** A string that already has no surrounding whitespace is left alone by `Trim`. */
  lemma {:induction false} TrimNoSpace(s: string)
    requires s == [] || (!IsSpace(s[0]) && !IsSpace(s[|s| - 1]))
    ensures Trim(s) == s
  {
    assert LeadingSpace(s) == 0;
    assert s[0..] == s;
    assert TrailingSpace(s) == 0;
    assert s[..|s|] == s;
  }

  /** `s.replace(/pat/g, rep)` for a literal, non-empty pattern: leftmost,
      non-overlapping occurrences are replaced. */
  function ReplaceAll(s: string, pat: string, rep: string): string
    requires |pat| > 0
    decreases |s|
  {
    if |s| < |pat| then s
    else if StartsWith(s, pat) then rep + ReplaceAll(s[|pat|..], pat, rep)
    else [s[0]] + ReplaceAll(s[1..], pat, rep)
  }

  /** A replace-all whose pattern does not occur changes nothing. */
  lemma {:induction false} ReplaceAllAbsent(s: string, pat: string, rep: string)
    requires |pat| > 0
    requires !Contains(s, pat)
    ensures ReplaceAll(s, pat, rep) == s
    decreases |s|
  {
    if |s| < |pat| {
    } else {
      assert !StartsWith(s, pat);
      ReplaceAllAbsent(s[1..], pat, rep);
    }
  }

  /** An occurrence at the front is replaced and the scan resumes after it. */
  lemma ReplaceAllHead(pat: string, rest: string, rep: string)
    requires |pat| > 0
    ensures ReplaceAll(pat + rest, pat, rep) == rep + ReplaceAll(rest, pat, rep)
  {
    assert (pat + rest)[..|pat|] == pat;
    assert (pat + rest)[|pat|..] == rest;
  }

  /** A character that does not start an occurrence is copied and the scan moves on. */
  lemma ReplaceAllSkip(s: string, pat: string, rep: string)
    requires |pat| > 0 && |s| >= |pat| && s[0] != pat[0]
    ensures ReplaceAll(s, pat, rep) == [s[0]] + ReplaceAll(s[1..], pat, rep)
  {
    assert !StartsWith(s, pat) by {
      assert s[..|pat|][0] == s[0];
    }
  }

  /** `parts.join(sep)`. */
  function Join(parts: seq<string>, sep: string): (r: string)
    ensures parts == [] ==> r == []
    ensures |parts| == 1 ==> r == parts[0]
  {
    if |parts| == 0 then []
    else if |parts| == 1 then parts[0]
    else parts[0] + sep + Join(parts[1..], sep)
  }

  /** `s.split(sep)` for a single separator character. */
  function Split(s: string, sep: char): (r: seq<string>)
    ensures |r| >= 1
    decreases |s|
  {
    if s == [] then [[]]
    else
      var rest := Split(s[1..], sep);
      if s[0] == sep then [[]] + rest
      else [[s[0]] + rest[0]] + rest[1..]
  }

  predicate NoChar(s: string, c: char)
  {
    forall i :: 0 <= i < |s| ==> s[i] != c
  }

  lemma {:induction false} SplitNoSep(s: string, sep: char, tail: string)
    requires NoChar(s, sep)
    ensures Split(s + [sep] + tail, sep) == [s] + Split(tail, sep)
    ensures Split(s, sep) == [s]
    decreases |s|
  {
    if s == [] {
      assert [] + [sep] + tail == [sep] + tail;
      assert ([sep] + tail)[1..] == tail;
    } else {
      assert (s + [sep] + tail)[1..] == s[1..] + [sep] + tail;
      SplitNoSep(s[1..], sep, tail);
      assert [s[0]] + s[1..] == s;
    }
  }

  /** Splitting a join on the separator gives the parts back, provided no part
      contains the separator. */
  lemma {:induction false} SplitJoin(parts: seq<string>, sep: char)
    requires |parts| >= 1
    requires forall i :: 0 <= i < |parts| ==> NoChar(parts[i], sep)
    ensures Split(Join(parts, [sep]), sep) == parts
    decreases |parts|
  {
    if |parts| == 1 {
      SplitNoSep(parts[0], sep, []);
    } else {
      SplitJoin(parts[1..], sep);
      SplitNoSep(parts[0], sep, Join(parts[1..], [sep]));
      assert [parts[0]] + parts[1..] == parts;
    }
  }
}
